=== FILE: README.md ===
# cue-splitter, the splitting core in Dafny

cue-splitter is a desktop tool that splits one album image (a FLAC, WAVE or similar file)
into one file per track, following a CUE sheet. For each selected cuesheet it does the
following:

1. Parses the sheet into album fields and a song list.
2. Rewrites every INDEX time stamp from CD frames (75 per second) into a ten-decimal
   fraction of a second.
3. Builds one encoder command line per song and runs up to `concurrency_limit` of them at
   once.
4. Cleans the track file names and drops pre-gap files.
5. Tags the tracks.
6. Renames the working folder to `performer - title`, numbering it when that name is
   taken.

At the end it reports how many cuesheets were split and how many failed.

This project models that core as pure Dafny functions and methods:

| module | what it models |
|---|---|
| `Outcomes` | Python's `None`, and exceptions as a `Raised` outcome |
| `PyStr`, `PyNum` | The Python string and number operations the core relies on: `strip`, slices, `find`/`rfind`, `rpartition`, `replace`, `int()`, `str()`, `float()` on decimal text, `"{:.10f}"` and `"{:02}"` |
| `Cuesheet` | `remove_quotes_from_string` and `parse_cuesheet` (header pass, track pass, parse status) |
| `Timestamps` | `convert_temp_cuesheet_to_milliseconds`, as written and corrected |
| `Sanitize` | `cleanup_string` and the renaming and pre-gap removal of `cleanup_track_filenames` |
| `Commands` | `convert_index_to_seconds` and the command list of `file_split_ffmpeg` |
| `Schedule` | The process pool of `file_split_ffmpeg` |
| `Tags` | `transfer_tags` |
| `Finalize` | The folder name and the collision loop of the split handler |
| `Batch` | The batch loop of the split handler: per-cuesheet verdicts, counters, position labels and the final status message |

Time is exact. A time stamp is an integer number of ticks of 10^-10 s, the resolution of
the ten-decimal format the program writes.

The file system, the clock, the probed sample rate, `os.path.isfile` and the accent
stripping of `unicodedata` are parameters.

The processes' completion order and exit codes come from two oracles. Every run in which
all processes end is one choice of the oracles.

The modules named `…Props`, and `CuesheetBlocks`, hold the properties proved about these
modules. `CuesheetBlocks` describes a well-formed sheet as header lines and one
four-line block per song, and proves what the parser makes of it.

A FILE value without any double quote loses its last character. `find` returns -1, which
the source treats as true, so the value is sliced to `[:-1]`. The model keeps this, as
written, in `Cuesheet.ImageName`.

## Model

| member | source | states |
|---|---|---|
| Cuesheet.RemoveQuotes | cue-splitter.py:635-639 | An empty value raises IndexError. A value starting with a quote loses its first and last characters. Any other value is kept. |
| Cuesheet.ImageName | cue-splitter.py:701-705 | A FILE value with no double quote loses its last character and is stripped. A value starting with a quote is kept. |
| Cuesheet.YearOf | cue-splitter.py:680-683 | A non-empty all-digit date is kept as it is; anything else becomes blank. |
| Cuesheet.AlbumFields | cue-splitter.py:677-693 | The genre, date, performer and title checks never touch the FILE fields or the parse status. |
| Cuesheet.GenreField | cue-splitter.py:677-678 | A REM GENRE line sets the genre to the line's unquoted value, raising exactly when reading that value raises, and changes nothing else; any other line leaves the header alone. |
| Cuesheet.DateField | cue-splitter.py:679-683 | A REM DATE line sets the date to the line's unquoted value when that is all digits and blanks it otherwise, raising exactly when reading the value raises, and changes nothing else; any other line leaves the header alone. |
| Cuesheet.PerformerField | cue-splitter.py:684-686 | Only the performer and its flag change. |
| Cuesheet.TitleField | cue-splitter.py:687-693 | Only the title and its flag change. |
| Cuesheet.FileField | cue-splitter.py:694-716 | A FILE line changes only the FILE flag, the image path and the status. |
| Cuesheet.HeaderSection | cue-splitter.py:676-719 | The header pass reads a prefix of the lines, and only its last line can be a TRACK line. |
| Cuesheet.SongFields | cue-splitter.py:732-737 | PERFORMER, TITLE and INDEX never change the pending number. With no number pending, the line changes nothing. |
| Cuesheet.TrackLine | cue-splitter.py:740-745 | After a line, the pending fields are never complete. Either the song list is unchanged, or exactly one complete entry is appended and the pending fields are reset. |
| CuesheetProps.HeaderLineFile | cue-splitter.py:694-716 | The first FILE line records the joined image path and clears the status if the image is not a file. Any later FILE line clears the status. Other lines leave the FILE fields alone. |
| CuesheetProps.HeaderPassFile | cue-splitter.py:676-719 | Over the header section: a file is seen iff there is a FILE line, and the image comes from the first FILE line. The status survives iff there is exactly one FILE line and its image exists. |
| CuesheetProps.AlbumFieldsStep | cue-splitter.py:677-693 | Only the first PERFORMER and TITLE lines set their field. The title loses `[HDAudio]`. The date is digits or blank. |
| CuesheetProps.HeaderPassPerformer | cue-splitter.py:684-686 | The album performer is the value of the first PERFORMER line of the header section. |
| CuesheetProps.HeaderPassTitle | cue-splitter.py:687-693 | The album title is the value of the first TITLE line of the header section, with `[HDAudio]` removed. |
| CuesheetProps.AlbumFieldsGenreDate | cue-splitter.py:677-683 | One header line: REM GENRE gives the genre its value, REM DATE gives the date its value if all digits and "" otherwise, and other lines leave both alone. |
| CuesheetProps.HeaderPassGenre | cue-splitter.py:676-678 | Every REM GENRE line overwrites the genre, so the album genre is the value of the LAST such line of the header section, or unchanged when there is none. |
| CuesheetProps.HeaderPassDate | cue-splitter.py:676-683 | The album date comes from the LAST REM DATE line of the header section: its value if all digits, "" otherwise, unchanged when there is none. |
| CuesheetProps.ParseGenreDate | cue-splitter.py:670-683 | The parsed sheet's genre and date are those of the last REM GENRE and REM DATE lines before the first track, "" when absent, and the date is always all digits or "". |
| CuesheetProps.ParseStatus | cue-splitter.py:649-751 | The parse is OK iff all of these hold: the file was read, there is exactly one FILE line, its image exists, at least one song was committed, and no track number is left pending. |
| CuesheetProps.TrackFieldsNumber | cue-splitter.py:729-731 | The pending number is the two characters at offset 6 of a stripped TRACK line, and any other line keeps it. |
| CuesheetProps.IgnoredWithoutNumber | cue-splitter.py:732-737 | While no number is pending, PERFORMER, TITLE and INDEX lines are ignored. |
| CuesheetBlocks.TrackPassOfSheet | cue-splitter.py:721-745 | Take header lines without a TRACK line, then one block per song: a TRACK line carrying the number at offset 6, then TITLE, PERFORMER and INDEX lines carrying the fields. The track pass commits exactly those songs, in order, and leaves nothing pending. |
| CuesheetBlocks.ParseOfSheet | cue-splitter.py:649-751 | For such a sheet whose header has one FILE line: the parse raises only in the header pass. Otherwise its song list is exactly the blocks' songs, and it is OK iff the image exists and there is at least one song. |
| CuesheetBlocks.BlockCommits | cue-splitter.py:728-745 | A TRACK, TITLE, PERFORMER and INDEX block appends one `[number, title, performer, index]` entry and resets the pending fields. |
| CuesheetBlocks.HeaderIgnored | cue-splitter.py:727-737 | The track pass reads the header lines too. While no TRACK line has been seen, they change nothing. |
| CuesheetBlocks.TrackPassAppend | cue-splitter.py:727-745 | Running the pass over two runs of lines is running it over the first, then over the second from where the first left off. |
| CuesheetBlocks.Index00Kept | cue-splitter.py:732-745 | A block commits its entry as soon as its first INDEX line is read, so a following INDEX 01 line, or any other non-TRACK line, changes nothing: the INDEX kept is the first one of the track (typically INDEX 00). |
| CuesheetBlocks.TrackNotFile | cue-splitter.py:694-728 | A TRACK line is never a FILE line. So the first TRACK line, which the header pass also reads, adds no FILE line. |
| CuesheetBlocks.KeyClash | cue-splitter.py:728-736 | TRACK, TITLE, PERFORMER and INDEX tests exclude each other on the same line. |
| CuesheetProps.TrackPassCommits | cue-splitter.py:723-745 | The song list only grows, and every entry is complete. Entries plus a pending number never exceed the TRACK lines. |
| CuesheetProps.TrackPassNumbers | cue-splitter.py:723-745 | Every committed or pending number comes from a TRACK line that was read. |
| Timestamps.FrameTicks | cue-splitter.py:1224-1227 | The ten-digit fraction of `frames / 75` s is within a third of a tick of the exact value, and is never negative for a non-negative frame count. |
| Timestamps.NormalizeAsWrittenFrom | cue-splitter.py:1216-1235 | The rewrite as written keeps the number of lines. |
| Timestamps.NormalizeLine | cue-splitter.py:1217-1234 | A line without INDEX is unchanged. |
| Timestamps.Normalize | cue-splitter.py:1213-1239 | The corrected rewrite keeps the number of lines and rewrites each line by itself. It raises iff some line's frame field is not a number. |
| TimestampsProps.IndexLine | cue-splitter.py:1217-1220 | An INDEX line is rewritten from the text after its last colon. |
| TimestampsProps.FrameDigitsWidth | cue-splitter.py:1225-1227 | Below 75 frames the fraction is exactly ten digits and reads back as the rounded ticks. Zero frames give ten zeros. |
| TimestampsProps.FrameField | cue-splitter.py:1222-1227 | A two-digit frame field becomes a point and the ten-digit fraction of `d / 75`, keeping the line break. |
| TimestampsProps.MillisecondsField | cue-splitter.py:1228-1230 | A three-digit field is joined to the seconds with a point. |
| TimestampsProps.PointLeftAlone | cue-splitter.py:1221-1234 | A line whose last field holds a point is left untouched. |
| TimestampsProps.NormalizeLineIdempotent | cue-splitter.py:1208-1209 | Rewriting a rewritten line changes nothing. |
| TimestampsProps.RewriteIdempotent | cue-splitter.py:1217-1234 | A rewrite that changes the line produces a line the rewrite leaves alone. |
| TimestampsProps.NormalizeFixed | cue-splitter.py:1216-1235 | A sheet whose lines are all fixed points of the rewrite is unchanged. |
| TimestampsProps.NormalizeIdempotent | cue-splitter.py:1208-1209 | Normalising a normalised cuesheet changes nothing: sheets already in the decimal format are left as they are. |
| TimestampsProps.AsWrittenAgrees | cue-splitter.py:1216-1235 | When every INDEX line ends in a recognised field with its line break, the rewrite as written equals the corrected one, whatever `convertedLine` held before. |
| TimestampsProps.AsWrittenStale | cue-splitter.py:1221-1235 | As written, a last INDEX line with a two-digit frame field and no line break takes the previous INDEX line's result. |
| TimestampsProps.AsWrittenFrames | cue-splitter.py:1222-1227 | As written, a frame field ended by a line break is converted. |
| TimestampsProps.StaleAsWritten | cue-splitter.py:1216-1235 | For two INDEX lines whose last has no line break, the rewrite as written repeats the first line's result. |
| TimestampsProps.StaleCorrected | cue-splitter.py:1216-1235 | For the same two lines, the corrected rewrite converts each line's own field. |
| TimestampsProps.LastFrameField | cue-splitter.py:1222-1227 | The corrected rewrite converts a frame field that has no line break. |
| TimestampsProps.StaleCounterexample | cue-splitter.py:1216-1235 | `00:00:30` then a final `03:15:30`: as written both become `00:00.4000000000`; corrected, the second becomes `03:15.4000000000`. |
| TimestampsProps.ThirtyFrames | cue-splitter.py:1224-1227 | 30 frames are written as `4000000000`. |
| Sanitize.Underscored | cue-splitter.py:1174-1202 | The denylist step keeps the length. |
| Sanitize.CleanupLoop | cue-splitter.py:1168-1203 | The source's loop equals the character-wise map: after each position, every earlier denied character has been replaced everywhere. |
| Sanitize.SweepDenied | cue-splitter.py:1175-1202 | Where the loop meets a denied character for the first time, it replaces every copy of it. All other characters stay as they were. |
| Sanitize.UnderscoredPointwise | cue-splitter.py:1175-1202 | Each character becomes `_` if it is on the denylist, and stays otherwise. |
| Sanitize.UnderscoredClean | cue-splitter.py:1175-1203 | No denied character is left, other characters stay in place, and denied ones become `_`. |
| Sanitize.UnderscoredIdempotent | cue-splitter.py:1168-1203 | Cleaning a cleaned name changes nothing. |
| Sanitize.KeptNames | cue-splitter.py:1159-1166 | The kept cleaned names, in listing order and with duplicates kept, are never more than the names listed. |
| Sanitize.KeptNamesMembers | cue-splitter.py:1159-1166 | A name remains iff it is the cleaned form of a listed name and contains no `pregap.`. |
| Commands.SplitColon | cue-splitter.py:1286 | The split succeeds iff there is exactly one colon, and the parts rebuild the text. |
| Commands.EncoderArgs | cue-splitter.py:1298-1307 | OGG and FLAC always give arguments. MP3 gives them iff a quality is selected, has a first character, and has a third unless the first is `b`. OGG gives `-qscale:a` and the quality's `str` (`None` when unset). MP3 gives ` -b:a 320k` when the quality starts with `b`, and otherwise `-qscale:a` with the quality's third character. FLAC gives ` -compression_level 5`. |
| CommandsProps.RenderReadsBack | cue-splitter.py:1297-1319 | The command starts with the `ffmpeg` head naming the image in quotes, then the encoder arguments. It ends with the quoted output path. The text between them reads back as the job's resample flag, start and duration. So ` -ar 44100` is there iff the job resamples, and ` -t` iff it has a duration. |
| CommandsProps.OptionsReadBack | cue-splitter.py:1309-1317 | The options text reads back as the resample flag, the start and the duration, each time exact to the tick. |
| PyNum.FormatFixed10ReadBack | cue-splitter.py:1288 | A time printed with `{:.10f}` reads back as the same number of ticks, negative times included. |
| PyNum.FormatFixed10Shape | cue-splitter.py:1288 | A printed time has an optional `-`, digits, a point and exactly ten digits, and no space. So a `-ss` or `-t` value ends at the next space. |
| Commands.BuildCommands | cue-splitter.py:1295-1321 | Commands are built iff every song's command is; then there is one per song, in order. |
| CommandsProps.TrackTiming | cue-splitter.py:1311-1317 | A track starts at its own INDEX. Every track but the last has a duration reaching the next INDEX. The last has no duration. |
| CommandsProps.DurationMeaning | cue-splitter.py:1313-1317 | The `-t` value is the next INDEX minus the start, and it is absent only for the last song. |
| CommandsProps.TrackSettings | cue-splitter.py:1297-1310 | A job carries the settings' encoder arguments and image. It resamples to 44100 iff the codec is not FLAC and the probed rate is not the number 44100. |
| CommandsProps.TrackFailure | cue-splitter.py:1286-1318 | A job fails iff one of these cannot be read: the encoder arguments, its INDEX, the next INDEX or its track number. |
| CommandsProps.TimedAt | cue-splitter.py:1311-1317 | A job's start is the value of its INDEX. A job has a duration iff it is not the last one, and that duration reaches the next INDEX. |
| CommandsProps.JobsAbut | cue-splitter.py:1311-1317 | Consecutive jobs abut: each ends exactly where the next starts, with no gap and no overlap. |
| CommandsProps.DurationsTelescope | cue-splitter.py:1311-1317 | In abutting jobs, the durations before job `k` add up to the distance from the first start to job `k`'s start. |
| CommandsProps.TrackNameNumber | cue-splitter.py:1318 | A one- or two-digit track number gives a name of exactly two digits that read back as the number, then `_` and the cleaned title. |
| CommandsProps.IndexTicksOfSplit | cue-splitter.py:1286-1287 | Minutes and seconds read from the two parts add up to `minutes * 60 + seconds`. |
| CommandsProps.IndexTicksOfDecimal | cue-splitter.py:1284-1288 | `mm:ss.f` reads as `mm` minutes, `ss` seconds and the fraction `f`. |
| CommandsProps.IndexTicksOfFrames | cue-splitter.py:1284-1288 | An INDEX rewritten from frames reads back as its minutes, its seconds and the frame's rounded fraction of a second. |
| CommandsProps.SplitAtOnlyColon | cue-splitter.py:1286 | Text with a single colon splits into the parts around it. |
| Finalize.DirChar | cue-splitter.py:964-969 | What one character becomes never contains a replaced character. |
| Finalize.DirChars | cue-splitter.py:963-969 | The character-wise map leaves no `:` `/` `\` `!` `?` `*`. |
| Finalize.DirName | cue-splitter.py:963-971 | The folder name has at most 43 characters. It contains none of the characters the six `replace` calls remove. |
| Finalize.FreeName | cue-splitter.py:973-980 | The chosen name does not exist yet, and it is the first of `base`, `base_1`, `base_2`, ... that does not exist. |
| Finalize.Renumber | cue-splitter.py:978-980 | Reading the number after the last `_` of `base_k` with `int` and writing it back one higher gives `base_(k+1)`. |
| Finalize.SeenGrows | cue-splitter.py:976-980 | Each round of the collision loop tries a name not tried before, so the loop ends. |
| Finalize.CandidateNew | cue-splitter.py:975-980 | The numbered names tried are all different. |
| Finalize.SuffixReadsBack | cue-splitter.py:978-980 | In `base_k` the last `_` is the one before `k`, and `int` reads back `k`. Writing `k + 1` there gives the next name. |
| Finalize.ChainIsPerCharacter | cue-splitter.py:964-969 | The six `replace` calls map each character on its own, as `DirChar` says. |
| Finalize.CleanNameUnchanged | cue-splitter.py:964-969 | A name without replaced characters passes the chain unchanged. |
| Finalize.DirNameCap | cue-splitter.py:970-971 | A name longer than 42 characters keeps its first 42 and gets a `_`. Shorter names are kept. |
| Schedule.Run | cue-splitter.py:1324-1334 | See the list after this table. |
| Schedule.Start | cue-splitter.py:1324-1325 | `islice` starts the first `min(n, limit)` commands in order, and all of them are running. |
| Schedule.Poll | cue-splitter.py:1326-1334 | One observed completion keeps the loop state, and either starts a command or frees a slot, so the work left shrinks. |
| Schedule.Step | cue-splitter.py:1326-1334 | One observed completion keeps the loop state: launches, exits, slots, the limit and the success flag. |
| Schedule.RefillStep | cue-splitter.py:1329-1331 | A finished process whose slot gets the next command keeps the loop state. |
| Schedule.DropStep | cue-splitter.py:1332-1334 | A finished process whose slot is deleted, no command being left, keeps the loop state. |
| Schedule.InitialState | cue-splitter.py:1324-1325 | The first `min(n, limit)` commands start in order, and nothing has returned. |
| Schedule.RefillCounts | cue-splitter.py:1329-1331 | Refilling a slot starts the next command and records one more exit. |
| Schedule.RefillOrder | cue-splitter.py:1329-1331 | Refilling a slot keeps the running count within the limit, and every exit follows its launch. |
| Schedule.DropCounts | cue-splitter.py:1332-1334 | Deleting a slot records one more exit and starts nothing. |
| Schedule.DropOrder | cue-splitter.py:1332-1334 | Deleting a slot keeps the trace well ordered and within the limit. |
| Tags.FileTags | cue-splitter.py:1093-1099 | Each file gets exactly seven tags. The album performer's key is `composer` for MP3 and `performer` otherwise. |
| Tags.TransferTags | cue-splitter.py:1084-1142 | Tagging raises iff there are more files than songs. Otherwise file `k` gets song `k`'s tags, and the error flag is set iff some save failed. |
| Tags.TagsOfParse | cue-splitter.py:1093-1099 | File `k` of a parsed cuesheet is tagged with song `k`'s title and performer, the value of the last REM GENRE line before the first track as genre, and the all-digit value of the last REM DATE line (or "") as date. |
| Tags.TrackNumberReadsBack | cue-splitter.py:1099 | File `k`'s track number reads back as `k + 1`. |
| Batch.VerdictOf | cue-splitter.py:885-1006 | A cuesheet succeeds iff it parsed OK, its tagging did not raise, and the split succeeded. It fails to parse iff the parse gave a sheet that is not OK. It crashes iff the parse raised, or the parse was OK and the tagging raised. |
| Batch.CuesheetVerdict | cue-splitter.py:885-938 | After an OK parse the tags are always transferred, whatever the split did. The batch crashes iff the parse raised, or the parse was OK and more files are left than songs, so that `songList[currentSong]` in `transfer_tags` (line 1094) is out of range. |
| Batch.StatusRoundTrip | cue-splitter.py:1010-1019 | Both counts read back from the status message. |
| Batch.StatusInjective | cue-splitter.py:1010-1019 | Different counts give different status messages. |
| Batch.StatusNoErrors | cue-splitter.py:1013-1019 | The message ends in `no errors)` iff no split failed. |
| Batch.Reached | cue-splitter.py:865-1008 | The loop reaches every cuesheet, or those up to and including the first crash. |
| Batch.RunBatch | cue-splitter.py:859-1021 | See the list after this table. |
| Batch.LabelsAsWritten | cue-splitter.py:863-1008 | As written, the loop shows a label for each cuesheet it reaches. |
| Batch.LabelsAsWrittenCount | cue-splitter.py:863-1008 | As written, cuesheet `i` is labelled 1 plus the number of successes before it. |
| Batch.LabelRepeatsAfterFailure | cue-splitter.py:863-1008 | As written, the cuesheet after a failed one is shown with the same number. |
| Batch.LabelsAsWrittenRepeat | cue-splitter.py:863-1008 | A failed split followed by a good one is shown as "1 of 2" twice. |
| Batch.LabelsCorrected | cue-splitter.py:863-873 | There is one corrected label per cuesheet reached. |
| Batch.LabelsCorrectedCount | cue-splitter.py:863-873 | Corrected, cuesheet `i` is labelled `i + 1`, so the last of `N` shows `N of N`. |
| Batch.RunBatchLabels | cue-splitter.py:863-873 | The loop's labels are the corrected ones. |
| Batch.LabelsAgreeWhenAllSucceed | cue-splitter.py:1005-1008 | When every cuesheet succeeds, the source's labels are already the intended ones. |

`Schedule.Run` states, for `n` commands and a limit of at least one:

- exactly the commands `0 .. n - 1` start, in list order;
- each process returns exactly once;
- no more than `limit` processes run at any point;
- every exit follows its launch;
- after the first `min(n, limit)` launches, a command starts only right after a process returned;
- success is reported iff every exit code is zero.

`Batch.RunBatch` states, for the loop with the corrected label:

- cuesheet `i` gets the label `i + 1`;
- the status message is missing iff a cuesheet crashed;
- otherwise, the good count is the number of successes;
- the two counts add up to the number of cuesheets;
- the counts read back from the message.

## Left out

- The GUI is not modelled: widgets, dialogs, the spinner, logging and the about box.
- Threads are not modelled. The worker thread, the `GLib` wait loop and `worker_processing` are outside the model.
- Processes are not modelled: `subprocess.Popen`, `poll` and the shell. The scheduler sees completions through the two oracles `pick` and `exitCode`.
- Schedule.Run: assumes every process eventually returns. A process that never ends hangs the source's polling loop, and the model has no such run.
- Side effects on the file system are not modelled: `mkdtemp`, copying, `rename`, `remove`, `rmtree`, `listdir` and `glob`. The folder listing and the set of existing names are parameters.
- Tags.TransferTags: takes the sorted listing of track files as given, and leaves out `glob` and the sort.
- The image analysis is not modelled: the FLAC and WAVE readers, the media-info probe and `AudioImage`. The probed sample rate is the parameter `Probe`.
- Re-encoding the cuesheet to UTF-8 and `chardet` are not modelled. The parser receives the lines as text, or `None` when the file could not be read.
- Cover art (`transfer_cover`) and replay-gain analysis (`process_replay_gain`) are not modelled as steps. A non-zero exit of `rsgain` clears `splittingSucceeded` (lines 1061-1062). That is one of the inputs folded into the parameter `splitOk`, so the cuesheet then counts as a failed split.
- Sanitize.CleanupString: accent stripping (`unicodedata` NFD with the combining marks dropped) is the parameter `stripMarks`, because the Unicode tables are outside the model.
- Timestamps.FrameTicks: uses exact integer arithmetic instead of `float`. The exact value is `frames * 400000000 / 3`. Its fraction is 0, 1/3 or 2/3, so the rounding by `{:010.0f}` cannot be moved by the float error.
- Commands.IndexTicks: models `float(seconds)` only for plain decimal text: an optional sign, digits, a point and digits. Exponents, `inf` and `nan` raise in the model. Fractions longer than ten digits round half up to a tick.
- PyNum.PyInt: models `int()` and `isdigit()` for ASCII digits only, although Python also accepts other Unicode digits.
- Commands.BuildCommands: the duration is `float(stop) - float(start)` of two ten-decimal strings. It is modelled as the exact difference of the tick values.
- PyNum.FormatFixed10: prints an exact tick count, where Python formats a `float`. The two agree while the time has at most 15 significant digits, which holds below 10^5 seconds.
- Finalize.FreeName: the rename failure branch (lines 981-995) is not modelled. The chosen name never exists, so that branch needs another process to create the folder in between.
- Finalize.BaseDir: the parent folder `os.path.split(tempDir)[0]` is the parameter `parent`.
- CommandsProps.DurationsTelescope: the tiling is stated pairwise for consecutive jobs (`JobsAbut`) and summed over any abutting job sequence. It is not a single theorem about the output of `BuildCommands`.
- Batch.CuesheetVerdict: "crashes iff" covers only the parse and the song index in `transfer_tags`. Other exceptions escape the handler in the source but are not modelled: `Image.open`, `thumbnail` or `save` on an unreadable cover (lines 1037-1039, with no `try`), and the tag writers `OggVorbis`, `EasyID3` or `FLAC` failing to open a listed file (lines 1093, 1112, 1129).
- Batch.VerdictOf: a split worker that raises leaves `worker_processing` set and hangs the batch. That hang is not a verdict of the model.
- `Timestamps.NormalizeAsWritten` is the normaliser as written, and `Timestamps.Normalize` is the corrected one; see Findings. The normaliser is not composed with the parser or the command builder. The builder takes the songs of the second parse as a parameter. `CommandsProps.IndexTicksOfFrames` links the two at the level of one INDEX: a field the corrected normaliser writes reads back as its minutes, seconds and frames.
- `Batch.LabelsAsWritten` is the label counter as written. `Batch.RunBatch` counts every cuesheet; see Findings.

## Findings

| source | as written | input that shows it | evidently intended | confidence | as-written member | corrected member |
|---|---|---|---|---|---|---|
| cue-splitter.py:1221-1235 | `convertedLine` is assigned only for tails of length 3 or 4. Any other INDEX tail keeps the previous INDEX line's value, or raises UnboundLocalError on the first one. | A last line `INDEX 01 03:15:30` with no line break after `INDEX 01 00:00:30\n`. Both lines become `INDEX 01 00:00.4000000000\n`. | Recognise the frame field whether or not a line break follows. Leave any other line unchanged. | not executed | TimestampsProps.StaleCounterexample | Timestamps.Normalize |
| cue-splitter.py:863-1008 | `cuesheetInProcess` grows only after a successful cuesheet, because both failure branches `continue` before the increment. | Verdicts `[split failed, succeeded]`: both cuesheets are labelled "Processing Cuesheet: 1 of 2". | Each cuesheet is labelled with its position in the list. | not executed | Batch.LabelsAsWrittenRepeat | Batch.LabelsCorrectedCount |

=== FILE: batch.dfy ===
/** The batch loop of the split button: each selected cuesheet ends parsed-with-errors,
    split-with-errors or split, the loop counts the good and the failed ones, shows a
    "Processing Cuesheet: k of N" label for each, and reports the counts in a final
    status message. What happens inside one cuesheet (parse, split, rename) reaches the
    loop only through its verdict. */
module Batch {
  import opened Outcomes
  import opened PyStr
  import opened PyNum
  import opened Cuesheet
  import opened Commands
  import opened Tags

  /** How one cuesheet ends. `Crashed` is an exception escaping the handler, which ends
      the whole batch with no status message. */
  datatype Verdict = Crashed | ParseFailed | SplitFailed | Succeeded

  /** The verdict of one cuesheet from its parse, from the tag transfer that follows a
      good parse whatever the split did, and from `splittingSucceeded`, which the worker,
      the replay-gain run and the rename step leave behind. An exception in the parse or in the tagging
      escapes the handler. */
  function VerdictOf<T>(parse: Outcome<Sheet>, tagging: Outcome<T>, splitOk: bool): (r: Verdict)
    ensures r == Succeeded <==> parse.Value? && parse.value.ok && tagging.Value? && splitOk
    ensures r == ParseFailed <==> parse.Value? && !parse.value.ok
    ensures r == Crashed <==> parse.Raised? || (parse.value.ok && tagging.Raised?)
  {
    match parse
    case Raised => Crashed
    case Value(sheet) =>
      if !sheet.ok then ParseFailed
      else if tagging.Raised? then Crashed
      else if !splitOk then SplitFailed
      else Succeeded
  }

  /** One cuesheet after its parse: a good parse goes on to tag the files the split left,
      and the verdict follows. The batch crashes iff the parse raised or, after a good
      parse, more files are left than there are songs. */
  method CuesheetVerdict(parse: Outcome<Sheet>, codec: Codec, files: seq<string>,
                         saveOk: nat -> bool, splitOk: bool)
    returns (r: Verdict)
    ensures r == Crashed <==> parse.Raised? || (parse.value.ok && |files| > |parse.value.songs|)
    ensures r == ParseFailed <==> parse.Value? && !parse.value.ok
    ensures r == Succeeded <==> parse.Value? && parse.value.ok && |files| <= |parse.value.songs| && splitOk
  {
    if parse.Value? && parse.value.ok {
      var tagging, _ := TransferTags(codec, parse.value, files, saveOk);
      r := VerdictOf(parse, tagging, splitOk);
    } else {
      r := VerdictOf(parse, Value(0), splitOk);
    }
  }

  // ---------------------------------------------------------------------------------
  // The status message

  const Opening := "Cue-splitter job done ("
  const OkWords := " split/s OK, "
  const ErrWords := " split/s with errors - see log"
  const NoErrors := "no errors"

  /** The final status message for `ok` good and `err` failed splits: the good count only
      when there is one, then the failed count or "no errors". */
  function Status(ok: nat, err: nat): string {
    Opening + OkPart(ok) + ErrPart(err) + ")"
  }

  function OkPart(ok: nat): string {
    if ok > 0 then NatToString(ok) + OkWords else ""
  }

  function ErrPart(err: nat): string {
    if err > 0 then NatToString(err) + ErrWords else NoErrors
  }

  /** The leading decimal digits of `s`, and the rest. */
  function SpanDigits(s: string): (r: (string, string))
    ensures r.0 + r.1 == s && AllDigits(r.0) && (r.1 == [] || !IsDigit(r.1[0]))
    decreases |s|
  {
    if s != [] && IsDigit(s[0]) then
      var t := SpanDigits(s[1..]);
      ([s[0]] + t.0, t.1)
    else ([], s)
  }

  /** Reads the two counts back out of a status message; `None` for any other text. */
  function ReadStatus(m: string): Option<(nat, nat)> {
    if StartsWith(m, Opening) then ReadCounts(m[|Opening|..]) else None
  }

  /** The counts after the opening words: a number followed by the good-split words, or
      none; then the failed part. */
  function ReadCounts(s: string): Option<(nat, nat)> {
    var (a, rest) := SpanDigits(s);
    if a != [] && StartsWith(rest, OkWords) then
      match ReadErrors(rest[|OkWords|..])
      case None => None
      case Some(err) => Some((DigitsValue(a), err))
    else
      match ReadErrors(s)
      case None => None
      case Some(err) => Some((0, err))
  }

  /** The failed part and the closing parenthesis: a number and the error words, or
      "no errors". */
  function ReadErrors(s: string): Option<nat> {
    var (a, rest) := SpanDigits(s);
    if a == [] then
      if rest == NoErrors + ")" then Some(0) else None
    else if rest == ErrWords + ")" then Some(DigitsValue(a))
    else None
  }

  /** The status message states both counts: they read back from it. */
  lemma StatusRoundTrip(ok: nat, err: nat)
    ensures ReadStatus(Status(ok, err)) == Some((ok, err))
  {
    var body := OkPart(ok) + ErrPart(err) + ")";
    assert ReadCounts(body) == Some((ok, err)) by {
      if ok > 0 {
        ReadCountsGood(ok, err);
      } else {
        ReadCountsNoGood(err);
      }
    }
    StatusParts(ok, err);
    ReadAfterOpening(body);
  }

  lemma StatusParts(ok: nat, err: nat)
    ensures Status(ok, err) == Opening + (OkPart(ok) + ErrPart(err) + ")")
  {
    ConcatAssoc(Opening, OkPart(ok), ErrPart(err), ")");
  }

  /** Regrouping kept apart from the message text, whose literals make it expensive. */
  lemma ConcatAssoc(w: string, x: string, y: string, z: string)
    ensures w + x + y + z == w + (x + y + z)
    ensures w + x + y + z == w + (x + (y + z))
  {
  }

  lemma ReadAfterOpening(body: string)
    ensures ReadStatus(Opening + body) == ReadCounts(body)
  {
    var m := Opening + body;
    assert m[..|Opening|] == Opening && m[|Opening|..] == body;
  }

  lemma ReadCountsGood(ok: nat, err: nat)
    requires ok > 0
    ensures ReadCounts(OkPart(ok) + ErrPart(err) + ")") == Some((ok, err))
  {
    var digits := NatToString(ok);
    var tail := ErrPart(err) + ")";
    assert OkPart(ok) == digits + OkWords;
    ConcatAssoc(digits, OkWords, ErrPart(err), ")");
    ReadErrorsRoundTrip(err);
    ReadCountsOfGood(digits, tail);
    NatToStringRoundTrip(ok);
  }

  /** Digits, the good-split words, then a readable failed part. */
  lemma ReadCountsOfGood(digits: string, tail: string)
    requires digits != [] && AllDigits(digits) && ReadErrors(tail).Some?
    ensures ReadCounts(digits + (OkWords + tail)) == Some((DigitsValue(digits), ReadErrors(tail).value))
  {
    var rest := OkWords + tail;
    SpanDigitsOf(digits, rest);
    assert rest[..|OkWords|] == OkWords && rest[|OkWords|..] == tail;
  }

  lemma ReadCountsNoGood(err: nat)
    ensures ReadCounts(OkPart(0) + ErrPart(err) + ")") == Some((0, err))
  {
    var tail := ErrPart(err) + ")";
    ReadErrorsRoundTrip(err);
    assert OkPart(0) + ErrPart(err) + ")" == tail;
    ErrorsNotOk(err);
  }

  /** A failed part never reads as a good count. */
  lemma ErrorsNotOk(err: nat)
    ensures var (a, rest) := SpanDigits(ErrPart(err) + ")");
      !(a != [] && StartsWith(rest, OkWords))
  {
    if err > 0 {
      ErrorsWordsNotOk(err);
    } else {
      SpanDigitsOf([], NoErrors + ")");
    }
  }

  lemma ErrorsWordsNotOk(err: nat)
    requires err > 0
    ensures !StartsWith(SpanDigits(ErrPart(err) + ")").1, OkWords)
  {
    var rest := ErrWords + ")";
    assert SpanDigits(ErrPart(err) + ")").1 == rest by {
      assert ErrPart(err) + ")" == NatToString(err) + rest;
      SpanDigitsOf(NatToString(err), rest);
    }
    assert rest[..|OkWords|][9] != OkWords[9];
  }

  lemma ReadErrorsRoundTrip(err: nat)
    ensures ReadErrors(ErrPart(err) + ")") == Some(err)
  {
    if err > 0 {
      assert ErrPart(err) + ")" == NatToString(err) + (ErrWords + ")");
      SpanDigitsOf(NatToString(err), ErrWords + ")");
      NatToStringRoundTrip(err);
    } else {
      SpanDigitsOf([], NoErrors + ")");
    }
  }

  /** Different counts give different messages. */
  lemma StatusInjective(ok1: nat, err1: nat, ok2: nat, err2: nat)
    ensures Status(ok1, err1) == Status(ok2, err2) <==> ok1 == ok2 && err1 == err2
  {
    StatusRoundTrip(ok1, err1);
    StatusRoundTrip(ok2, err2);
  }

  /** The message ends in "no errors)" exactly when no split failed. */
  lemma StatusNoErrors(ok: nat, err: nat)
    ensures EndsWith(Status(ok, err), NoErrors + ")") <==> err == 0
  {
    var m := Status(ok, err);
    var k := |NoErrors + ")"|;
    if err > 0 {
      var p := Opening + OkPart(ok) + NatToString(err);
      var e := ErrWords + ")";
      assert m == p + e;
      assert m[|m| - 2] == e[|e| - 2] == 'g';
      assert (NoErrors + ")")[k - 2] == 's';
    } else {
      assert m == (Opening + OkPart(ok)) + (NoErrors + ")");
    }
  }

  lemma {:induction false} SpanDigitsOf(a: string, b: string)
    requires AllDigits(a) && (b == [] || !IsDigit(b[0]))
    ensures SpanDigits(a + b) == (a, b)
    decreases |a|
  {
    if a == [] {
      assert a + b == b;
    } else {
      SpanDigitsOf(a[1..], b);
      assert (a + b)[1..] == a[1..] + b;
      assert [a[0]] + a[1..] == a;
    }
  }

  // ---------------------------------------------------------------------------------
  // The loop

  /** The cuesheets the loop reaches: all of them, or those up to the first crash. */
  function Reached(verdicts: seq<Verdict>): (r: nat)
    ensures r <= |verdicts|
    ensures Crashed !in verdicts ==> r == |verdicts|
    ensures Crashed in verdicts ==>
      && 0 < r && verdicts[r - 1] == Crashed
      && forall k :: 0 <= k < r - 1 ==> verdicts[k] != Crashed
    decreases |verdicts|
  {
    if verdicts == [] then 0
    else if verdicts[0] == Crashed then 1
    else
      assert Crashed in verdicts ==> Crashed in verdicts[1..];
      1 + Reached(verdicts[1..])
  }

  /** The batch loop, with the position label corrected to count every cuesheet. The
      result is the two counters, the `k` of each "Processing Cuesheet: k of N" label
      shown, and the status message, which a crash leaves unset. */
  method RunBatch(verdicts: seq<Verdict>) returns (ok: nat, err: nat, labels: seq<nat>, message: Option<string>)
    ensures |labels| == Reached(verdicts)
    ensures forall i :: 0 <= i < |labels| ==> labels[i] == i + 1
    ensures message.None? <==> Crashed in verdicts
    ensures message.Some? ==>
      && ok == multiset(verdicts)[Succeeded]
      && ok + err == |verdicts|
      && ReadStatus(message.value) == Some((ok, err))
  {
    ok, err := 0, 0;
    labels := [];
    var inProcess := 1;
    var i := 0;
    while i < |verdicts|
      invariant 0 <= i <= |verdicts| && Crashed !in verdicts[..i]
      invariant ok == multiset(verdicts[..i])[Succeeded] && ok + err == i
      invariant inProcess == i + 1 && |labels| == i
      invariant forall k :: 0 <= k < i ==> labels[k] == k + 1
    {
      labels := labels + [inProcess];
      assert verdicts[..i + 1] == verdicts[..i] + [verdicts[i]];
      if verdicts[i] == Crashed {
        CrashReached(verdicts, i);
        return ok, err, labels, None;
      }
      if verdicts[i] == ParseFailed {
        err := err + 1;
      } else if verdicts[i] == SplitFailed {
        err := err + 1;
      } else {
        ok := ok + 1;
      }
      inProcess := inProcess + 1;
      i := i + 1;
    }
    assert verdicts[..i] == verdicts;
    message := Some(Status(ok, err));
    StatusRoundTrip(ok, err);
  }

  /** The first crash is where the loop stops. */
  lemma CrashReached(verdicts: seq<Verdict>, i: nat)
    requires i < |verdicts| && verdicts[i] == Crashed && Crashed !in verdicts[..i]
    ensures Reached(verdicts) == i + 1
  {
    assert Crashed in verdicts;
    forall k | 0 <= k < i ensures verdicts[k] != Crashed {
      assert verdicts[..i][k] == verdicts[k];
    }
  }

  // ---------------------------------------------------------------------------------
  // The position label

  /** The `k` of each label as the source computes it: `cuesheetInProcess` starts at 1
      and is raised only at the end of a successful cuesheet; the failure branches
      `continue` before reaching it. */
  function LabelsAsWritten(verdicts: seq<Verdict>, counter: nat): (r: seq<nat>)
    ensures |r| == Reached(verdicts)
    decreases |verdicts|
  {
    if verdicts == [] then []
    else if verdicts[0] == Crashed then [counter]
    else
      var next := if verdicts[0] == Succeeded then counter + 1 else counter;
      [counter] + LabelsAsWritten(verdicts[1..], next)
  }

  /** As written, the label of a cuesheet is the starting counter plus the number of
      successes before it. */
  lemma {:induction false} LabelsAsWrittenCount(verdicts: seq<Verdict>, counter: nat, i: nat)
    requires i < |LabelsAsWritten(verdicts, counter)|
    ensures LabelsAsWritten(verdicts, counter)[i] == counter + multiset(verdicts[..i])[Succeeded]
    decreases |verdicts|
  {
    if i > 0 {
      var next := if verdicts[0] == Succeeded then counter + 1 else counter;
      LabelsAsWrittenCount(verdicts[1..], next, i - 1);
      PrefixAfterHead(verdicts, i);
    }
  }

  /** Counting successes in a prefix: the head, then the rest of the prefix. */
  lemma PrefixAfterHead(verdicts: seq<Verdict>, i: nat)
    requires 1 <= i <= |verdicts|
    ensures multiset(verdicts[..i])[Succeeded]
      == (if verdicts[0] == Succeeded then 1 else 0) + multiset(verdicts[1..][..i - 1])[Succeeded]
  {
    assert verdicts[..i] == [verdicts[0]] + verdicts[1..][..i - 1];
  }

  /** After a cuesheet that fails, the next one is shown with the same number. */
  lemma LabelRepeatsAfterFailure(verdicts: seq<Verdict>, counter: nat, i: nat)
    requires i + 1 < |LabelsAsWritten(verdicts, counter)| && verdicts[i] != Succeeded
    ensures LabelsAsWritten(verdicts, counter)[i] == LabelsAsWritten(verdicts, counter)[i + 1]
  {
    LabelsAsWrittenCount(verdicts, counter, i);
    LabelsAsWrittenCount(verdicts, counter, i + 1);
    assert verdicts[..i + 1] == verdicts[..i] + [verdicts[i]];
  }

  /** A failed split followed by a good one is shown as "1 of 2" twice. */
  lemma LabelsAsWrittenRepeat()
    ensures LabelsAsWritten([SplitFailed, Succeeded], 1) == [1, 1]
  {
    LabelRepeatsAfterFailure([SplitFailed, Succeeded], 1, 0);
  }

  /** The evidently intended label: the cuesheet's position, counted from 1. */
  function LabelsCorrected(verdicts: seq<Verdict>, counter: nat): (r: seq<nat>)
    ensures |r| == Reached(verdicts)
    decreases |verdicts|
  {
    if verdicts == [] then []
    else if verdicts[0] == Crashed then [counter]
    else [counter] + LabelsCorrected(verdicts[1..], counter + 1)
  }

  /** The corrected labels count up by one, so each cuesheet gets its own number and the
      last of `N` is shown as `N of N`. */
  lemma {:induction false} LabelsCorrectedCount(verdicts: seq<Verdict>, counter: nat)
    ensures forall i :: 0 <= i < |LabelsCorrected(verdicts, counter)| ==>
      LabelsCorrected(verdicts, counter)[i] == counter + i
    decreases |verdicts|
  {
    if verdicts != [] && verdicts[0] != Crashed {
      LabelsCorrectedCount(verdicts[1..], counter + 1);
    }
  }

  /** The loop's labels are the corrected ones. */
  lemma RunBatchLabels(verdicts: seq<Verdict>, labels: seq<nat>)
    requires |labels| == Reached(verdicts)
    requires forall i :: 0 <= i < |labels| ==> labels[i] == i + 1
    ensures labels == LabelsCorrected(verdicts, 1)
  {
    LabelsCorrectedCount(verdicts, 1);
  }

  /** When every cuesheet succeeds the source's labels are already the intended ones. */
  lemma {:induction false} LabelsAgreeWhenAllSucceed(verdicts: seq<Verdict>, counter: nat)
    requires forall i :: 0 <= i < |verdicts| ==> verdicts[i] == Succeeded
    ensures LabelsAsWritten(verdicts, counter) == LabelsCorrected(verdicts, counter)
    decreases |verdicts|
  {
    if verdicts != [] {
      LabelsAgreeWhenAllSucceed(verdicts[1..], counter + 1);
    }
  }
}

=== FILE: commands.dfy ===
/** The per-track cutting commands of `file_split_ffmpeg`: one encoder command line per
    committed song, cutting from the song's INDEX to the next song's INDEX (the last song
    runs to the end of the image), encoding with the chosen codec and writing a sanitised,
    numbered file into the working directory. Time stamps are exact fixed-point values in
    ticks of 10^-10 s. */
module Commands {
  import opened Outcomes
  import opened PyStr
  import opened PyNum
  import opened Cuesheet
  import opened Sanitize

  /** The codecs the user can choose. */
  datatype Codec = OGG | MP3 | FLAC

  function CodecName(c: Codec): string {
    match c
    case OGG => "OGG"
    case MP3 => "MP3"
    case FLAC => "FLAC"
  }

  /** The probed sample rate of the audio image: not probed (Python's `False`), a number
      (from the FLAC or WAVE readers), or text (from the media-info probe, which reports
      strings). Only the number 44100 compares equal to `44100`. */
  datatype Probe = Unknown | Hz(hz: int) | Text(text: string)

  /** The settings shared by every track of one split. `stripMarks` is the accent
      stripping inside `cleanup_string`. */
  datatype Settings = Settings(
    image: string,
    codec: Codec,
    quality: Option<string>,
    rate: Probe,
    workDir: string,
    stripMarks: string -> string)

  /** What one command asks the encoder to do. */
  datatype Job = Job(
    image: string,
    encoder: string,
    resample: bool,
    start: int,
    duration: Option<int>,
    output: string)

  // ---------------------------------------------------------------------------------
  // convert_index_to_seconds

  /** `minutes, seconds = s.split(":")`: exactly one colon, or ValueError. */
  function SplitColon(s: string): (r: Outcome<(string, string)>)
    ensures r.Value? ==> s == r.value.0 + [':'] + r.value.1 && ':' !in r.value.0 && ':' !in r.value.1
    ensures r.Raised? ==> ':' !in s || exists i, j :: 0 <= i < j < |s| && s[i] == ':' && s[j] == ':'
  {
    var i := Find(s, ':');
    if i == -1 then Raised
    else if ':' in s[i + 1..] then
      SecondColon(s, i);
      Raised
    else
      assert s == s[..i] + [':'] + s[i + 1..];
      Value((s[..i], s[i + 1..]))
  }

  lemma SecondColon(s: string, i: nat)
    requires i < |s| && s[i] == ':' && ':' in s[i + 1..]
    ensures exists a, b :: 0 <= a < b < |s| && s[a] == ':' && s[b] == ':'
  {
    var k :| 0 <= k < |s[i + 1..]| && s[i + 1..][k] == ':';
    assert s[i + 1 + k] == ':';
  }

  /** `int(minutes) * 60 + float(seconds)`, in ticks. */
  function IndexTicks(s: string): Outcome<int> {
    match SplitColon(s)
    case Raised => Raised
    case Value(parts) => MinutesAndSeconds(PyInt(parts.0), DecimalTicks(parts.1))
  }

  /** Whole minutes and seconds in ticks, added, once both have been read. */
  function MinutesAndSeconds(minutes: Outcome<int>, seconds: Outcome<int>): Outcome<int> {
    match (minutes, seconds)
    case (Value(m), Value(t)) => Value(m * 60 * Scale + t)
    case _ => Raised
  }

  // ---------------------------------------------------------------------------------
  // One command

  /** The fixed start of the OGG arguments; `str(quality)` follows. */
  const OggPrefix := " -acodec libvorbis -ac 2 -qscale:a "

  /** The fixed start of the MP3 arguments; a bit rate or a quality scale follows. */
  const Mp3Prefix := " -acodec mp3 -ac 2"

  /** The codec arguments. OGG prints the quality as it is (`None` when no quality was
      selected); MP3 reads the quality's first character, and its third unless the first
      is `b`, raising when they are missing. */
  function EncoderArgs(codec: Codec, quality: Option<string>): (r: Outcome<string>)
    ensures codec != MP3 ==> r.Value?
    ensures codec == MP3 ==>
      (r.Value? <==> quality.Some? && |quality.value| >= 1 && (quality.value[0] == 'b' || |quality.value| >= 3))
    ensures codec == OGG && quality.Some? ==> r.value == OggPrefix + quality.value
    ensures codec == OGG && quality.None? ==> r.value == OggPrefix + "None"
    ensures codec == MP3 && r.Value? && quality.value[0] == 'b' ==> r.value == Mp3Prefix + " -b:a 320k"
    ensures codec == MP3 && r.Value? && quality.value[0] != 'b' ==>
      r.value == Mp3Prefix + " -qscale:a " + [quality.value[2]]
    ensures codec == FLAC ==> r.value == " -acodec flac -ac 2 -compression_level 5"
  {
    match codec
    case OGG =>
      Value(OggPrefix + (if quality.Some? then quality.value else "None"))
    case MP3 =>
      if quality.None? || quality.value == [] then Raised
      else if quality.value[0] != 'b' then
        if |quality.value| < 3 then Raised
        else Value(Mp3Prefix + " -qscale:a " + [quality.value[2]])
      else Value(Mp3Prefix + " -b:a 320k")
    case FLAC => Value(" -acodec flac -ac 2 -compression_level 5")
  }

  /** Whether `-ar 44100` is added. */
  predicate Resample(codec: Codec, rate: Probe) {
    rate != Hz(44100) && codec != FLAC
  }

  /** The track file name: the two-digit track number, `_`, and the cleaned title. */
  function TrackName(stripMarks: string -> string, song: Song): Outcome<string> {
    match PyInt(song.number)
    case Raised => Raised
    case Value(n) => Value(ZeroPadInt(n, 2) + "_" + CleanupString(stripMarks, song.title))
  }

  /** The output file: the track name in the working directory, with the lower-case codec
      as extension. */
  function OutputPath(cfg: Settings, name: string): string {
    JoinPath(cfg.workDir, name) + "." + Lower(CodecName(cfg.codec))
  }

  /** The job of song `i`; the steps raise in the source's order. */
  function TrackJob(cfg: Settings, songs: seq<Song>, i: nat): Outcome<Job>
    requires i < |songs|
  {
    match EncoderArgs(cfg.codec, cfg.quality)
    case Raised => Raised
    case Value(encoder) =>
      match IndexTicks(songs[i].index)
      case Raised => Raised
      case Value(start) =>
        match Duration(songs, i, start)
        case Raised => Raised
        case Value(duration) =>
          match TrackName(cfg.stripMarks, songs[i])
          case Raised => Raised
          case Value(name) =>
            Value(Job(cfg.image, encoder, Resample(cfg.codec, cfg.rate), start, duration, OutputPath(cfg, name)))
  }

  /** The `-t` value of song `i` starting at `start`: the next song's INDEX minus `start`,
      and none for the last song. */
  function Duration(songs: seq<Song>, i: nat, start: int): Outcome<Option<int>>
    requires i < |songs|
  {
    if i < |songs| - 1 then
      match IndexTicks(songs[i + 1].index)
      case Raised => Raised
      case Value(stop) => Value(Some(stop - start))
    else Value(None)
  }

  /** The command line of a job, as the shell receives it: the fixed head naming the
      image and the encoder arguments, the timing options, and the quoted output path. */
  function Render(j: Job): string {
    CommandHead(j) + Options(j) + CommandTail(j)
  }

  function CommandHead(j: Job): string {
    "ffmpeg -hide_banner -loglevel info -i \"" + j.image + "\"" + j.encoder
  }

  function CommandTail(j: Job): string {
    " \"" + j.output + "\""
  }

  const ResampleArg := " -ar 44100"

  /** The options between the encoder arguments and the output path: the resampling
      argument when asked for, the start, and the duration when there is one, each time
      printed with ten decimals. */
  function Options(j: Job): string {
    (if j.resample then ResampleArg else "") + " -ss " + FormatFixed10(j.start) + DurationArg(j.duration)
  }

  function DurationArg(d: Option<int>): string {
    if d.Some? then " -t " + FormatFixed10(d.value) else ""
  }

  /** A reader for the options text, independent of `Options`: whether it resamples, the
      start, and the duration, or `None` when the text is not of that form. */
  function ReadOptions(o: string): Option<(bool, int, Option<int>)> {
    match ReadFlag(o)
    case None => None
    case Some(flagged) =>
      match ReadTimes(flagged.1)
      case None => None
      case Some(times) => Some((flagged.0, times.0, times.1))
  }

  /** Whether the options start with the resampling argument, and the text after the
      ` -ss ` that must follow. */
  function ReadFlag(o: string): Option<(bool, string)> {
    var resample := StartsWith(o, ResampleArg);
    var rest := if resample then o[|ResampleArg|..] else o;
    if StartsWith(rest, " -ss ") then Some((resample, rest[5..])) else None
  }

  /** The start up to the first space and, after ` -t `, the duration. */
  function ReadTimes(tail: string): Option<(int, Option<int>)> {
    var sp := Find(tail, ' ');
    var startText := if sp == -1 then tail else tail[..sp];
    match DecimalTicks(startText)
    case Raised => None
    case Value(start) =>
      if sp == -1 then Some((start, None))
      else if !StartsWith(tail[sp..], " -t ") then None
      else
        match DecimalTicks(tail[sp + 4..])
        case Raised => None
        case Value(d) => Some((start, Some(d)))
  }

  // ---------------------------------------------------------------------------------
  // The command list

  /** The command of song `i`. */
  function Command(cfg: Settings, songs: seq<Song>, i: nat): Outcome<string>
    requires i < |songs|
  {
    match TrackJob(cfg, songs, i)
    case Raised => Raised
    case Value(job) => Value(Render(job))
  }

  /** The `commandsList` loop: one command per song, in order; the first step that raises
      ends the split. */
  method BuildCommands(cfg: Settings, songs: seq<Song>) returns (r: Outcome<seq<string>>)
    ensures r.Value? <==> forall i :: 0 <= i < |songs| ==> Command(cfg, songs, i).Value?
    ensures r.Value? ==> |r.value| == |songs|
    ensures r.Value? ==> forall i :: 0 <= i < |songs| ==> Command(cfg, songs, i) == Value(r.value[i])
  {
    var f: nat -> Outcome<string> := (i: nat) => if i < |songs| then Command(cfg, songs, i) else Raised;
    r := Collect(|songs|, f);
    forall i | 0 <= i < |songs| ensures f(i) == Command(cfg, songs, i) {
    }
  }

  /** `f(0), ..., f(n - 1)` in order, stopping at the first that raises. */
  method Collect<T>(n: nat, f: nat -> Outcome<T>) returns (r: Outcome<seq<T>>)
    ensures r.Value? <==> forall i :: 0 <= i < n ==> f(i).Value?
    ensures r.Value? ==> |r.value| == n && forall i :: 0 <= i < n ==> f(i) == Value(r.value[i])
  {
    var items: seq<T> := [];
    var index := 0;
    while index < n
      invariant 0 <= index <= n && |items| == index
      invariant forall i :: 0 <= i < index ==> f(i) == Value(items[i])
    {
      var c := f(index);
      if c.Raised? {
        return Raised;
      }
      items := items + [c.value];
      index := index + 1;
    }
    return Value(items);
  }
}

=== FILE: commands_props.dfy ===
/** What the cutting commands promise: each track starts at its own INDEX and lasts until
    the next one, so the cuts tile the album from the first INDEX to the last; the codec
    and resampling arguments follow the settings; the file name carries the track number
    in two digits; and a normalised INDEX reads back as minutes, seconds and frames. */
module CommandsProps {
  import opened Outcomes
  import opened PyStr
  import opened PyNum
  import opened Cuesheet
  import opened Sanitize
  import opened Timestamps
  import opened TimestampsProps
  import opened Commands

  /** A job is built exactly when each of its steps succeeds, from their values. */
  lemma TrackJobParts(cfg: Settings, songs: seq<Song>, i: nat)
    requires i < |songs|
    ensures TrackJob(cfg, songs, i).Value? <==>
      && EncoderArgs(cfg.codec, cfg.quality).Value?
      && IndexTicks(songs[i].index).Value?
      && Duration(songs, i, IndexTicks(songs[i].index).value).Value?
      && TrackName(cfg.stripMarks, songs[i]).Value?
    ensures TrackJob(cfg, songs, i).Value? ==>
      TrackJob(cfg, songs, i).value == Job(cfg.image, EncoderArgs(cfg.codec, cfg.quality).value,
        Resample(cfg.codec, cfg.rate), IndexTicks(songs[i].index).value,
        Duration(songs, i, IndexTicks(songs[i].index).value).value,
        OutputPath(cfg, TrackName(cfg.stripMarks, songs[i]).value))
  {
  }

  /** A job's start is its own INDEX; every job but the last lasts until the next INDEX,
      and the last has no duration. */
  lemma TrackTiming(cfg: Settings, songs: seq<Song>, i: nat)
    requires i < |songs| && TrackJob(cfg, songs, i).Value?
    ensures IndexTicks(songs[i].index).Value?
    ensures IndexTicks(songs[i].index).value == TrackJob(cfg, songs, i).value.start
    ensures TrackJob(cfg, songs, i).value.duration.None? <==> i == |songs| - 1
    ensures i < |songs| - 1 ==> IndexTicks(songs[i + 1].index).Value?
    ensures i < |songs| - 1 ==>
      IndexTicks(songs[i + 1].index).value ==
        TrackJob(cfg, songs, i).value.start + TrackJob(cfg, songs, i).value.duration.value
  {
    TrackJobParts(cfg, songs, i);
    DurationMeaning(songs, i, TrackJob(cfg, songs, i).value.start);
  }

  /** The `-t` value reaches the next INDEX; the last song has none. */
  lemma DurationMeaning(songs: seq<Song>, i: nat, start: int)
    requires i < |songs| && Duration(songs, i, start).Value?
    ensures Duration(songs, i, start).value.None? <==> i == |songs| - 1
    ensures i < |songs| - 1 ==> IndexTicks(songs[i + 1].index).Value?
    ensures i < |songs| - 1 ==>
      IndexTicks(songs[i + 1].index).value == start + Duration(songs, i, start).value.value
  {
  }

  /** A job carries the settings' encoder arguments and image, and resamples exactly when
      the codec is not FLAC and the probed rate is not the number 44100. */
  lemma TrackSettings(cfg: Settings, songs: seq<Song>, i: nat)
    requires i < |songs| && TrackJob(cfg, songs, i).Value?
    ensures EncoderArgs(cfg.codec, cfg.quality) == Value(TrackJob(cfg, songs, i).value.encoder)
    ensures TrackJob(cfg, songs, i).value.image == cfg.image
    ensures TrackJob(cfg, songs, i).value.resample <==> cfg.codec != FLAC && cfg.rate != Hz(44100)
  {
    TrackJobParts(cfg, songs, i);
  }

  /** A job fails exactly when the encoder arguments, its INDEX, the next INDEX or its
      track number cannot be read. */
  lemma TrackFailure(cfg: Settings, songs: seq<Song>, i: nat)
    requires i < |songs|
    ensures TrackJob(cfg, songs, i).Raised? <==>
      || EncoderArgs(cfg.codec, cfg.quality).Raised?
      || IndexTicks(songs[i].index).Raised?
      || (i < |songs| - 1 && IndexTicks(songs[i + 1].index).Raised?)
      || PyInt(songs[i].number).Raised?
  {
    TrackJobParts(cfg, songs, i);
  }

  // ---------------------------------------------------------------------------------
  // The cuts tile the album

  /** `TrackTiming` for a job given by value. */
  lemma TimedAt(cfg: Settings, songs: seq<Song>, i: nat, job: Job)
    requires i < |songs| && TrackJob(cfg, songs, i) == Value(job)
    ensures IndexTicks(songs[i].index).Value? && IndexTicks(songs[i].index).value == job.start
    ensures i < |songs| - 1 ==>
      && job.duration.Some?
      && IndexTicks(songs[i + 1].index).value == job.start + job.duration.value
    ensures i == |songs| - 1 ==> job.duration.None?
  {
    TrackTiming(cfg, songs, i);
  }

  /** Consecutive jobs abut: job `j` ends exactly where job `j + 1` starts, so the cuts
      leave no gap and no overlap. */
  lemma JobsAbut(cfg: Settings, songs: seq<Song>, j: nat, a: Job, b: Job)
    requires j + 1 < |songs| && TrackJob(cfg, songs, j) == Value(a) && TrackJob(cfg, songs, j + 1) == Value(b)
    ensures a.duration.Some? && a.start + a.duration.value == b.start
  {
    TimedAt(cfg, songs, j, a);
    TimedAt(cfg, songs, j + 1, b);
  }

  /** Each job but the last ends where the next begins; the last runs to the end. This is
      what `JobsAbut` and `TimedAt` give for the jobs of a split. */
  predicate Abutting(jobs: seq<Job>) {
    && (forall j :: 0 <= j < |jobs| - 1 ==>
          jobs[j].duration.Some? && jobs[j].start + jobs[j].duration.value == jobs[j + 1].start)
    && (jobs != [] ==> jobs[|jobs| - 1].duration.None?)
  }

  /** The summed durations of `jobs[..k]`. */
  function DurationSum(jobs: seq<Job>, k: nat): int
    requires k <= |jobs|
  {
    if k == 0 then 0
    else
      var d := jobs[k - 1].duration;
      DurationSum(jobs, k - 1) + (if d.Some? then d.value else 0)
  }

  /** In abutting jobs, the durations before job `k` add up to the distance from the first
      start to job `k`'s start: the cuts tile the album from the first INDEX on. */
  lemma {:induction false} DurationsTelescope(jobs: seq<Job>, k: nat)
    requires Abutting(jobs) && k < |jobs|
    ensures jobs[0].start + DurationSum(jobs, k) == jobs[k].start
  {
    if k > 0 {
      DurationsTelescope(jobs, k - 1);
    }
  }

  // ---------------------------------------------------------------------------------
  // Track names

  /** A track number of one or two digits gives a name that starts with the number in
      exactly two digits, which read back as the number, then `_` and the cleaned title. */
  lemma TrackNameNumber(stripMarks: string -> string, song: Song)
    requires song.number != [] && AllDigits(song.number) && DigitsValue(song.number) < 100
    ensures TrackName(stripMarks, song).Value?
    ensures var name := TrackName(stripMarks, song).value;
      && |name| == 3 + |CleanupString(stripMarks, song.title)|
      && AllDigits(name[..2]) && DigitsValue(name[..2]) == DigitsValue(song.number)
      && name[2] == '_' && name[3..] == CleanupString(stripMarks, song.title)
  {
    var n := DigitsValue(song.number);
    var c := CleanupString(stripMarks, song.title);
    var z := ZeroPadInt(n, 2);
    assert |z| == 2 && AllDigits(z) && DigitsValue(z) == n by {
      assert Pow10(2) == 100;
    }
    var name := z + "_" + c;
    assert name[..2] == z && name[2] == '_' && name[3..] == c;
    assert TrackName(stripMarks, song).Value? && TrackName(stripMarks, song).value == name by {
      PyIntOfDigits(song.number);
    }
  }

  // ---------------------------------------------------------------------------------
  // Reading the normalised INDEX back

  /** `int(minutes) * 60 + float(seconds)` once the text is split at its colon. */
  lemma IndexTicksOfSplit(s: string, a: string, b: string, m: int, t: int)
    requires SplitColon(s).Value? && SplitColon(s).value == (a, b)
    requires PyInt(a).Value? && PyInt(a).value == m
    requires DecimalTicks(b).Value? && DecimalTicks(b).value == t
    ensures IndexTicks(s).Value? && IndexTicks(s).value == m * 60 * Scale + t
  {
    IndexTicksParts(s, a, b);
    MinutesAndSecondsValue(m, t);
  }

  lemma IndexTicksParts(s: string, a: string, b: string)
    requires SplitColon(s) == Value((a, b))
    ensures IndexTicks(s) == MinutesAndSeconds(PyInt(a), DecimalTicks(b))
  {
  }

  lemma MinutesAndSecondsValue(m: int, t: int)
    ensures MinutesAndSeconds(Value(m), Value(t)) == Value(m * 60 * Scale + t)
  {
  }

  /** `mm:ss.f` with digit fields reads as `mm` minutes, `ss` seconds and the fraction. */
  lemma IndexTicksOfDecimal(mm: string, ss: string, f: string)
    requires mm != [] && AllDigits(mm) && ss != [] && AllDigits(ss) && f != [] && AllDigits(f)
    ensures IndexTicks(mm + ":" + (ss + "." + f)).Value?
    ensures IndexTicks(mm + ":" + (ss + "." + f)).value ==
      (DigitsValue(mm) * 60 + DigitsValue(ss)) * Scale + FracTicks(f)
  {
    var rest := ss + "." + f;
    NoColonInDigits(mm);
    NoColonInDecimal(ss, f);
    SplitAtOnlyColon(mm, rest);
    PyIntOfDigits(mm);
    DecimalTicksOfParts(ss, f);
    IndexTicksOfSplit(mm + ":" + rest, mm, rest, DigitsValue(mm), DigitsValue(ss) * Scale + FracTicks(f));
    MinutesDistribute(DigitsValue(mm), DigitsValue(ss), FracTicks(f));
  }

  lemma MinutesDistribute(m: int, s: int, f: int)
    ensures m * 60 * Scale + (s * Scale + f) == (m * 60 + s) * Scale + f
  {
  }

  lemma NoColonInDigits(d: string)
    requires AllDigits(d)
    ensures ':' !in d
  {
    forall k | 0 <= k < |d| ensures d[k] != ':' {
      assert IsDigit(d[k]);
    }
  }

  lemma NoColonInDecimal(w: string, f: string)
    requires AllDigits(w) && AllDigits(f)
    ensures ':' !in w + "." + f
  {
    NoColonInDigits(w);
    NoColonInDigits(f);
    var s := w + "." + f;
    forall k | 0 <= k < |s| ensures s[k] != ':' {
      if k < |w| {
        assert s[k] == w[k];
      } else if k > |w| {
        assert s[k] == f[k - |w| - 1];
      }
    }
  }

  lemma SplitAtOnlyColon(a: string, b: string)
    requires ':' !in a && ':' !in b
    ensures SplitColon(a + ":" + b) == Value((a, b))
  {
    var s := a + ":" + b;
    assert s[|a|] == ':';
    assert forall j :: 0 <= j < |a| ==> s[j] == a[j];
    assert Find(s, ':') == |a|;
    assert s[|a| + 1..] == b;
    assert s[..|a|] == a;
  }

  /** An INDEX rewritten from frames, `mm:ss.` and the ten frame digits, reads back as
      `mm` minutes, `ss` seconds and the frame's rounded fraction of a second. */
  lemma IndexTicksOfFrames(mm: string, ss: string, frames: nat)
    requires mm != [] && AllDigits(mm) && ss != [] && AllDigits(ss) && frames < FramesPerSecond
    ensures IndexTicks(mm + ":" + (ss + "." + FrameDigits(frames))).Value?
    ensures IndexTicks(mm + ":" + (ss + "." + FrameDigits(frames))).value ==
      (DigitsValue(mm) * 60 + DigitsValue(ss)) * Scale + FrameTicks(frames)
  {
    var f := FrameDigits(frames);
    assert f != [] && AllDigits(f) && FracTicks(f) == FrameTicks(frames) by {
      FrameDigitsWidth(frames);
      assert Pow10(0) == 1;
    }
    IndexTicksOfDecimal(mm, ss, f);
  }

  // ---------------------------------------------------------------------------------
  // The rendered command reads back

  /** The rendered command is the head naming the image and the encoder arguments, then
      options that read back as the job's resampling flag, start and duration, then the
      quoted output path: `-ar 44100` appears exactly when the job resamples, `-t`
      exactly when it has a duration, and both times come back to the tick. */
  lemma RenderReadsBack(j: Job)
    ensures var r := Render(j);
      && StartsWith(r, "ffmpeg -hide_banner -loglevel info -i \"" + j.image + "\"" + j.encoder)
      && EndsWith(r, " \"" + j.output + "\"")
      && var o := r[|CommandHead(j)|..|r| - |CommandTail(j)|];
         ReadOptions(o).Some? && ReadOptions(o).value == (j.resample, j.start, j.duration)
  {
    MiddleOf(CommandHead(j), Options(j), CommandTail(j));
    OptionsReadBack(j);
  }

  /** What lies between a known head and a known tail. */
  lemma MiddleOf(h: string, o: string, t: string)
    ensures var r := h + o + t;
      StartsWith(r, h) && EndsWith(r, t) && r[|h|..|r| - |t|] == o
  {
    var r := h + o + t;
    assert r[..|h|] == h;
    assert r[|r| - |t|..] == t;
    assert r[|h|..|r| - |t|] == o;
  }

  /** The options text of a job reads back as its resampling flag, start and duration. */
  lemma OptionsReadBack(j: Job)
    ensures ReadOptions(Options(j)).Some? && ReadOptions(Options(j)).value == (j.resample, j.start, j.duration)
  {
    var rest := FormatFixed10(j.start) + DurationArg(j.duration);
    OptionsSplit(if j.resample then ResampleArg else "", FormatFixed10(j.start), DurationArg(j.duration));
    ReadTimesOf(j.start, j.duration);
    ReadOptionsAfterFlag(j.resample, rest);
  }

  lemma OptionsSplit(flag: string, f: string, d: string)
    ensures flag + " -ss " + f + d == flag + (" -ss " + (f + d))
  {
  }

  /** Whatever follows ` -ss `, the reader sees the resampling argument exactly when it
      is there, and reads the times after it. */
  lemma ReadOptionsAfterFlag(resample: bool, rest: string)
    requires ReadTimes(rest).Some?
    ensures var o := (if resample then ResampleArg else "") + (" -ss " + rest);
      && ReadOptions(o).Some?
      && ReadOptions(o).value == (resample, ReadTimes(rest).value.0, ReadTimes(rest).value.1)
  {
    FlagThenStart(resample, rest);
  }

  /** The resampling argument is seen exactly when it was written, and the text after
      ` -ss ` is what followed it. */
  lemma FlagThenStart(resample: bool, rest: string)
    ensures var o := (if resample then ResampleArg else "") + (" -ss " + rest);
      ReadFlag(o).Some? && ReadFlag(o).value == (resample, rest)
  {
    var x := " -ss " + rest;
    var o := (if resample then ResampleArg else "") + x;
    assert x[..5] == " -ss " && x[5..] == rest;
    if resample {
      assert o[..|ResampleArg|] == ResampleArg && o[|ResampleArg|..] == x;
    } else {
      assert o == x;
      PrefixClash(x, " -ss ", ResampleArg, 2);
    }
  }

  /** The start printed with ten decimals, followed by the duration argument, reads back
      as the start and the duration. */
  lemma ReadTimesOf(start: int, d: Option<int>)
    ensures var tail := FormatFixed10(start) + DurationArg(d);
      ReadTimes(tail).Some? && ReadTimes(tail).value == (start, d)
  {
    var a := FormatFixed10(start);
    FormatFixed10Shape(start);
    FormatFixed10ReadBack(start);
    var dt: Option<string> := None;
    if d.Some? {
      dt := Some(FormatFixed10(d.value));
      FormatFixed10Shape(d.value);
      FormatFixed10ReadBack(d.value);
    }
    assert DurationArg(d) == TimesTail(dt);
    ReadTimesOfText(a, dt, start, d);
  }

  function TimesTail(d: Option<string>): string {
    if d.Some? then " -t " + d.value else ""
  }

  /** A start text without spaces, then possibly ` -t ` and a duration text without
      spaces, reads back as the values the two texts denote. */
  lemma ReadTimesOfText(a: string, dt: Option<string>, start: int, d: Option<int>)
    requires ' ' !in a && DecimalTicks(a).Value? && DecimalTicks(a).value == start
    requires dt.Some? <==> d.Some?
    requires dt.Some? ==> DecimalTicks(dt.value).Value? && DecimalTicks(dt.value).value == d.value
    ensures ReadTimes(a + TimesTail(dt)).Some? && ReadTimes(a + TimesTail(dt)).value == (start, d)
  {
    TimesText(a, dt);
  }

  /** Where the reader of the times cuts its input. */
  lemma TimesText(a: string, dt: Option<string>)
    requires ' ' !in a
    ensures var tail := a + TimesTail(dt);
      && Find(tail, ' ') == (if dt.Some? then |a| else -1)
      && (if dt.Some? then tail[..|a|] else tail) == a
      && (dt.Some? ==> StartsWith(tail[|a|..], " -t ") && tail[|a| + 4..] == dt.value)
  {
    var tail := a + TimesTail(dt);
    if dt.Some? {
      assert tail == a + (" -t " + dt.value);
      FindAfterSpaceless(a, " -t " + dt.value);
      assert tail[..|a|] == a;
      assert tail[|a|..] == " -t " + dt.value;
      assert tail[|a|..][..4] == " -t ";
      assert tail[|a| + 4..] == dt.value;
    } else {
      assert tail == a;
    }
  }

  /** A text that starts with `p` does not start with a `q` that differs from `p` at `i`. */
  lemma PrefixClash(x: string, p: string, q: string, i: nat)
    requires StartsWith(x, p) && i < |p| && i < |q| && p[i] != q[i]
    ensures !StartsWith(x, q)
  {
    assert x[..|p|][i] == x[i];
    if |q| <= |x| {
      assert x[..|q|][i] == x[i];
    }
  }

  /** In a text with no space before `u`, which starts with one, the first space is where
      `u` begins. */
  lemma FindAfterSpaceless(a: string, u: string)
    requires ' ' !in a && u != [] && u[0] == ' '
    ensures Find(a + u, ' ') == |a|
  {
    var s := a + u;
    assert s[|a|] == ' ';
    assert forall j :: 0 <= j < |a| ==> s[j] == a[j];
  }
}

=== FILE: cuesheet.dfy ===
/** The cuesheet parser: a header pass for the album fields and the referenced audio image,
    and a track pass that commits one entry per complete track. Lines are what Python's
    `readlines()` yields: each keeps its line break, except perhaps the last. */
module Cuesheet {
  import opened Outcomes
  import opened PyStr

  /** One committed entry of the song list: `[number, title, performer, index]`. */
  datatype Song = Song(number: string, title: string, performer: string, index: string)

  /** The parsed cuesheet. `ok` is the parse status; `imagePath` is the audio image
      named by the first FILE line, joined to the cuesheet's directory ("" when none). */
  datatype Sheet = Sheet(
    genre: string,
    dateYear: string,
    performer: string,
    title: string,
    imagePath: string,
    songs: seq<Song>,
    ok: bool)

  /** Python's `remove_quotes_from_string`: a value whose first character is a single or
      double quote loses its first and last characters. Indexing the first character of
      an empty value raises IndexError. */
  function RemoveQuotes(s: string): (r: Outcome<string>)
    ensures s == [] <==> r.Raised?
    ensures s != [] && s[0] != '"' && s[0] != '\'' ==> r == Value(s)
    ensures s != [] && (s[0] == '"' || s[0] == '\'') ==>
      r.Value? && |r.value| == (if |s| >= 2 then |s| - 2 else 0)
      && forall i :: 0 <= i < |r.value| ==> r.value[i] == s[i + 1]
  {
    if s == [] then Raised
    else if s[0] == '"' || s[0] == '\'' then Value(if |s| >= 2 then s[1..|s| - 1] else [])
    else Value(s)
  }

  /** The value of a field line: the text after the keyword's `n` characters, stripped and
      unquoted. */
  function FieldValue(line: string, n: nat): Outcome<string> {
    RemoveQuotes(Strip(Drop(line, n)))
  }

  /** A header keyword: compared against the left-stripped first characters of the line. */
  predicate HeaderKey(line: string, k: string) {
    LStrip(Take(line, |k|)) == k
  }

  /** A track-section keyword: compared against the first characters of the stripped line. */
  predicate TrackKey(line: string, k: string) {
    Take(Strip(line), |k|) == k
  }

  /** The line that ends the header pass. */
  predicate IsTrackLine(line: string) {
    TrackKey(line, "TRACK")
  }

  // ---------------------------------------------------------------------------------
  // Header pass

  datatype Header = Header(
    genre: string,
    dateYear: string,
    performer: string,
    title: string,
    gotPerformer: bool,
    gotTitle: bool,
    gotFile: bool,
    imagePath: string,
    ok: bool)

  const HeaderStart := Header("", "", "", "", false, false, false, "", true)

  /** The album title: an embedded `[HDAudio]` marker is removed and the rest stripped. */
  function AlbumTitle(t: string): string {
    if Contains(t, "[HDAudio]") then Strip(ReplaceAll(t, "[HDAudio]", "")) else t
  }

  /** The file name of a FILE value: text up to the first double quote, stripped. When
      there is no quote, `find` returns -1, which is truthy, and the slice drops the last
      character; a quote at position 0 leaves the value as it is. */
  function ImageName(v: string): (r: string)
    ensures '"' !in v ==> r == Strip(TakePy(v, -1))
    ensures |v| > 0 && v[0] == '"' ==> r == v
  {
    var q := Find(v, '"');
    if q != 0 then Strip(TakePy(v, q)) else v
  }

  /** Date text is kept only when it is all digits. */
  function YearOf(d: string): (r: string)
    ensures r == d || r == []
    ensures IsDigitString(r) || r == []
    ensures IsDigitString(d) ==> r == d
  {
    if IsDigitString(d) then d else []
  }

  /** One line of the header pass; the checks are independent `if`s, in source order. */
  function HeaderLine(h: Header, line: string, base: string, isFile: string -> bool)
    : Outcome<Header>
  {
    var h' :- AlbumFields(h, line);
    FileField(h', line, base, isFile)
  }

  /** The genre, date, first performer and first title checks of a header line. */
  function AlbumFields(h: Header, line: string): (r: Outcome<Header>)
    ensures r.Value? ==>
      r.value.gotFile == h.gotFile && r.value.imagePath == h.imagePath && r.value.ok == h.ok
  {
    var h1 :- GenreField(h, line);
    var h2 :- DateField(h1, line);
    var h3 :- PerformerField(h2, line);
    TitleField(h3, line)
  }

  /** A REM GENRE line sets the genre to its value; any other line leaves the header. */
  function GenreField(h: Header, line: string): (r: Outcome<Header>)
    ensures r.Value? ==> r.value == h.(genre := r.value.genre)
    ensures HeaderKey(line, "REM GENRE") ==>
      (r.Raised? <==> FieldValue(line, 9).Raised?)
      && (r.Value? ==> FieldValue(line, 9) == Value(r.value.genre))
    ensures !HeaderKey(line, "REM GENRE") ==> r == Value(h)
  {
    if HeaderKey(line, "REM GENRE") then
      var g :- FieldValue(line, 9); Value(h.(genre := g))
    else Value(h)
  }

  /** A REM DATE line sets the date to its value when that is all digits, and blanks it
      otherwise; any other line leaves the header. */
  function DateField(h: Header, line: string): (r: Outcome<Header>)
    ensures r.Value? ==> r.value == h.(dateYear := r.value.dateYear)
    ensures HeaderKey(line, "REM DATE") ==>
      (r.Raised? <==> FieldValue(line, 8).Raised?)
      && (r.Value? ==> r.value.dateYear == YearOf(FieldValue(line, 8).value))
    ensures !HeaderKey(line, "REM DATE") ==> r == Value(h)
  {
    if HeaderKey(line, "REM DATE") then
      var d :- FieldValue(line, 8); Value(h.(dateYear := YearOf(d)))
    else Value(h)
  }

  function PerformerField(h: Header, line: string): (r: Outcome<Header>)
    ensures r.Value? ==> r.value == h.(performer := r.value.performer, gotPerformer := r.value.gotPerformer)
  {
    if HeaderKey(line, "PERFORMER") && !h.gotPerformer then
      var p :- FieldValue(line, 9); Value(h.(performer := p, gotPerformer := true))
    else Value(h)
  }

  function TitleField(h: Header, line: string): (r: Outcome<Header>)
    ensures r.Value? ==> r.value == h.(title := r.value.title, gotTitle := r.value.gotTitle)
  {
    if HeaderKey(line, "TITLE") && !h.gotTitle then
      var t :- FieldValue(line, 5); Value(h.(title := AlbumTitle(t), gotTitle := true))
    else Value(h)
  }

  /** The FILE check of a header line: the first FILE line records the image path and
      clears the status when the image is not a file; a later one clears the status. */
  function FileField(h: Header, line: string, base: string, isFile: string -> bool)
    : (r: Outcome<Header>)
    ensures r.Value? ==>
      r.value == h.(gotFile := r.value.gotFile, imagePath := r.value.imagePath, ok := r.value.ok)
  {
    if HeaderKey(line, "FILE") then
      if !h.gotFile then
        var v :- FieldValue(line, 4);
        var path := JoinPath(base, ImageName(v));
        Value(h.(gotFile := true, imagePath := path, ok := h.ok && isFile(path)))
      else Value(h.(ok := false))
    else Value(h)
  }

  /** The header pass: lines in order, up to and including the first TRACK line. */
  function HeaderPass(h: Header, lines: seq<string>, base: string, isFile: string -> bool)
    : Outcome<Header>
    decreases |lines|
  {
    if lines == [] then Value(h)
    else
      var h' :- HeaderLine(h, lines[0], base, isFile);
      if IsTrackLine(lines[0]) then Value(h') else HeaderPass(h', lines[1..], base, isFile)
  }

  /** The lines the header pass reads. */
  function HeaderSection(lines: seq<string>): (r: seq<string>)
    ensures |r| <= |lines| && r == lines[..|r|]
    ensures forall i :: 0 <= i < |r| - 1 ==> !IsTrackLine(r[i])
  {
    if lines == [] then []
    else if IsTrackLine(lines[0]) then [lines[0]]
    else
      var rest := HeaderSection(lines[1..]);
      assert lines[1..][..|rest|] == lines[1..|rest| + 1];
      [lines[0]] + rest
  }

  /** Number of FILE lines among `lines`. */
  function FileLines(lines: seq<string>): nat {
    if lines == [] then 0
    else (if HeaderKey(lines[0], "FILE") then 1 else 0) + FileLines(lines[1..])
  }

  /** The first line among `lines` that starts with the header keyword `k`, if any. */
  function FirstKeyLine(lines: seq<string>, k: string): Option<string> {
    if lines == [] then None
    else if HeaderKey(lines[0], k) then Some(lines[0])
    else FirstKeyLine(lines[1..], k)
  }

  /** The last line among `lines` that starts with the header keyword `k`, if any. */
  function LastKeyLine(lines: seq<string>, k: string): Option<string> {
    if lines == [] then None
    else if LastKeyLine(lines[1..], k).Some? then LastKeyLine(lines[1..], k)
    else if HeaderKey(lines[0], k) then Some(lines[0])
    else None
  }

  // ---------------------------------------------------------------------------------
  // Track pass

  /** The track pass's working fields; "" stands for Python's falsy `0` or `""`. */
  datatype Pending = Pending(number: string, title: string, performer: string, index: string)

  const NoPending := Pending("", "", "", "")

  /** All four fields are set, so the entry is committed. */
  predicate Complete(p: Pending) {
    p.number != [] && p.title != [] && p.performer != [] && p.index != []
  }

  /** One line of the track pass: TRACK sets the number (the two characters at offset 6
      of the stripped line); PERFORMER, TITLE and INDEX are read only while a number is
      pending. */
  function TrackFields(p: Pending, line: string): Outcome<Pending> {
    var p1 := if IsTrackLine(line) then p.(number := Slice(Strip(line), 6, 8)) else p;
    SongFields(p1, line)
  }

  /** The PERFORMER, TITLE and INDEX checks of a track-pass line. */
  function SongFields(p: Pending, line: string): (r: Outcome<Pending>)
    ensures r.Value? ==> r.value.number == p.number
    ensures p.number == [] ==> r == Value(p)
  {
    var t := Strip(line);
    var p2 :- if TrackKey(line, "PERFORMER") && p.number != [] then
        var v :- FieldValue(t, 9); Value(p.(performer := v))
      else Value(p);
    var p3 :- if TrackKey(line, "TITLE") && p2.number != [] then
        var v :- FieldValue(t, 5); Value(p2.(title := v))
      else Value(p2);
    if TrackKey(line, "INDEX") && p3.number != [] then
      var v :- FieldValue(t, 8); Value(p3.(index := v))
    else Value(p3)
  }

  /** A committed entry has all four fields set. */
  predicate Committed(s: Song) {
    s.number != [] && s.title != [] && s.performer != [] && s.index != []
  }

  /** One line of the track pass, followed by the commit check. */
  function TrackLine(songs: seq<Song>, p: Pending, line: string)
    : (r: Outcome<(seq<Song>, Pending)>)
    ensures r.Value? ==> !Complete(r.value.1)
    ensures r.Value? ==>
      || r.value.0 == songs
      || (&& r.value.1 == NoPending
          && |r.value.0| == |songs| + 1 && r.value.0[..|songs|] == songs
          && Committed(r.value.0[|songs|]))
  {
    var q :- TrackFields(p, line);
    if Complete(q) then
      var s := Song(q.number, q.title, q.performer, q.index);
      Value((songs + [s], NoPending))
    else Value((songs, q))
  }

  function TrackPass(songs: seq<Song>, p: Pending, lines: seq<string>)
    : Outcome<(seq<Song>, Pending)>
    decreases |lines|
  {
    if lines == [] then Value((songs, p))
    else
      var r :- TrackLine(songs, p, lines[0]);
      TrackPass(r.0, r.1, lines[1..])
  }

  /** Number of TRACK lines among `lines`. */
  function TrackLines(lines: seq<string>): nat {
    if lines == [] then 0 else (if IsTrackLine(lines[0]) then 1 else 0) + TrackLines(lines[1..])
  }

  // ---------------------------------------------------------------------------------
  // The whole parse

  /** `parse_cuesheet` on the file's lines, or on `None` when reading failed. The original
      path `base` is the cuesheet's directory and `isFile` answers `os.path.isfile`. */
  function Parse(content: Option<seq<string>>, base: string, isFile: string -> bool)
    : Outcome<Sheet>
  {
    match content
    case None => Value(Sheet("", "", "", "", "", [], false))
    case Some(lines) =>
      var h :- HeaderPass(HeaderStart, lines, base, isFile);
      var t :- TrackPass([], NoPending, lines);
      var ok := h.ok && h.gotFile && t.0 != [] && t.1.number == [];
      Value(Sheet(h.genre, h.dateYear, h.performer, h.title, h.imagePath, t.0, ok))
  }
}

=== FILE: cuesheet_blocks.dfy ===
/** The track pass on a well-formed cuesheet: header lines without a TRACK line, then
    one block per song of a TRACK, a TITLE, a PERFORMER and an INDEX line. Such a sheet
    yields exactly its songs, in order, with no entry left pending, and parses OK exactly
    when its one FILE line names an existing image and it has at least one song. */
module CuesheetBlocks {
  import opened Outcomes
  import opened PyStr
  import opened Cuesheet
  import opened CuesheetProps

  /** The four lines of song `s`, in the usual cuesheet order, each carrying its field. */
  predicate WellFormedBlock(b: seq<string>, s: Song) {
    && |b| == 4
    && Committed(s)
    && IsTrackLine(b[0]) && Slice(Strip(b[0]), 6, 8) == s.number
    && TrackKey(b[1], "TITLE") && FieldValue(Strip(b[1]), 5).Value?
    && FieldValue(Strip(b[1]), 5).value == s.title
    && TrackKey(b[2], "PERFORMER") && FieldValue(Strip(b[2]), 9).Value?
    && FieldValue(Strip(b[2]), 9).value == s.performer
    && TrackKey(b[3], "INDEX") && FieldValue(Strip(b[3]), 8).Value?
    && FieldValue(Strip(b[3]), 8).value == s.index
  }

  /** Block `i` holds song `i`, for every song. */
  predicate WellFormedBlocks(blocks: seq<seq<string>>, songs: seq<Song>) {
    |blocks| == |songs| && forall i :: 0 <= i < |blocks| ==> WellFormedBlock(blocks[i], songs[i])
  }

  /** Lines before the first track. */
  predicate HeaderOnly(header: seq<string>) {
    forall i :: 0 <= i < |header| ==> !IsTrackLine(header[i])
  }

  function Flatten(blocks: seq<seq<string>>): seq<string> {
    if blocks == [] then [] else blocks[0] + Flatten(blocks[1..])
  }

  // ---------------------------------------------------------------------------------
  // The sheet theorems

  /** The track pass over the header and the blocks commits exactly the blocks' songs,
      in order, and leaves nothing pending. */
  lemma TrackPassOfSheet(header: seq<string>, blocks: seq<seq<string>>, songs: seq<Song>)
    requires HeaderOnly(header) && WellFormedBlocks(blocks, songs)
    ensures TrackPass([], NoPending, header + Flatten(blocks)) == Value((songs, NoPending))
  {
    var none: seq<Song> := [];
    HeaderIgnored(none, header);
    BlocksCommit(none, blocks, songs);
    assert none + songs == songs;
    PassChain(none, header, Flatten(blocks), none, songs);
  }

  /** The parse of such a sheet raises only in its header pass; when it does not, its
      song list is the blocks' songs, and it is OK exactly when the header's one FILE line
      names an existing image and there is at least one song. */
  lemma ParseOfSheet(header: seq<string>, blocks: seq<seq<string>>, songs: seq<Song>,
                     base: string, isFile: string -> bool)
    requires HeaderOnly(header) && WellFormedBlocks(blocks, songs) && FileLines(header) == 1
    ensures var lines := header + Flatten(blocks);
      Parse(Some(lines), base, isFile).Value? <==> HeaderPass(HeaderStart, lines, base, isFile).Value?
    ensures var lines := header + Flatten(blocks);
      Parse(Some(lines), base, isFile).Value? ==>
        var c := Parse(Some(lines), base, isFile).value;
        && c.songs == songs
        && (c.ok <==> isFile(c.imagePath) && songs != [])
  {
    var lines := header + Flatten(blocks);
    TrackPassOfSheet(header, blocks, songs);
    ParseAfterTrackPass(lines, base, isFile);
    if Parse(Some(lines), base, isFile).Value? {
      ParseStatus(Some(lines), base, isFile);
      if blocks != [] {
        SheetFileLines(header, blocks, songs);
      }
    }
  }

  /** When the track pass does not raise, the parse raises only in the header pass, and
      its songs are the track pass's. */
  lemma ParseAfterTrackPass(lines: seq<string>, base: string, isFile: string -> bool)
    requires TrackPass([], NoPending, lines).Value?
    ensures Parse(Some(lines), base, isFile).Value? <==> HeaderPass(HeaderStart, lines, base, isFile).Value?
    ensures Parse(Some(lines), base, isFile).Value? ==>
      Parse(Some(lines), base, isFile).value.songs == TrackPass([], NoPending, lines).value.0
  {
  }

  /** The header pass of a sheet with a song sees the header's FILE lines and no other. */
  lemma SheetFileLines(header: seq<string>, blocks: seq<seq<string>>, songs: seq<Song>)
    requires HeaderOnly(header) && WellFormedBlocks(blocks, songs) && blocks != []
    ensures FileLines(HeaderSection(header + Flatten(blocks))) == FileLines(header)
  {
    var t := blocks[0][0];
    assert IsTrackLine(t) by {
      WellFormedHead(blocks, songs);
    }
    assert Flatten(blocks) == blocks[0] + Flatten(blocks[1..]);
    assert Flatten(blocks)[0] == t;
    HeaderSectionOfSheet(header, Flatten(blocks));
    FileLinesAppend(header, [t]);
    TrackNotFile(t);
    assert FileLines([t]) == 0 by {
      assert [t][1..] == [];
    }
  }

  // ---------------------------------------------------------------------------------
  // The track pass, a block at a time

  /** Running the track pass over `a + b` is running it over `a`, then over `b`. */
  lemma {:induction false} TrackPassAppend(songs: seq<Song>, p: Pending, a: seq<string>, b: seq<string>)
    requires TrackPass(songs, p, a).Value?
    ensures TrackPass(songs, p, a + b) ==
      TrackPass(TrackPass(songs, p, a).value.0, TrackPass(songs, p, a).value.1, b)
    decreases |a|
  {
    if a == [] {
      assert a + b == b;
    } else {
      var r := TrackLine(songs, p, a[0]).value;
      assert (a + b)[0] == a[0] && (a + b)[1..] == a[1..] + b;
      TrackPassAppend(r.0, r.1, a[1..], b);
    }
  }

  /** A block is committed at its first INDEX line, so a further non-TRACK line after it,
      such as the INDEX 01 that follows an INDEX 00, changes nothing: the first INDEX of a
      track is the one kept. */
  lemma Index00Kept(songs: seq<Song>, b: seq<string>, s: Song, index01: string)
    requires WellFormedBlock(b, s) && !IsTrackLine(index01)
    ensures TrackPass(songs, NoPending, b + [index01]) == Value((songs + [s], NoPending))
  {
    BlockCommits(songs, b, s);
    IgnoredWithoutNumber(NoPending, index01);
    assert TrackLine(songs + [s], NoPending, index01) == Value((songs + [s], NoPending));
    assert TrackPass(songs + [s], NoPending, [index01]) == Value((songs + [s], NoPending)) by {
      assert [index01][1..] == [];
    }
    TrackPassAppend(songs, NoPending, b, [index01]);
  }

  /** Header lines are ignored while no track number is pending. */
  lemma {:induction false} HeaderIgnored(songs: seq<Song>, header: seq<string>)
    requires HeaderOnly(header)
    ensures Commits(songs, header, songs)
    decreases |header|
  {
    if header != [] {
      IgnoredWithoutNumber(NoPending, header[0]);
      assert TrackLine(songs, NoPending, header[0]) == Value((songs, NoPending));
      HeaderIgnored(songs, header[1..]);
    }
  }

  /** The track pass from `songs` with nothing pending reads `lines` without raising and
      ends with `last` and nothing pending. */
  predicate Commits(songs: seq<Song>, lines: seq<string>, last: seq<Song>) {
    && TrackPass(songs, NoPending, lines).Value?
    && TrackPass(songs, NoPending, lines).value.0 == last
    && TrackPass(songs, NoPending, lines).value.1 == NoPending
  }

  /** The blocks commit their songs, one each, in order. */
  lemma {:induction false} BlocksCommit(songs: seq<Song>, blocks: seq<seq<string>>, ss: seq<Song>)
    requires WellFormedBlocks(blocks, ss)
    ensures Commits(songs, Flatten(blocks), songs + ss)
    decreases |blocks|
  {
    if blocks == [] {
      assert songs + ss == songs;
    } else {
      var rest := Flatten(blocks[1..]);
      var songs' := songs + [ss[0]];
      WellFormedHead(blocks, ss);
      BlockCommits(songs, blocks[0], ss[0]);
      BlocksCommit(songs', blocks[1..], ss[1..]);
      AppendFirst(songs, ss);
      PassChain(songs, blocks[0], rest, songs', songs + ss);
      assert Flatten(blocks) == blocks[0] + rest;
    }
  }

  lemma AppendFirst<T>(a: seq<T>, b: seq<T>)
    requires b != []
    ensures a + [b[0]] + b[1..] == a + b
  {
    assert b == [b[0]] + b[1..];
  }

  /** Two passes that each end with nothing pending chain into one. */
  lemma PassChain(songs: seq<Song>, a: seq<string>, b: seq<string>, mid: seq<Song>, last: seq<Song>)
    requires Commits(songs, a, mid) && Commits(mid, b, last)
    ensures Commits(songs, a + b, last)
  {
    TrackPassAppend(songs, NoPending, a, b);
  }

  /** The first block holds the first song, and the other blocks the other songs. */
  lemma WellFormedHead(blocks: seq<seq<string>>, ss: seq<Song>)
    requires WellFormedBlocks(blocks, ss) && blocks != []
    ensures WellFormedBlock(blocks[0], ss[0]) && WellFormedBlocks(blocks[1..], ss[1..])
  {
    forall i | 0 <= i < |blocks[1..]|
      ensures WellFormedBlock(blocks[1..][i], ss[1..][i])
    {
      assert WellFormedBlock(blocks[i + 1], ss[i + 1]);
    }
  }

  /** One block commits its song. */
  lemma BlockCommits(songs: seq<Song>, b: seq<string>, s: Song)
    requires WellFormedBlock(b, s)
    ensures Commits(songs, b, songs + [s])
  {
    var p1 := Pending(s.number, "", "", "");
    var p2 := Pending(s.number, s.title, "", "");
    var p3 := Pending(s.number, s.title, s.performer, "");
    TrackStep(songs, b[0], s.number);
    TitleStep(songs, s.number, b[1], s.title);
    PerformerStep(songs, s.number, s.title, b[2], s.performer);
    IndexStep(songs, s, b[3]);
    PassCons(songs, NoPending, b[0], b[1..], songs, p1);
    PassCons(songs, p1, b[1], b[2..], songs, p2);
    PassCons(songs, p2, b[2], b[3..], songs, p3);
    PassCons(songs, p3, b[3], [], songs + [s], NoPending);
    assert b[3..] == [b[3]] + [];
  }

  /** The track pass takes one line, then the rest. */
  lemma PassCons(songs: seq<Song>, p: Pending, line: string, rest: seq<string>,
                 songs': seq<Song>, p': Pending)
    requires TrackLine(songs, p, line).Value? && TrackLine(songs, p, line).value == (songs', p')
    ensures TrackPass(songs, p, [line] + rest) == TrackPass(songs', p', rest)
  {
    assert ([line] + rest)[0] == line && ([line] + rest)[1..] == rest;
  }

  // ---------------------------------------------------------------------------------
  // The four lines of a block

  /** The TRACK line sets the number; nothing else on it is read. */
  lemma TrackStep(songs: seq<Song>, line: string, num: string)
    requires IsTrackLine(line) && Slice(Strip(line), 6, 8) == num && num != []
    ensures TrackLine(songs, NoPending, line).Value?
    ensures TrackLine(songs, NoPending, line).value == (songs, Pending(num, "", "", ""))
  {
    KeyClash(line, "TRACK", "PERFORMER", 0);
    KeyClash(line, "TRACK", "TITLE", 1);
    KeyClash(line, "TRACK", "INDEX", 0);
  }

  lemma TitleStep(songs: seq<Song>, num: string, line: string, title: string)
    requires num != [] && TrackKey(line, "TITLE")
    requires FieldValue(Strip(line), 5).Value? && FieldValue(Strip(line), 5).value == title
    ensures TrackLine(songs, Pending(num, "", "", ""), line).Value?
    ensures TrackLine(songs, Pending(num, "", "", ""), line).value == (songs, Pending(num, title, "", ""))
  {
    KeyClash(line, "TITLE", "TRACK", 1);
    KeyClash(line, "TITLE", "PERFORMER", 0);
    KeyClash(line, "TITLE", "INDEX", 0);
  }

  lemma PerformerStep(songs: seq<Song>, num: string, title: string, line: string, performer: string)
    requires num != [] && TrackKey(line, "PERFORMER")
    requires FieldValue(Strip(line), 9).Value? && FieldValue(Strip(line), 9).value == performer
    ensures TrackLine(songs, Pending(num, title, "", ""), line).Value?
    ensures TrackLine(songs, Pending(num, title, "", ""), line).value ==
      (songs, Pending(num, title, performer, ""))
  {
    KeyClash(line, "PERFORMER", "TRACK", 0);
    KeyClash(line, "PERFORMER", "TITLE", 0);
    KeyClash(line, "PERFORMER", "INDEX", 0);
  }

  /** The INDEX line completes the entry, which is committed. */
  lemma IndexStep(songs: seq<Song>, s: Song, line: string)
    requires Committed(s) && TrackKey(line, "INDEX")
    requires FieldValue(Strip(line), 8).Value? && FieldValue(Strip(line), 8).value == s.index
    ensures TrackLine(songs, Pending(s.number, s.title, s.performer, ""), line).Value?
    ensures TrackLine(songs, Pending(s.number, s.title, s.performer, ""), line).value ==
      (songs + [s], NoPending)
  {
    KeyClash(line, "INDEX", "TRACK", 0);
    KeyClash(line, "INDEX", "PERFORMER", 0);
    KeyClash(line, "INDEX", "TITLE", 0);
  }

  /** A stripped line starts with at most one of two keywords that differ at `i`. */
  lemma KeyClash(line: string, k1: string, k2: string, i: nat)
    requires TrackKey(line, k1) && i < |k1| && i < |k2| && k1[i] != k2[i]
    ensures !TrackKey(line, k2)
  {
    var t := Strip(line);
    assert t[i] == Take(t, |k1|)[i] == k1[i];
    if |k2| <= |t| {
      assert Take(t, |k2|)[i] == t[i];
    }
  }

  // ---------------------------------------------------------------------------------
  // The header pass's lines

  /** The header pass reads the header and the first TRACK line. */
  lemma {:induction false} HeaderSectionOfSheet(header: seq<string>, rest: seq<string>)
    requires HeaderOnly(header) && rest != [] && IsTrackLine(rest[0])
    ensures HeaderSection(header + rest) == header + [rest[0]]
    decreases |header|
  {
    if header == [] {
      assert header + rest == rest;
    } else {
      assert (header + rest)[0] == header[0] && (header + rest)[1..] == header[1..] + rest;
      HeaderSectionOfSheet(header[1..], rest);
      assert header + [rest[0]] == [header[0]] + (header[1..] + [rest[0]]);
    }
  }

  lemma {:induction false} FileLinesAppend(a: seq<string>, b: seq<string>)
    ensures FileLines(a + b) == FileLines(a) + FileLines(b)
    decreases |a|
  {
    if a == [] {
      assert a + b == b;
    } else {
      assert (a + b)[0] == a[0] && (a + b)[1..] == a[1..] + b;
      FileLinesAppend(a[1..], b);
    }
  }

  /** A TRACK line is not a FILE line: one starts with `FILE` in column 0, the other
      with `TRACK` once stripped. */
  lemma TrackNotFile(line: string)
    requires IsTrackLine(line)
    ensures !HeaderKey(line, "FILE")
  {
    KeywordAtColumnZero(line, "FILE");
    if line != [] && !IsSpace(line[0]) {
      StripKeepsFirst(line);
      assert line[0] == Strip(line)[0] == Take(Strip(line), 5)[0] == 'T';
    }
    if |line| >= 4 {
      assert line[..4][0] == line[0];
    }
  }

  /** Stripping a text that starts with a non-space keeps its first character. */
  lemma StripKeepsFirst(s: string)
    requires s != [] && !IsSpace(s[0])
    ensures Strip(s) != [] && Strip(s)[0] == s[0]
  {
    LStripSuffix(s);
    assert LStrip(s) == s;
    RStripPrefix(s);
  }
}

=== FILE: cuesheet_props.dfy ===
/** What the cuesheet parser promises: the parse status in terms of the FILE lines of the
    header section, the image it names and the track pass's final state; the order and
    completeness of committed tracks. */
module CuesheetProps {
  import opened Outcomes
  import opened PyStr
  import opened Cuesheet

  /** A line of the header pass changes the FILE fields only on a FILE line: the first
      one records the image and its existence, any later one clears the status. */
  lemma HeaderLineFile(h: Header, line: string, base: string, isFile: string -> bool)
    requires HeaderLine(h, line, base, isFile).Value?
    ensures var h' := HeaderLine(h, line, base, isFile).value;
      if !HeaderKey(line, "FILE") then
        h'.gotFile == h.gotFile && h'.imagePath == h.imagePath && h'.ok == h.ok
      else if h.gotFile then
        h'.gotFile && h'.imagePath == h.imagePath && !h'.ok
      else
        && FieldValue(line, 4).Value?
        && h'.gotFile
        && h'.imagePath == JoinPath(base, ImageName(FieldValue(line, 4).value))
        && h'.ok == (h.ok && isFile(h'.imagePath))
  {
  }

  /** The header pass in terms of the FILE lines of the header section: it has seen a
      file iff there was one, keeps an earlier image, and keeps the status iff there was
      no second FILE line and the first names an existing file. */
  lemma {:induction false} HeaderPassFile(h: Header, lines: seq<string>, base: string,
                                          isFile: string -> bool)
    requires HeaderPass(h, lines, base, isFile).Value?
    ensures var h' := HeaderPass(h, lines, base, isFile).value;
      var n := FileLines(HeaderSection(lines));
      && (h'.gotFile <==> h.gotFile || n > 0)
      && (h.gotFile ==> h'.imagePath == h.imagePath)
      && (!h.gotFile && n > 0 ==>
            && FirstKeyLine(HeaderSection(lines), "FILE").Some?
            && FieldValue(FirstKeyLine(HeaderSection(lines), "FILE").value, 4).Value?
            && h'.imagePath ==
               JoinPath(base, ImageName(FieldValue(FirstKeyLine(HeaderSection(lines), "FILE").value, 4).value)))
      && (h'.ok <==>
            h.ok && if h.gotFile then n == 0 else n <= 1 && (n == 1 ==> isFile(h'.imagePath)))
    decreases |lines|
  {
    if lines != [] {
      var h1 := HeaderLine(h, lines[0], base, isFile).value;
      HeaderLineFile(h, lines[0], base, isFile);
      if !IsTrackLine(lines[0]) {
        HeaderPassFile(h1, lines[1..], base, isFile);
      }
    }
  }

  /** The album fields of one header line: the first PERFORMER and TITLE lines set the
      performer and the title, and a date is all digits or empty. */
  lemma AlbumFieldsStep(h: Header, line: string)
    requires AlbumFields(h, line).Value?
    ensures var h' := AlbumFields(h, line).value;
      && h'.gotPerformer == (h.gotPerformer || HeaderKey(line, "PERFORMER"))
      && h'.gotTitle == (h.gotTitle || HeaderKey(line, "TITLE"))
      && (!h.gotPerformer && HeaderKey(line, "PERFORMER") ==> FieldValue(line, 9) == Value(h'.performer))
      && (h.gotPerformer || !HeaderKey(line, "PERFORMER") ==> h'.performer == h.performer)
      && (!h.gotTitle && HeaderKey(line, "TITLE") ==>
            FieldValue(line, 5).Value? && h'.title == AlbumTitle(FieldValue(line, 5).value))
      && (h.gotTitle || !HeaderKey(line, "TITLE") ==> h'.title == h.title)
      && (h'.dateYear == h.dateYear || IsDigitString(h'.dateYear) || h'.dateYear == [])
  {
    var h1 := GenreField(h, line).value;
    var h2 := DateField(h1, line).value;
    var h3 := PerformerField(h2, line).value;
  }

  /** The header pass keeps the first PERFORMER value of the header section, and a date
      that is all digits or empty. */
  lemma {:induction false} HeaderPassPerformer(h: Header, lines: seq<string>, base: string,
                                               isFile: string -> bool)
    requires HeaderPass(h, lines, base, isFile).Value?
    ensures var h' := HeaderPass(h, lines, base, isFile).value;
      var fp := FirstKeyLine(HeaderSection(lines), "PERFORMER");
      && (!h.gotPerformer && fp.Some? ==> FieldValue(fp.value, 9) == Value(h'.performer))
      && (h.gotPerformer || fp.None? ==> h'.performer == h.performer)
      && (IsDigitString(h.dateYear) || h.dateYear == [] ==>
            IsDigitString(h'.dateYear) || h'.dateYear == [])
    decreases |lines|
  {
    if lines != [] {
      var line := lines[0];
      AlbumFieldsStep(h, line);
      var h2 := HeaderLine(h, line, base, isFile).value;
      if !IsTrackLine(line) {
        HeaderPassPerformer(h2, lines[1..], base, isFile);
      }
    }
  }

  /** The header pass keeps the first TITLE value of the header section, with the
      `[HDAudio]` marker removed. */
  lemma {:induction false} HeaderPassTitle(h: Header, lines: seq<string>, base: string,
                                           isFile: string -> bool)
    requires HeaderPass(h, lines, base, isFile).Value?
    ensures var h' := HeaderPass(h, lines, base, isFile).value;
      var ft := FirstKeyLine(HeaderSection(lines), "TITLE");
      && (!h.gotTitle && ft.Some? ==>
            FieldValue(ft.value, 5).Value? && h'.title == AlbumTitle(FieldValue(ft.value, 5).value))
      && (h.gotTitle || ft.None? ==> h'.title == h.title)
    decreases |lines|
  {
    if lines != [] {
      var line := lines[0];
      AlbumFieldsStep(h, line);
      var h2 := HeaderLine(h, line, base, isFile).value;
      if !IsTrackLine(line) {
        HeaderPassTitle(h2, lines[1..], base, isFile);
      }
    }
  }

  /** The genre and date checks of one header line: a REM GENRE line gives the genre its
      value, a REM DATE line gives the date its value when all digits and blanks it
      otherwise, and every other line leaves both alone. */
  lemma AlbumFieldsGenreDate(h: Header, line: string)
    requires AlbumFields(h, line).Value?
    ensures var h' := AlbumFields(h, line).value;
      && (HeaderKey(line, "REM GENRE") ==> FieldValue(line, 9) == Value(h'.genre))
      && (!HeaderKey(line, "REM GENRE") ==> h'.genre == h.genre)
      && (HeaderKey(line, "REM DATE") ==>
            FieldValue(line, 8).Value? && h'.dateYear == YearOf(FieldValue(line, 8).value))
      && (!HeaderKey(line, "REM DATE") ==> h'.dateYear == h.dateYear)
  {
    var h1 := GenreField(h, line).value;
    var h2 := DateField(h1, line).value;
    var h3 := PerformerField(h2, line).value;
  }

  /** The header pass keeps the value of the LAST REM GENRE line of the header section:
      every such line overwrites the genre. */
  lemma {:induction false} HeaderPassGenre(h: Header, lines: seq<string>, base: string,
                                           isFile: string -> bool)
    requires HeaderPass(h, lines, base, isFile).Value?
    ensures var h' := HeaderPass(h, lines, base, isFile).value;
      var g := LastKeyLine(HeaderSection(lines), "REM GENRE");
      && (g.Some? ==> FieldValue(g.value, 9) == Value(h'.genre))
      && (g.None? ==> h'.genre == h.genre)
    decreases |lines|
  {
    if lines != [] {
      var line := lines[0];
      AlbumFieldsGenreDate(h, line);
      var h2 := HeaderLine(h, line, base, isFile).value;
      if IsTrackLine(line) {
        assert HeaderSection(lines) == [line];
        assert [line][1..] == [];
      } else {
        var rest := HeaderSection(lines[1..]);
        assert HeaderSection(lines)[1..] == rest;
        HeaderPassGenre(h2, lines[1..], base, isFile);
      }
    }
  }

  /** The header pass keeps the date of the LAST REM DATE line of the header section, when
      that value is all digits, and "" otherwise. */
  lemma {:induction false} HeaderPassDate(h: Header, lines: seq<string>, base: string,
                                          isFile: string -> bool)
    requires HeaderPass(h, lines, base, isFile).Value?
    ensures var h' := HeaderPass(h, lines, base, isFile).value;
      var d := LastKeyLine(HeaderSection(lines), "REM DATE");
      && (d.Some? ==> FieldValue(d.value, 8).Value? && h'.dateYear == YearOf(FieldValue(d.value, 8).value))
      && (d.None? ==> h'.dateYear == h.dateYear)
    decreases |lines|
  {
    if lines != [] {
      var line := lines[0];
      AlbumFieldsGenreDate(h, line);
      var h2 := HeaderLine(h, line, base, isFile).value;
      if IsTrackLine(line) {
        assert HeaderSection(lines) == [line];
        assert [line][1..] == [];
      } else {
        var rest := HeaderSection(lines[1..]);
        assert HeaderSection(lines)[1..] == rest;
        HeaderPassDate(h2, lines[1..], base, isFile);
      }
    }
  }

  /** The parsed sheet's genre and date: those of the last REM GENRE and REM DATE lines
      before the first track, or "" when there is none; a date that is not all digits is
      blanked. */
  lemma ParseGenreDate(lines: seq<string>, base: string, isFile: string -> bool)
    requires Parse(Some(lines), base, isFile).Value?
    ensures var c := Parse(Some(lines), base, isFile).value;
      var g := LastKeyLine(HeaderSection(lines), "REM GENRE");
      var d := LastKeyLine(HeaderSection(lines), "REM DATE");
      && (g.Some? ==> FieldValue(g.value, 9) == Value(c.genre))
      && (g.None? ==> c.genre == [])
      && (d.Some? ==> FieldValue(d.value, 8).Value? && c.dateYear == YearOf(FieldValue(d.value, 8).value))
      && (d.None? ==> c.dateYear == [])
      && (IsDigitString(c.dateYear) || c.dateYear == [])
  {
    HeaderPassGenre(HeaderStart, lines, base, isFile);
    HeaderPassDate(HeaderStart, lines, base, isFile);
  }

  /** The parse status: the file was read, the header section has exactly one FILE line,
      the image it names exists, at least one track was committed and no track number is
      left pending. */
  lemma ParseStatus(content: Option<seq<string>>, base: string, isFile: string -> bool)
    requires Parse(content, base, isFile).Value?
    ensures var c := Parse(content, base, isFile).value;
      c.ok <==>
        && content.Some?
        && FileLines(HeaderSection(content.value)) == 1
        && isFile(c.imagePath)
        && c.songs != []
        && TrackPass([], NoPending, content.value).value.1.number == []
  {
    if content.Some? {
      HeaderPassFile(HeaderStart, content.value, base, isFile);
    }
  }

  /** The number field is replaced by a TRACK line only; the other fields are untouched by
      any line while no number is pending. */
  lemma TrackFieldsNumber(p: Pending, line: string)
    requires TrackFields(p, line).Value?
    ensures TrackFields(p, line).value.number ==
      if IsTrackLine(line) then Slice(Strip(line), 6, 8) else p.number
  {
  }

  /** PERFORMER, TITLE and INDEX lines are ignored while no track number is pending. */
  lemma IgnoredWithoutNumber(p: Pending, line: string)
    requires p.number == [] && !IsTrackLine(line)
    ensures TrackFields(p, line) == Value(p)
  {
  }

  /** `num` is the two characters at offset 6 of some stripped TRACK line. */
  predicate NumberOfTrackLine(lines: seq<string>, num: string) {
    exists k :: 0 <= k < |lines| && IsTrackLine(lines[k]) && Slice(Strip(lines[k]), 6, 8) == num
  }

  lemma NumberOfTrackLineTail(lines: seq<string>, num: string)
    requires lines != [] && NumberOfTrackLine(lines[1..], num)
    ensures NumberOfTrackLine(lines, num)
  {
    var k :| 0 <= k < |lines[1..]| && IsTrackLine(lines[1..][k]) && Slice(Strip(lines[1..][k]), 6, 8) == num;
    assert lines[k + 1] == lines[1..][k];
  }

  /** One track-pass line either commits the completed fields, as one new entry, and
      resets them, or keeps the fields it read. */
  lemma TrackLineStep(songs: seq<Song>, p: Pending, line: string)
    requires TrackLine(songs, p, line).Value?
    ensures TrackFields(p, line).Value?
    ensures var q := TrackFields(p, line).value;
      var r := TrackLine(songs, p, line).value;
      && q.number == (if IsTrackLine(line) then Slice(Strip(line), 6, 8) else p.number)
      && if Complete(q) then r == (songs + [Song(q.number, q.title, q.performer, q.index)], NoPending)
         else r == (songs, q)
  {
    TrackFieldsNumber(p, line);
  }

  /** The track pass appends to the song list and never changes what is already there;
      every appended entry is complete; and each TRACK line yields at most one entry. */
  lemma {:induction false} TrackPassCommits(songs: seq<Song>, p: Pending, lines: seq<string>)
    requires TrackPass(songs, p, lines).Value?
    ensures var r := TrackPass(songs, p, lines).value;
      && |r.0| >= |songs| && r.0[..|songs|] == songs
      && (forall i :: |songs| <= i < |r.0| ==> Committed(r.0[i]))
      && |r.0| - |songs| + (if r.1.number != [] then 1 else 0)
         <= TrackLines(lines) + (if p.number != [] then 1 else 0)
    decreases |lines|
  {
    if lines != [] {
      var line := lines[0];
      TrackPassUnfold(songs, p, lines);
      TrackLineCounts(songs, p, line);
      var step := TrackLine(songs, p, line).value;
      TrackPassCommits(step.0, step.1, lines[1..]);
      var r := TrackPass(songs, p, lines).value;
      assert r.0[..|songs|] == r.0[..|step.0|][..|songs|];
    }
  }

  /** The track pass reads its first line, then passes the rest. */
  lemma TrackPassUnfold(songs: seq<Song>, p: Pending, lines: seq<string>)
    requires lines != [] && TrackPass(songs, p, lines).Value?
    ensures TrackLine(songs, p, lines[0]).Value?
    ensures var step := TrackLine(songs, p, lines[0]).value;
      && TrackPass(step.0, step.1, lines[1..]).Value?
      && TrackPass(songs, p, lines).value == TrackPass(step.0, step.1, lines[1..]).value
    ensures TrackLines(lines) == (if IsTrackLine(lines[0]) then 1 else 0) + TrackLines(lines[1..])
  {
  }

  /** One line of the track pass, in the terms of `TrackPassCommits`. */
  lemma TrackLineCounts(songs: seq<Song>, p: Pending, line: string)
    requires TrackLine(songs, p, line).Value?
    ensures var r := TrackLine(songs, p, line).value;
      && |r.0| >= |songs| && r.0[..|songs|] == songs
      && (forall i :: |songs| <= i < |r.0| ==> Committed(r.0[i]))
      && |r.0| - |songs| + (if r.1.number != [] then 1 else 0)
         <= (if IsTrackLine(line) then 1 else 0) + (if p.number != [] then 1 else 0)
  {
    TrackLineStep(songs, p, line);
  }

  /** `num` is empty, the number `start` a pass began with, or the number of one of the
      TRACK lines among `lines`. */
  predicate NumberFrom(lines: seq<string>, start: string, num: string) {
    num == [] || num == start || NumberOfTrackLine(lines, num)
  }

  lemma NumberFromStep(lines: seq<string>, start: string, mid: string, num: string)
    requires lines != []
    requires NumberFrom(lines, start, mid) && NumberFrom(lines[1..], mid, num)
    ensures NumberFrom(lines, start, num)
  {
    if num != [] && num != mid {
      NumberOfTrackLineTail(lines, num);
    }
  }

  /** Every number the track pass commits or leaves pending comes from one of the TRACK
      lines it read, or is the number pending when it started. */
  lemma {:induction false} TrackPassNumbers(songs: seq<Song>, p: Pending, lines: seq<string>)
    requires TrackPass(songs, p, lines).Value?
    ensures var r := TrackPass(songs, p, lines).value;
      && |r.0| >= |songs| && r.0[..|songs|] == songs
      && (forall i :: |songs| <= i < |r.0| ==> NumberFrom(lines, p.number, r.0[i].number))
      && NumberFrom(lines, p.number, r.1.number)
    decreases |lines|
  {
    if lines != [] {
      var line := lines[0];
      TrackLineStep(songs, p, line);
      var q := TrackFields(p, line).value;
      var step := TrackLine(songs, p, line).value;
      TrackPassNumbers(step.0, step.1, lines[1..]);
      var r := TrackPass(step.0, step.1, lines[1..]).value;
      assert r == TrackPass(songs, p, lines).value;
      assert NumberFrom(lines, p.number, q.number) by {
        if IsTrackLine(line) {
          assert lines[0] == line;
        }
      }
      assert NumberFrom(lines, p.number, step.1.number);
      forall i | |songs| <= i < |r.0|
        ensures NumberFrom(lines, p.number, r.0[i].number)
      {
        if i < |step.0| {
          assert r.0[i] == step.0[i];
        } else {
          NumberFromStep(lines, p.number, step.1.number, r.0[i].number);
        }
      }
      NumberFromStep(lines, p.number, step.1.number, r.1.number);
    }
  }
}

=== FILE: finalize.dfy ===
/** The name of the finished album folder: `performer - title` with characters that are
    awkward in paths replaced, capped at 42 characters, placed next to the temporary
    folder, and numbered `_1`, `_2`, ... when the name is already taken. The file system
    is a set of existing names. */
module Finalize {
  import opened Outcomes
  import opened PyStr
  import opened PyNum

  /** Longer names keep this many characters and get a trailing `_`. */
  const MaxDirName := 42

  /** The characters the replacement chain removes from a folder name. */
  predicate Replaced(c: char) {
    c == ':' || c == '/' || c == '\\' || c == '!' || c == '?' || c == '*'
  }

  /** The six `replace` calls in source order: `:`, `/` and `\` become `-`, `!` is
      dropped, `?` and `*` become `_`. */
  function ReplaceChain(s: string): string {
    var a := SubstChar(s, ':', "-");
    var b := SubstChar(a, '/', "-");
    var c := SubstChar(b, '\\', "-");
    var d := SubstChar(c, '!', "");
    var e := SubstChar(d, '?', "_");
    SubstChar(e, '*', "_")
  }

  /** What one character becomes: the reference the chain is compared with. */
  function DirChar(c: char): (r: string)
    ensures forall k :: 0 <= k < |r| ==> !Replaced(r[k])
  {
    if c == ':' || c == '/' || c == '\\' then "-"
    else if c == '!' then ""
    else if c == '?' || c == '*' then "_"
    else [c]
  }

  /** Every character mapped by `DirChar`, in order. */
  function DirChars(s: string): (r: string)
    ensures forall k :: 0 <= k < |r| ==> !Replaced(r[k])
    decreases |s|
  {
    if s == [] then []
    else
      var r := DirChar(s[0]) + DirChars(s[1..]);
      assert forall k :: |DirChar(s[0])| <= k < |r| ==> r[k] == DirChars(s[1..])[k - |DirChar(s[0])|];
      r
  }

  /** The folder name before it is joined to the parent folder. */
  function DirName(performer: string, title: string): (r: string)
    ensures |r| <= MaxDirName + 1
    ensures forall k :: 0 <= k < |r| ==> !Replaced(r[k])
  {
    var n := ReplaceChain(performer + " - " + title);
    ChainIsPerCharacter(performer + " - " + title);
    if |n| > MaxDirName then n[..MaxDirName] + "_" else n
  }

  /** The first name tried: the folder name next to the temporary folder, whose parent is
      `parent`. */
  function BaseDir(parent: string, performer: string, title: string): string {
    JoinPath(parent, DirName(performer, title))
  }

  /** The `k`-th name tried: `base` itself, then `base_1`, `base_2`, ... */
  function Candidate(base: string, k: nat): string {
    if k == 0 then base else base + "_" + NatToString(k)
  }

  /** The collision loop. When the base name exists, `_1` is appended; while the name
      exists, the number after its last `_` is read with `int` and written back one
      higher. The result is the first candidate that does not exist. */
  method FreeName(existing: set<string>, base: string) returns (r: string)
    ensures r !in existing
    ensures exists k: nat :: r == Candidate(base, k) && forall j :: 0 <= j < k ==> Candidate(base, j) in existing
  {
    r := base;
    if r !in existing {
      assert r == Candidate(base, 0);
      return;
    }
    r := r + "_1";
    ghost var k := 1;
    ghost var seen: set<string> := {base};
    ProbedStart(existing, base);
    while r in existing
      invariant r == Candidate(base, k) && Probed(existing, base, k, seen)
      decreases |existing - seen|
    {
      SeenGrows(existing, base, k, seen);
      r := Renumber(r, base, k);
      seen := seen + {Candidate(base, k)};
      k := k + 1;
    }
  }

  /** One round of the collision loop: the number after the last `_` is read with `int`
      and written back one higher, which turns `base_k` into `base_(k+1)`. */
  method Renumber(r: string, ghost base: string, ghost k: nat) returns (r': string)
    requires k >= 1 && r == Candidate(base, k)
    ensures r' == Candidate(base, k + 1)
  {
    SuffixReadsBack(base, k);
    var cut := RFind(r, '_');
    var number := PyInt(r[cut + 1..]);
    r' := r[..cut + 1] + IntToString(number.value + 1);
  }

  /** The names `base`, `base_1`, ..., up to the `k`-th, all exist, and `seen` holds
      exactly those names. */
  ghost predicate Probed(existing: set<string>, base: string, k: nat, seen: set<string>) {
    && k >= 1
    && (forall j :: 0 <= j < k ==> Candidate(base, j) in existing)
    && seen <= existing && |seen| == k
    && (forall x :: x in seen ==> exists j :: 0 <= j < k && x == Candidate(base, j))
  }

  /** The loop starts at `base_1`, with `base` seen and existing. */
  lemma ProbedStart(existing: set<string>, base: string)
    requires base in existing
    ensures base + "_1" == Candidate(base, 1) && Probed(existing, base, 1, {base})
  {
    assert NatToString(1) == "1";
    assert base == Candidate(base, 0);
  }

  /** Adding the current, existing candidate to the names seen so far adds one name and
      leaves fewer existing names unseen. */
  lemma SeenGrows(existing: set<string>, base: string, k: nat, seen: set<string>)
    requires Probed(existing, base, k, seen) && Candidate(base, k) in existing
    ensures Probed(existing, base, k + 1, seen + {Candidate(base, k)})
    ensures existing - (seen + {Candidate(base, k)}) < existing - seen
  {
    var r := Candidate(base, k);
    CandidateNew(base, k, seen);
    assert r in existing - seen && r !in existing - (seen + {r});
    forall x | x in seen + {r} ensures exists j :: 0 <= j < k + 1 && x == Candidate(base, j) {
      if x == r {
        assert 0 <= k < k + 1 && x == Candidate(base, k);
      }
    }
  }

  /** A candidate differs from every earlier one. */
  lemma CandidateNew(base: string, k: nat, seen: set<string>)
    requires k >= 1
    requires forall x :: x in seen ==> exists j :: 0 <= j < k && x == Candidate(base, j)
    ensures Candidate(base, k) !in seen
  {
    if Candidate(base, k) in seen {
      var j :| 0 <= j < k && Candidate(base, k) == Candidate(base, j);
      if j > 0 {
        var a := base + "_";
        assert a + NatToString(k) == a + NatToString(j);
        assert NatToString(k) == (a + NatToString(k))[|a|..];
        assert NatToString(j) == (a + NatToString(j))[|a|..];
        NatToStringInjective(k, j);
      }
    }
  }

  /** In `base_k` the last `_` is the one before the number, and `int` reads the number
      back; writing the next number there gives the next candidate. */
  lemma SuffixReadsBack(base: string, k: nat)
    requires k >= 1
    ensures var s := Candidate(base, k);
      && RFind(s, '_') == |base|
      && PyInt(s[|base| + 1..]).Value? && PyInt(s[|base| + 1..]).value == k
      && s[..|base| + 1] + IntToString(k + 1) == Candidate(base, k + 1)
  {
    var a := base + "_";
    var digits := NatToString(k);
    assert '_' !in digits by {
      forall i | 0 <= i < |digits| ensures digits[i] != '_' {
        assert IsDigit(digits[i]);
      }
    }
    RFindAppend(a, digits, '_');
    assert a[|a| - 1] == '_';
    assert RFind(a, '_') == |base|;
    assert (a + digits)[|a|..] == digits;
    assert (a + digits)[..|a|] == a;
    NatToStringRoundTrip(k);
    PyIntOfDigits(digits);
  }

  // ---------------------------------------------------------------------------------
  // The replacement chain, one character at a time

  /** `replace` distributes over concatenation. */
  lemma {:induction false} SubstCharAppend(a: string, b: string, c: char, rep: string)
    ensures SubstChar(a + b, c, rep) == SubstChar(a, c, rep) + SubstChar(b, c, rep)
    decreases |a|
  {
    if a == [] {
      assert a + b == b;
    } else {
      var h := if a[0] == c then rep else [a[0]];
      var tail, sb := SubstChar(a[1..], c, rep), SubstChar(b, c, rep);
      assert SubstChar(a + b, c, rep) == h + SubstChar(a[1..] + b, c, rep) by {
        var ab := a + b;
        assert ab[0] == a[0] && ab[1..] == a[1..] + b;
      }
      assert SubstChar(a[1..] + b, c, rep) == tail + sb by {
        SubstCharAppend(a[1..], b, c, rep);
      }
      AppendAssoc(h, tail, sb);
    }
  }

  lemma AppendAssoc(x: string, y: string, z: string)
    ensures x + (y + z) == (x + y) + z
  {
  }

  lemma ChainAppend(a: string, b: string)
    ensures ReplaceChain(a + b) == ReplaceChain(a) + ReplaceChain(b)
  {
    SubstCharAppend(a, b, ':', "-");
    var a1, b1 := SubstChar(a, ':', "-"), SubstChar(b, ':', "-");
    SubstCharAppend(a1, b1, '/', "-");
    var a2, b2 := SubstChar(a1, '/', "-"), SubstChar(b1, '/', "-");
    SubstCharAppend(a2, b2, '\\', "-");
    var a3, b3 := SubstChar(a2, '\\', "-"), SubstChar(b2, '\\', "-");
    SubstCharAppend(a3, b3, '!', "");
    var a4, b4 := SubstChar(a3, '!', ""), SubstChar(b3, '!', "");
    SubstCharAppend(a4, b4, '?', "_");
    var a5, b5 := SubstChar(a4, '?', "_"), SubstChar(b4, '?', "_");
    SubstCharAppend(a5, b5, '*', "_");
  }

  lemma ChainOfChar(c: char)
    ensures ReplaceChain([c]) == DirChar(c)
  {
    var a := SubstChar([c], ':', "-");
    SubstShort([c], ':', "-");
    var b := SubstChar(a, '/', "-");
    SubstShort(a, '/', "-");
    var c3 := SubstChar(b, '\\', "-");
    SubstShort(b, '\\', "-");
    var d := SubstChar(c3, '!', "");
    SubstShort(c3, '!', "");
    var e := SubstChar(d, '?', "_");
    SubstShort(d, '?', "_");
    SubstShort(e, '*', "_");
  }

  /** `replace` on a string of at most one character. */
  lemma SubstShort(s: string, c: char, rep: string)
    requires |s| <= 1
    ensures SubstChar(s, c, rep) == if s == [] then [] else if s[0] == c then rep else s
  {
    if s != [] {
      assert s[1..] == [];
    }
  }

  /** The chain of six `replace` calls maps each character on its own, as `DirChar`
      says. */
  lemma {:induction false} ChainIsPerCharacter(s: string)
    ensures ReplaceChain(s) == DirChars(s)
    decreases |s|
  {
    if s != [] {
      ChainIsPerCharacter(s[1..]);
      ChainAppend([s[0]], s[1..]);
      assert [s[0]] + s[1..] == s;
      ChainOfChar(s[0]);
    }
  }

  /** A name is changed only where it has a replaced character, and one without any
      stays as it is. */
  lemma {:induction false} CleanNameUnchanged(s: string)
    requires forall k :: 0 <= k < |s| ==> !Replaced(s[k])
    ensures ReplaceChain(s) == s
    decreases |s|
  {
    ChainIsPerCharacter(s);
    DirCharsIdentity(s);
  }

  lemma {:induction false} DirCharsIdentity(s: string)
    requires forall k :: 0 <= k < |s| ==> !Replaced(s[k])
    ensures DirChars(s) == s
    decreases |s|
  {
    if s != [] {
      DirCharsIdentity(s[1..]);
    }
  }

  /** Long names keep their first 42 characters and get a `_`; short ones are kept. */
  lemma DirNameCap(performer: string, title: string)
    ensures var n := DirChars(performer + " - " + title);
      DirName(performer, title) == if |n| > MaxDirName then n[..MaxDirName] + "_" else n
  {
    ChainIsPerCharacter(performer + " - " + title);
  }
}

=== FILE: outcomes.dfy ===
/** Optional values and the results of Python computations that may raise. */
module Outcomes {

  /** Python's `None` versus a present value. */
  datatype Option<+T> = None | Some(value: T)

  /** The result of a Python expression that may raise an exception. The source never
      catches the exceptions modelled here (IndexError, ValueError, UnboundLocalError),
      so the model does not tell them apart. Usable with `:-`. */
  datatype Outcome<+T> = Value(value: T) | Raised {

    predicate IsFailure() {
      Raised?
    }

    function PropagateFailure<U>(): Outcome<U>
      requires Raised?
    {
      Raised
    }

    function Extract(): T
      requires Value?
    {
      value
    }
  }
}

=== FILE: pynum.dfy ===
/** Python's integer conversions and number formats used by the cue splitter, on exact
    integers. Times are fixed-point integers in units of 10^-10 s ("ticks"), the resolution
    of the source's ten-decimal time stamps. */
module PyNum {
  import opened Outcomes
  import opened PyStr

  /** Ticks per second. */
  const Scale: nat := 10_000_000_000

  function Pow10(k: nat): (r: nat)
    ensures r >= 1
  {
    if k == 0 then 1 else 10 * Pow10(k - 1)
  }

  function DigitValue(c: char): nat
    requires IsDigit(c)
  {
    c as int - '0' as int
  }

  function DigitChar(d: nat): (c: char)
    requires d < 10
    ensures IsDigit(c) && DigitValue(c) == d
  {
    (48 + d) as char
  }

  /** `str(n)` for a non-negative integer: decimal digits without a leading zero. */
  function NatToString(n: nat): (r: string)
    ensures r != [] && AllDigits(r)
    ensures r[0] == '0' ==> n == 0
    decreases n
  {
    if n < 10 then [DigitChar(n)] else NatToString(n / 10) + [DigitChar(n % 10)]
  }

  /** `str(i)` for any integer. */
  function IntToString(i: int): (r: string)
    ensures r != [] && (r[0] == '-' || IsDigit(r[0])) && IsDigit(r[|r| - 1])
    ensures '_' !in r && '.' !in r
  {
    if i < 0 then "-" + NatToString(-i) else NatToString(i)
  }

  /** The value of a string of decimal digits; leading zeros are allowed. */
  function DigitsValue(s: string): nat
    requires AllDigits(s)
  {
    if s == [] then 0 else DigitsValue(s[..|s| - 1]) * 10 + DigitValue(s[|s| - 1])
  }

  /** Reading back the digits `str` writes gives the number. */
  lemma {:induction false} NatToStringRoundTrip(n: nat)
    ensures DigitsValue(NatToString(n)) == n
    decreases n
  {
    if n >= 10 {
      NatToStringRoundTrip(n / 10);
      var s := NatToString(n);
      assert s[..|s| - 1] == NatToString(n / 10);
    }
  }

  lemma NatToStringInjective(a: nat, b: nat)
    ensures NatToString(a) == NatToString(b) ==> a == b
  {
    NatToStringRoundTrip(a);
    NatToStringRoundTrip(b);
  }

  /** A number below 10^k needs at most k digits. */
  lemma {:induction false} NatToStringLength(n: nat, k: nat)
    ensures k >= 1 && n < Pow10(k) ==> |NatToString(n)| <= k
    decreases n
  {
    if n >= 10 && k >= 1 && n < Pow10(k) {
      assert k >= 2;
      assert n / 10 < Pow10(k - 1);
      NatToStringLength(n / 10, k - 1);
    }
  }

  function Zeros(k: nat): (r: string)
    ensures |r| == k && forall i :: 0 <= i < k ==> r[i] == '0'
  {
    seq(k, _ => '0')
  }

  /** Leading zeros do not change the value of a digit string. */
  lemma {:induction false} LeadingZeros(k: nat, s: string)
    ensures AllDigits(s) ==> AllDigits(Zeros(k) + s) && DigitsValue(Zeros(k) + s) == DigitsValue(s)
    decreases |s|
  {
    var z := Zeros(k) + s;
    if !AllDigits(s) {
    } else if s == [] {
      ZerosValue(k);
      assert z == Zeros(k);
    } else {
      LeadingZeros(k, s[..|s| - 1]);
      assert z[..|z| - 1] == Zeros(k) + s[..|s| - 1];
    }
  }

  lemma {:induction false} ZerosValue(k: nat)
    ensures DigitsValue(Zeros(k)) == 0
  {
    if k > 0 {
      ZerosValue(k - 1);
      assert Zeros(k)[..k - 1] == Zeros(k - 1);
    }
  }

  /** `s` left-padded with '0' to at least `w` characters. */
  function PadZero(s: string, w: nat): (r: string)
    ensures |r| == (if |s| < w then w else |s|)
    ensures AllDigits(s) ==> AllDigits(r) && DigitsValue(r) == DigitsValue(s)
  {
    if |s| < w then LeadingZeros(w - |s|, s); Zeros(w - |s|) + s else s
  }

  /** Python's `"{:0W}".format(i)` for an integer, which is also what `"{:0W.0f}"` prints
      for an integral float: a minus sign for negative values, then the digits padded with
      zeros so that the whole takes at least W characters. */
  function ZeroPadInt(i: int, w: nat): (r: string)
    ensures i >= 0 ==> AllDigits(r) && |r| >= w && DigitsValue(r) == i
    ensures i >= 0 && i < Pow10(w) && w >= 1 ==> |r| == w
    ensures i < 0 ==> |r| >= 1 && r[0] == '-' && AllDigits(r[1..])
    ensures forall k :: 0 <= k < |r| ==> IsDigit(r[k]) || r[k] == '-'
  {
    NatToStringRoundTrip(if i < 0 then -i else i);
    if i < 0 then "-" + PadZero(NatToString(-i), if w > 0 then w - 1 else 0)
    else
      NatToStringLength(i, w);
      PadZero(NatToString(i), w)
  }

  /** Python's `int(s)` body after the sign: digits, with single underscores allowed
      between digits. */
  predicate IntBody(b: string) {
    && b != [] && IsDigit(b[0]) && IsDigit(b[|b| - 1])
    && (forall i :: 0 <= i < |b| ==> IsDigit(b[i]) || b[i] == '_')
    && !Contains(b, "__")
  }

  /** `s` without its underscores. */
  function DropUnderscores(s: string): (r: string)
    ensures (forall i :: 0 <= i < |s| ==> IsDigit(s[i]) || s[i] == '_') ==> AllDigits(r)
    ensures '_' !in s ==> r == s
  {
    if s == [] then [] else (if s[0] == '_' then [] else [s[0]]) + DropUnderscores(s[1..])
  }

  /** The text after an optional leading sign. */
  function Unsigned(t: string): string {
    if t != [] && (t[0] == '-' || t[0] == '+') then t[1..] else t
  }

  /** The text starts with a minus sign. */
  predicate Negative(t: string) {
    t != [] && t[0] == '-'
  }

  /** Python's `int(s)` on ASCII text: surrounding whitespace, an optional sign and an
      integer body; anything else raises ValueError. */
  function PyInt(s: string): Outcome<int> {
    var t := Strip(s);
    match IntBodyValue(Unsigned(t))
    case Raised => Raised
    case Value(m) =>
      var v: int := m;
      Value(if Negative(t) then -v else v)
  }

  /** The value of an integer body. */
  function IntBodyValue(b: string): Outcome<nat> {
    if IntBody(b) then Value(DigitsValue(DropUnderscores(b))) else Raised
  }

  lemma DigitsAreIntBody(s: string)
    requires s != [] && AllDigits(s)
    ensures IntBody(s) && DropUnderscores(s) == s
  {
    assert '_' !in s by {
      forall i | 0 <= i < |s| ensures s[i] != '_' {
        assert IsDigit(s[i]);
      }
    }
    forall i | 0 <= i <= |s| - 2 ensures !OccursAt(s, "__", i) {
      assert IsDigit(s[i]);
    }
  }

  /** Text that starts with a digit or a minus sign and ends with a digit has no
      surrounding whitespace. */
  lemma StripKeepsNumber(s: string)
    requires s != [] && (IsDigit(s[0]) || s[0] == '-') && IsDigit(s[|s| - 1])
    ensures Strip(s) == s
  {
    StripEnds(s);
  }

  lemma PyIntOfDigits(d: string)
    requires d != [] && AllDigits(d)
    ensures PyInt(d).Value? && PyInt(d).value == DigitsValue(d)
  {
    assert Strip(d) == d by {
      StripKeepsNumber(d);
    }
    assert IntBodyValue(Unsigned(d)) == Value(DigitsValue(d)) by {
      DigitsAreIntBody(d);
      assert Unsigned(d) == d;
    }
    assert !Negative(d);
  }

  lemma PyIntOfNegativeDigits(d: string)
    requires d != [] && AllDigits(d)
    ensures PyInt("-" + d).Value? && PyInt("-" + d).value == -(DigitsValue(d) as int)
  {
    var s := "-" + d;
    assert Strip(s) == s by {
      assert s[|s| - 1] == d[|d| - 1];
      StripKeepsNumber(s);
    }
    assert IntBodyValue(Unsigned(s)) == Value(DigitsValue(d)) by {
      DigitsAreIntBody(d);
      assert Unsigned(s) == d;
    }
    assert Negative(s);
  }

  /** `int(str(i)) == i`. */
  lemma PyIntRoundTrip(i: int)
    ensures PyInt(IntToString(i)).Value? && PyInt(IntToString(i)).value == i
  {
    if i < 0 {
      NegativeRoundTrip(i);
      PyIntOfSame(IntToString(i), "-" + NatToString(-i), i);
    } else {
      NatRoundTrip(i);
      PyIntOfSame(IntToString(i), NatToString(i), i);
    }
  }

  lemma PyIntOfSame(s: string, t: string, v: int)
    requires s == t && PyInt(t).Value? && PyInt(t).value == v
    ensures PyInt(s).Value? && PyInt(s).value == v
  {
  }

  lemma NatRoundTrip(n: nat)
    ensures PyInt(NatToString(n)).Value? && PyInt(NatToString(n)).value == n
  {
    NatToStringRoundTrip(n);
    PyIntOfDigits(NatToString(n));
  }

  lemma NegativeRoundTrip(i: int)
    requires i < 0
    ensures PyInt("-" + NatToString(-i)).Value? && PyInt("-" + NatToString(-i)).value == i
  {
    NatToStringRoundTrip(-i);
    PyIntOfNegativeDigits(NatToString(-i));
  }

  /** Python's `"{:.10f}".format(x)` for `x` given in ticks: sign, whole seconds, a point
      and exactly ten decimals. */
  function FormatFixed10(t: int): string {
    (if t < 0 then "-" else "") + FixedDigits(Magnitude(t))
  }

  /** The absolute value. */
  function Magnitude(t: int): nat {
    if t < 0 then -t else t
  }

  /** A rendering is a sign for negative values, digits, and a point followed by exactly
      ten digits; it holds no space. */
  lemma FormatFixed10Shape(t: int)
    ensures var r := FormatFixed10(t);
      && |r| >= 12 && (r[0] == '-' <==> t < 0)
      && r[|r| - 11] == '.' && AllDigits(r[|r| - 10..])
      && ' ' !in r
  {
    var d := FixedDigits(Magnitude(t));
    var r := FormatFixed10(t);
    assert ' ' !in d;
    if t < 0 {
      assert r == "-" + d;
      assert r[|r| - 10..] == d[|d| - 10..];
    } else {
      assert r == d;
    }
  }

  /** The unsigned part of a ten-decimal rendering. */
  function FixedDigits(m: nat): (r: string)
    ensures |r| >= 12 && IsDigit(r[0]) && IsDigit(r[|r| - 1])
    ensures r[|r| - 11] == '.' && AllDigits(r[|r| - 10..])
    ensures forall k :: 0 <= k < |r| ==> IsDigit(r[k]) || r[k] == '.'
  {
    var w := NatToString(m / Scale);
    var f := PadZero(NatToString(m % Scale), 10);
    FracOfRemainder(m % Scale);
    var r := w + "." + f;
    assert r[|r| - 10..] == f;
    r
  }

  /** `float` reads a ten-decimal rendering back as the number rendered, so a time stamp
      survives the round trip through its text exactly. */
  lemma FormatFixed10ReadBack(t: int)
    ensures DecimalTicks(FormatFixed10(t)).Value? && DecimalTicks(FormatFixed10(t)).value == t
  {
    if t < 0 {
      NegativeFixedReadBack(t);
    } else {
      FixedReadBack(t);
    }
  }

  lemma FixedReadBack(t: int)
    requires t >= 0
    ensures DecimalTicks(FormatFixed10(t)).Value? && DecimalTicks(FormatFixed10(t)).value == t
  {
    var s := FixedDigits(Magnitude(t));
    assert FormatFixed10(t) == s by {
      assert "" + s == s;
    }
    FixedDigitsValue(Magnitude(t));
    DecimalOfDigitText(s, Magnitude(t));
  }

  lemma NegativeFixedReadBack(t: int)
    requires t < 0
    ensures DecimalTicks(FormatFixed10(t)).Value? && DecimalTicks(FormatFixed10(t)).value == t
  {
    var d := FixedDigits(Magnitude(t));
    assert FormatFixed10(t) == "-" + d;
    FixedDigitsValue(Magnitude(t));
    DecimalOfMinusText(d, Magnitude(t));
  }

  /** `float` of unsigned decimal text that starts and ends with a digit. */
  lemma DecimalOfDigitText(s: string, m: nat)
    requires s != [] && IsDigit(s[0]) && IsDigit(s[|s| - 1])
    requires UnsignedDecimal(s).Value? && UnsignedDecimal(s).value == m
    ensures DecimalTicks(s).Value? && DecimalTicks(s).value == m
  {
    StripKeepsNumber(s);
    assert Unsigned(s) == s && !Negative(s);
  }

  /** `float` of a minus sign before unsigned decimal text that starts and ends with a
      digit. */
  lemma DecimalOfMinusText(d: string, m: nat)
    requires d != [] && IsDigit(d[0]) && IsDigit(d[|d| - 1])
    requires UnsignedDecimal(d).Value? && UnsignedDecimal(d).value == m
    ensures DecimalTicks("-" + d).Value? && DecimalTicks("-" + d).value == -(m as int)
  {
    var s := "-" + d;
    assert s[|s| - 1] == d[|d| - 1];
    StripKeepsNumber(s);
    assert Unsigned(s) == d && Negative(s);
  }

  /** The whole seconds and the ten decimals together give the ticks back. */
  lemma FixedDigitsValue(m: nat)
    ensures UnsignedDecimal(FixedDigits(m)).Value? && UnsignedDecimal(FixedDigits(m)).value == m
  {
    var w := NatToString(m / Scale);
    var f := PadZero(NatToString(m % Scale), 10);
    FracOfRemainder(m % Scale);
    NatToStringRoundTrip(m / Scale);
    UnsignedDecimalOfParts(w, f);
    assert (m / Scale) * Scale + m % Scale == m;
  }

  /** Ticks for the digits after a decimal point: exact up to ten digits; longer fractions
      are rounded to the nearest tick, halves up. */
  function FracTicks(f: string): nat
    requires AllDigits(f)
  {
    if |f| <= 10 then DigitsValue(f) * Pow10(10 - |f|)
    else
      var p := Pow10(|f| - 10);
      (2 * DigitsValue(f) + p) / (2 * p)
  }

  lemma ScaleIsPow10()
    ensures Pow10(10) == Scale
  {
    assert Pow10(2) == 100;
    assert Pow10(4) == 10000;
    assert Pow10(6) == 1000000;
    assert Pow10(8) == 100000000;
  }

  lemma {:induction false} Pow10Split(a: nat, b: nat)
    ensures Pow10(a) * Pow10(b) == Pow10(a + b)
    decreases a
  {
    if a > 0 {
      Pow10Split(a - 1, b);
    }
  }

  /** Python's `float(s)` in ticks, for plain decimal text: surrounding whitespace, an
      optional sign, then an unsigned decimal. */
  function DecimalTicks(s: string): Outcome<int> {
    var t := Strip(s);
    match UnsignedDecimal(Unsigned(t))
    case Raised => Raised
    case Value(m) =>
      var v: int := m;
      Value(if Negative(t) then -v else v)
  }

  /** Digits and an optional point followed by digits, with at least one digit in all,
      read in ticks. */
  function UnsignedDecimal(body: string): Outcome<nat> {
    var dot := Find(body, '.');
    var whole := if dot == -1 then body else body[..dot];
    var frac := if dot == -1 then [] else body[dot + 1..];
    if !AllDigits(whole) || !AllDigits(frac) || whole + frac == [] then Raised
    else Value(DigitsValue(whole) * Scale + FracTicks(frac))
  }

  /** The first point in `w + "." + f` is the one after the digits `w`. */
  lemma FindPointAfterDigits(w: string, f: string)
    requires AllDigits(w)
    ensures Find(w + "." + f, '.') == |w|
  {
    var b := w + "." + f;
    assert b[|w|] == '.';
    forall j | 0 <= j < |w| ensures b[j] != '.' {
      assert IsDigit(w[j]);
    }
  }

  lemma UnsignedDecimalOfParts(w: string, f: string)
    requires w != [] && AllDigits(w) && AllDigits(f)
    ensures UnsignedDecimal(w + "." + f).Value?
    ensures UnsignedDecimal(w + "." + f).value == DigitsValue(w) * Scale + FracTicks(f)
  {
    var body := w + "." + f;
    FindPointAfterDigits(w, f);
    assert body[..|w|] == w;
    assert body[|w| + 1..] == f;
    UnsignedDecimalAt(body, |w|);
  }

  /** Text whose first point has digits on both sides, at least one before it. */
  lemma UnsignedDecimalAt(body: string, dot: nat)
    requires dot < |body| && Find(body, '.') == dot
    requires body[..dot] != [] && AllDigits(body[..dot]) && AllDigits(body[dot + 1..])
    ensures UnsignedDecimal(body).Value?
    ensures UnsignedDecimal(body).value == DigitsValue(body[..dot]) * Scale + FracTicks(body[dot + 1..])
  {
    var whole, frac := body[..dot], body[dot + 1..];
    assert |whole + frac| > 0;
  }

  /** Unsigned decimal text with whole and fraction digits reads as its value. */
  lemma DecimalTicksOfParts(w: string, f: string)
    requires w != [] && AllDigits(w) && f != [] && AllDigits(f)
    ensures DecimalTicks(w + "." + f).Value?
    ensures DecimalTicks(w + "." + f).value == DigitsValue(w) * Scale + FracTicks(f)
  {
    var s := w + "." + f;
    assert s[0] == w[0] && s[|s| - 1] == f[|f| - 1];
    StripKeepsNumber(s);
    assert Unsigned(s) == s && !Negative(s);
    UnsignedDecimalOfParts(w, f);
  }

  /** The ten padded decimals of a remainder read back as that remainder. */
  lemma FracOfRemainder(r: nat)
    requires r < Scale
    ensures var f := PadZero(NatToString(r), 10);
      |f| == 10 && AllDigits(f) && FracTicks(f) == r
  {
    ScaleIsPow10();
    NatToStringLength(r, 10);
    NatToStringRoundTrip(r);
    var f := PadZero(NatToString(r), 10);
    assert |f| == 10;
    assert Pow10(0) == 1;
  }

  /** `int` ignores the line break after a number's digits. */
  lemma PyIntOfDigitsBreak(d: string)
    requires d != [] && AllDigits(d)
    ensures PyInt(d + "\n").Value? && PyInt(d + "\n").value == DigitsValue(d)
  {
    var s := d + "\n";
    assert !IsSpace(d[0]) && !IsSpace(d[|d| - 1]);
    assert LStrip(s) == s;
    assert s[..|s| - 1] == d;
    assert RStrip(s) == RStrip(d);
    StripEnds(d);
    assert LStrip(d) == d;
    assert Strip(s) == d;
    DigitsAreIntBody(d);
    assert Unsigned(d) == d && !Negative(d);
  }
}

=== FILE: pystr.dfy ===
/** The Python string operations the cue splitter relies on, with Python's semantics
    (code-point strings, clamped slices, `find` returning -1). */
module PyStr {

  /** Python's `str.isspace()` for one character. */
  predicate IsSpace(c: char) {
    || c == ' '
    || ('\t' <= c <= '\r')
    || ('\U{1c}' <= c <= '\U{1f}')
    || c == '\U{85}' || c == '\U{a0}' || c == '\U{1680}'
    || ('\U{2000}' <= c <= '\U{200a}')
    || c == '\U{2028}' || c == '\U{2029}' || c == '\U{202f}' || c == '\U{205f}' || c == '\U{3000}'
  }

  predicate IsDigit(c: char) {
    '0' <= c <= '9'
  }

  predicate AllDigits(s: string) {
    forall i :: 0 <= i < |s| ==> IsDigit(s[i])
  }

  /** `str.isdigit()` restricted to ASCII digits: non-empty and digits only. */
  predicate IsDigitString(s: string) {
    s != [] && AllDigits(s)
  }

  /** `s.lstrip()`: drops leading whitespace. */
  function LStrip(s: string): string {
    if s != [] && IsSpace(s[0]) then LStrip(s[1..]) else s
  }

  /** `s.rstrip()`: drops trailing whitespace. */
  function RStrip(s: string): string {
    if s != [] && IsSpace(s[|s| - 1]) then RStrip(s[..|s| - 1]) else s
  }

  /** `s.strip()`. */
  function Strip(s: string): string {
    RStrip(LStrip(s))
  }

  /** `lstrip` returns the longest suffix that does not start with whitespace. */
  lemma {:induction false} LStripSuffix(s: string)
    ensures var r := LStrip(s);
      && |r| <= |s| && r == s[|s| - |r|..]
      && (forall i :: 0 <= i < |s| - |r| ==> IsSpace(s[i]))
      && (r != [] ==> !IsSpace(r[0]))
  {
    if s != [] && IsSpace(s[0]) {
      var t := s[1..];
      LStripSuffix(t);
      var r := LStrip(t);
      assert LStrip(s) == r;
      assert t[|t| - |r|..] == s[|s| - |r|..];
      forall i | 0 <= i < |s| - |r| ensures IsSpace(s[i]) {
        if i > 0 {
          assert s[i] == t[i - 1];
        }
      }
    }
  }

  /** `rstrip` returns the longest prefix that does not end with whitespace. */
  lemma {:induction false} RStripPrefix(s: string)
    ensures var r := RStrip(s);
      && |r| <= |s| && r == s[..|r|]
      && (forall i :: |r| <= i < |s| ==> IsSpace(s[i]))
      && (r != [] ==> !IsSpace(r[|r| - 1]))
  {
    if s != [] && IsSpace(s[|s| - 1]) {
      RStripPrefix(s[..|s| - 1]);
    }
  }

  /** Text without whitespace at either end is its own `strip`, and a stripped text has
      none left at either end. */
  lemma StripEnds(s: string)
    ensures var r := Strip(s);
      && |r| <= |s|
      && (r != [] ==> !IsSpace(r[0]) && !IsSpace(r[|r| - 1]))
      && (s == [] || (!IsSpace(s[0]) && !IsSpace(s[|s| - 1])) ==> r == s)
  {
    StripShape(s);
    if s == [] || (!IsSpace(s[0]) && !IsSpace(s[|s| - 1])) {
      StripFixed(s);
    }
  }

  lemma StripShape(s: string)
    ensures var r := Strip(s);
      && |r| <= |s|
      && (r != [] ==> !IsSpace(r[0]) && !IsSpace(r[|r| - 1]))
  {
    LStripSuffix(s);
    var l := LStrip(s);
    RStripPrefix(l);
    var r := RStrip(l);
    if r != [] {
      assert r[0] == l[0];
    }
  }

  lemma StripFixed(s: string)
    requires s == [] || (!IsSpace(s[0]) && !IsSpace(s[|s| - 1]))
    ensures Strip(s) == s
  {
    assert LStrip(s) == s;
    assert RStrip(s) == s;
  }

  /** `s[:n]` for a non-negative `n`. */
  function Take(s: string, n: nat): (r: string)
    ensures |r| == (if n < |s| then n else |s|)
    ensures r == s[..|r|]
  {
    if n < |s| then s[..n] else s
  }

  /** `s[n:]` for a non-negative `n`. */
  function Drop(s: string, n: nat): (r: string)
    ensures |r| == (if n < |s| then |s| - n else 0)
    ensures r == s[|s| - |r|..]
  {
    if n < |s| then s[n..] else []
  }

  /** `s[a:b]` for non-negative bounds. */
  function Slice(s: string, a: nat, b: nat): string {
    Drop(Take(s, b), a)
  }

  /** `s[:n]` for any integer `n`; a negative `n` counts from the end. */
  function TakePy(s: string, n: int): (r: string)
    ensures |r| <= |s| && r == s[..|r|]
    ensures n < 0 && s != [] ==> |r| == if -n < |s| then |s| + n else 0
  {
    if n >= 0 then Take(s, n) else if -n < |s| then s[..|s| + n] else []
  }

  predicate StartsWith(s: string, p: string) {
    |p| <= |s| && s[..|p|] == p
  }

  predicate EndsWith(s: string, p: string) {
    |p| <= |s| && s[|s| - |p|..] == p
  }

  /** `t` occurs in `s` starting at index `i`. */
  predicate OccursAt(s: string, t: string, i: int) {
    0 <= i && i + |t| <= |s| && s[i..i + |t|] == t
  }

  /** Python's `t in s` for strings. */
  predicate Contains(s: string, t: string) {
    exists i | 0 <= i <= |s| - |t| :: OccursAt(s, t, i)
  }

  lemma ContainsAt(s: string, t: string, i: nat)
    requires OccursAt(s, t, i)
    ensures Contains(s, t)
  {
  }

  /** An occurrence in a suffix is an occurrence in the whole string. */
  lemma ContainsInSuffix(s: string, t: string, k: nat)
    requires k <= |s|
    ensures Contains(s[k..], t) ==> Contains(s, t)
  {
    if Contains(s[k..], t) {
      var i :| 0 <= i <= |s[k..]| - |t| && OccursAt(s[k..], t, i);
      assert s[k + i..k + i + |t|] == t;
      assert OccursAt(s, t, k + i);
    }
  }

  /** An occurrence in a prefix is an occurrence in the whole string. */
  lemma ContainsInPrefix(s: string, t: string, k: nat)
    requires k <= |s|
    ensures Contains(s[..k], t) ==> Contains(s, t)
  {
    if Contains(s[..k], t) {
      var i :| 0 <= i <= |s[..k]| - |t| && OccursAt(s[..k], t, i);
      assert s[i..i + |t|] == t;
      assert OccursAt(s, t, i);
    }
  }

  /** `s.find(c)` for a one-character needle: the first index of `c`, or -1. */
  function Find(s: string, c: char): (r: int)
    ensures -1 <= r < |s|
    ensures r == -1 <==> c !in s
    ensures r >= 0 ==> s[r] == c && forall j :: 0 <= j < r ==> s[j] != c
  {
    if s == [] then -1
    else if s[0] == c then 0
    else
      var k := Find(s[1..], c);
      if k == -1 then -1 else k + 1
  }

  /** `s.rfind(c)` for a one-character needle: the last index of `c`, or -1. */
  function RFind(s: string, c: char): (r: int)
    ensures -1 <= r < |s|
    ensures r == -1 <==> c !in s
    ensures r >= 0 ==> s[r] == c && forall j :: r < j < |s| ==> s[j] != c
  {
    if s == [] then -1
    else if s[|s| - 1] == c then |s| - 1
    else RFind(s[..|s| - 1], c)
  }

  /** `s.rpartition(c)` without the separator: the text before and after the last `c`;
      `("", s)` when `c` does not occur. */
  function RPartition(s: string, c: char): (r: (string, string))
    ensures c in s ==> s == r.0 + [c] + r.1 && c !in r.1
    ensures c !in s ==> r.0 == [] && r.1 == s
  {
    var k := RFind(s, c);
    if k == -1 then ([], s)
    else
      assert s == s[..k] + [c] + s[k + 1..];
      (s[..k], s[k + 1..])
  }

  /** `s.replace(pat, rep)` for a non-empty pattern: every leftmost, non-overlapping
      occurrence of `pat` is replaced by `rep`. */
  function ReplaceAll(s: string, pat: string, rep: string): (r: string)
    requires pat != []
    ensures !Contains(s, pat) ==> r == s
    decreases |s|
  {
    if |s| < |pat| then s
    else if s[..|pat|] == pat then
      ContainsAt(s, pat, 0);
      rep + ReplaceAll(s[|pat|..], pat, rep)
    else
      ContainsInSuffix(s, pat, 1);
      [s[0]] + ReplaceAll(s[1..], pat, rep)
  }

  /** Every occurrence of the character `c` replaced by `rep`: the meaning of
      `str.replace` with a one-character pattern. */
  function SubstChar(s: string, c: char, rep: string): (r: string)
  {
    if s == [] then []
    else (if s[0] == c then rep else [s[0]]) + SubstChar(s[1..], c, rep)
  }

  lemma {:induction false} ReplaceAllSingleChar(s: string, c: char, rep: string)
    ensures ReplaceAll(s, [c], rep) == SubstChar(s, c, rep)
    decreases |s|
  {
    if s != [] {
      ReplaceAllSingleChar(s[1..], c, rep);
    }
  }

  /** Replacing one character by one character keeps the length and changes exactly the
      positions that held it. */
  lemma {:induction false} SubstCharPointwise(s: string, c: char, d: char)
    ensures |SubstChar(s, c, [d])| == |s|
    ensures forall i :: 0 <= i < |s| ==> SubstChar(s, c, [d])[i] == if s[i] == c then d else s[i]
  {
    if s != [] {
      SubstCharPointwise(s[1..], c, d);
    }
  }

  /** Python's `str.lower()` on ASCII letters; other characters are kept. */
  function Lower(s: string): (r: string)
    ensures |r| == |s|
  {
    seq(|s|, i requires 0 <= i < |s| => if 'A' <= s[i] <= 'Z' then (s[i] as int + 32) as char else s[i])
  }

  /** POSIX `os.path.join(a, b)` for two components: an absolute `b` replaces `a`, and a
      separator is inserted unless `a` is empty or already ends with one. */
  function JoinPath(a: string, b: string): (r: string)
    ensures EndsWith(r, b)
  {
    if StartsWith(b, "/") || a == [] then b
    else if a[|a| - 1] == '/' then a + b
    else a + "/" + b
  }

  /** A keyword compared against the left-stripped first characters of a line matches
      exactly when the line starts with the keyword in column 0. */
  lemma KeywordAtColumnZero(line: string, k: string)
    requires k != [] && !IsSpace(k[0])
    ensures LStrip(Take(line, |k|)) == k <==> StartsWith(line, k)
  {
    var t := Take(line, |k|);
    if StartsWith(line, k) {
      assert t == k;
    }
    if LStrip(t) == k {
      LStripSuffix(t);
      assert t == k;
    }
  }

  /** Appending text without `c` does not move the last `c`. */
  lemma {:induction false} RFindAppend(a: string, b: string, c: char)
    requires c !in b
    ensures RFind(a + b, c) == RFind(a, c)
    decreases |b|
  {
    if b == [] {
      assert a + b == a;
    } else {
      var ab := a + b;
      assert ab[|ab| - 1] == b[|b| - 1] != c;
      assert ab[..|ab| - 1] == a + b[..|b| - 1];
      assert c !in b[..|b| - 1] by {
        assert forall x :: x in b[..|b| - 1] ==> x in b;
      }
      assert RFind(ab, c) == RFind(ab[..|ab| - 1], c);
      RFindAppend(a, b[..|b| - 1], c);
    }
  }

  /** Appending text without `c` extends the part after the last `c`. */
  lemma RPartitionAppend(a: string, b: string, c: char)
    requires c !in b
    ensures RPartition(a + b, c) == (RPartition(a, c).0, RPartition(a, c).1 + b)
  {
    RFindAppend(a, b, c);
    if RFind(a, c) == -1 {
      RPartitionNone(a, b, c);
    } else {
      RPartitionSome(a, b, c);
    }
  }

  lemma RPartitionNone(a: string, b: string, c: char)
    requires RFind(a, c) == -1 && RFind(a + b, c) == -1
    ensures RPartition(a + b, c) == ([], a + b) && RPartition(a, c) == ([], a)
  {
  }

  lemma RPartitionSome(a: string, b: string, c: char)
    requires RFind(a, c) != -1 && RFind(a + b, c) == RFind(a, c)
    ensures RPartition(a + b, c) == (RPartition(a, c).0, RPartition(a, c).1 + b)
  {
    var k := RFind(a, c);
    var ab := a + b;
    assert ab[..k] == a[..k];
    assert ab[k + 1..] == a[k + 1..] + b;
  }

  /** The text after the last `c` of `a + [c] + b` is `b`, when `b` holds no `c`. */
  lemma RPartitionAt(a: string, b: string, c: char)
    requires c !in b
    ensures RPartition(a + [c] + b, c) == (a, b)
  {
    RPartitionAppend(a + [c], b, c);
    var ac := a + [c];
    assert ac[..|ac| - 1] == a;
  }
}

=== FILE: sanitize.dfy ===
/** `cleanup_string` and the pure part of `cleanup_track_filenames`: accents are stripped
    (an opaque step here), every character of a fixed denylist becomes an underscore, and
    a pre-gap track left by the cutting tool is dropped. */
module Sanitize {
  import opened PyStr

  /** The characters `cleanup_string` turns into `_`: space, `? ¿ : ° @ & % $ # | ¡ > < ~`,
      backquote, double quote, `/ ´ ¨ \ *`. */
  predicate Denied(c: char) {
    || c == ' ' || c == '?' || c == '¿' || c == ':' || c == '°' || c == '@'
    || c == '&' || c == '%' || c == '$' || c == '#' || c == '|' || c == '¡'
    || c == '>' || c == '<' || c == '~' || c == '`' || c == '"' || c == '/'
    || c == '´' || c == '¨' || c == '\\' || c == '*'
  }

  /** One character after the denylist step. */
  function SafeChar(c: char): char {
    if Denied(c) then '_' else c
  }

  /** The denylist step on a whole string, character by character. */
  function Underscored(s: string): (r: string)
    ensures |r| == |s|
    decreases |s|
  {
    if s == [] then [] else [SafeChar(s[0])] + Underscored(s[1..])
  }

  /** `cleanup_string`: the accent-stripping step `stripMarks` (NFD decomposition with the
      combining marks dropped), then the denylist step. */
  function CleanupString(stripMarks: string -> string, s: string): string {
    Underscored(stripMarks(s))
  }

  /** The source's loop: for each position of the string (whose length never changes),
      if the character there is denied, every occurrence of it is replaced by `_`. */
  method CleanupLoop(stripMarks: string -> string, s: string) returns (r: string)
    ensures r == CleanupString(stripMarks, s)
  {
    r := stripMarks(s);
    ghost var orig := r;
    var position := 0;
    while position < |r|
      invariant Swept(orig, r, position)
    {
      var c := r[position];
      if Denied(c) {
        SweepDenied(orig, r, position);
        r := SubstChar(r, c, "_");
      } else {
        SweepKept(orig, r, position);
      }
      position := position + 1;
    }
    SweepDone(orig, r);
  }

  /** After the loop has passed `position`: the length is kept, and a character has
      become `_` exactly when it is denied and occurs before `position`. */
  ghost predicate Swept(orig: string, r: string, position: nat) {
    && |r| == |orig| && position <= |r|
    && forall k :: 0 <= k < |r| ==>
      r[k] == if Denied(orig[k]) && orig[k] in orig[..position] then '_' else orig[k]
  }

  /** A denied character not seen before: all its occurrences become `_`. */
  lemma SweepDenied(orig: string, r: string, position: nat)
    requires Swept(orig, r, position) && position < |r| && Denied(r[position])
    ensures Swept(orig, SubstChar(r, r[position], "_"), position + 1)
  {
    var c := r[position];
    assert c == orig[position] && c !in orig[..position];
    SubstCharPointwise(r, c, '_');
    assert orig[..position + 1] == orig[..position] + [c];
  }

  /** A kept character, or one replaced earlier: nothing changes. */
  lemma SweepKept(orig: string, r: string, position: nat)
    requires Swept(orig, r, position) && position < |r| && !Denied(r[position])
    ensures Swept(orig, r, position + 1)
  {
    assert orig[..position + 1] == orig[..position] + [orig[position]];
  }

  /** Once every position is passed, the string is the denylist step's result. */
  lemma SweepDone(orig: string, r: string)
    requires Swept(orig, r, |orig|)
    ensures r == Underscored(orig)
  {
    assert orig[..|orig|] == orig;
    UnderscoredPointwise(orig);
  }

  /** The denylist step changes exactly the denied characters, each into `_`. */
  lemma {:induction false} UnderscoredPointwise(s: string)
    ensures forall k :: 0 <= k < |s| ==> Underscored(s)[k] == SafeChar(s[k])
    decreases |s|
  {
    if s != [] {
      UnderscoredPointwise(s[1..]);
      assert forall k :: 1 <= k < |s| ==> Underscored(s)[k] == Underscored(s[1..])[k - 1];
    }
  }

  /** After the denylist step no denied character is left, and every other character is
      where it was. */
  lemma UnderscoredClean(s: string)
    ensures forall k :: 0 <= k < |s| ==> !Denied(Underscored(s)[k])
    ensures forall k :: 0 <= k < |s| && !Denied(s[k]) ==> Underscored(s)[k] == s[k]
    ensures forall k :: 0 <= k < |s| && Denied(s[k]) ==> Underscored(s)[k] == '_'
  {
    UnderscoredPointwise(s);
  }

  /** Sanitising a sanitised string changes nothing. */
  lemma UnderscoredIdempotent(s: string)
    ensures Underscored(Underscored(s)) == Underscored(s)
  {
    var u := Underscored(s);
    UnderscoredPointwise(s);
    UnderscoredPointwise(u);
  }

  // ---------------------------------------------------------------------------------
  // Track file names after the split

  /** A pre-gap track written by the cutting tool. */
  predicate IsPregap(name: string) {
    Contains(name, "pregap.")
  }

  /** `cleanup_track_filenames` on the listed names: each is renamed to its cleaned form,
      and cleaned names containing `pregap.` are removed. The result is the cleaned names
      that are kept, in listing order, duplicates kept: two names that clean alike leave
      one file in the folder but appear twice here. */
  function KeptNames(stripMarks: string -> string, names: seq<string>): (r: seq<string>)
    ensures |r| <= |names|
    decreases |names|
  {
    if names == [] then []
    else
      var n := CleanupString(stripMarks, names[0]);
      (if IsPregap(n) then [] else [n]) + KeptNames(stripMarks, names[1..])
  }

  /** A name is kept exactly when it is the cleaned form of a listed name and is not a
      pre-gap file. */
  lemma {:induction false} KeptNamesMembers(stripMarks: string -> string, names: seq<string>, x: string)
    ensures x in KeptNames(stripMarks, names) <==>
      !IsPregap(x) && exists i :: 0 <= i < |names| && CleanupString(stripMarks, names[i]) == x
    decreases |names|
  {
    if names != [] {
      KeptNamesMembers(stripMarks, names[1..], x);
      if exists i :: 0 <= i < |names| && CleanupString(stripMarks, names[i]) == x {
        var i :| 0 <= i < |names| && CleanupString(stripMarks, names[i]) == x;
        if i > 0 {
          assert names[1..][i - 1] == names[i];
        }
      }
      if exists i :: 0 <= i < |names[1..]| && CleanupString(stripMarks, names[1..][i]) == x {
        var i :| 0 <= i < |names[1..]| && CleanupString(stripMarks, names[1..][i]) == x;
        assert names[i + 1] == names[1..][i];
      }
    }
  }
}

=== FILE: schedule.dfy ===
/** The split scheduler of `file_split_ffmpeg`: the commands are started lazily in list
    order, at most `concurrency_limit` at a time; a polling loop looks for a finished
    process, records a non-zero exit code as a failed split, and puts the next command
    in the finished process's slot, or drops the slot when no command is left.

    Processes are not modelled. Which running process is seen to finish next, and its exit
    code, come from two oracles indexed by the number of completions so far: any slot can
    be the next one the polling loop sees finish, so every run in which the processes end
    is one of these runs. */
module Schedule {

  /** What the trace records: a command started, or a command's process returned. */
  datatype Event = Launch(job: nat) | Exit(job: nat, code: int)

  /** The commands started, in order. */
  function Launches(t: seq<Event>): (r: seq<nat>)
    ensures |r| <= |t|
  {
    if t == [] then []
    else Launches(t[..|t| - 1]) + (if t[|t| - 1].Launch? then [t[|t| - 1].job] else [])
  }

  /** The commands whose process returned, in order. */
  function Exits(t: seq<Event>): (r: seq<nat>)
    ensures |r| <= |t|
  {
    if t == [] then []
    else Exits(t[..|t| - 1]) + (if t[|t| - 1].Exit? then [t[|t| - 1].job] else [])
  }

  /** The command indices `0 .. k - 1` in order. */
  function Range(k: nat): (r: seq<nat>)
    ensures |r| == k && forall i :: 0 <= i < k ==> r[i] == i
  {
    seq(k, i => i)
  }

  /** At no point of the trace are more than `limit` processes running. */
  predicate Bounded(t: seq<Event>, limit: nat) {
    forall q :: 0 <= q <= |t| ==> |Launches(t[..q])| <= |Exits(t[..q])| + limit
  }

  /** Every process that returned had been started earlier in the trace. */
  predicate ExitsAfterLaunch(t: seq<Event>) {
    forall q :: 0 <= q < |t| && t[q].Exit? ==> t[q].job in Launches(t[..q])
  }

  /** After the first `initial` events, a command starts only right after a process
      returned: a slot is refilled only once its process has an exit code. */
  predicate RefillAfterExit(t: seq<Event>, initial: nat) {
    forall q :: initial <= q < |t| && t[q].Launch? ==> q > 0 && t[q - 1].Exit?
  }

  /** The scheduler on `n` commands with at most `limit` running. The `step`-th process
      seen to finish is the one in slot `pick(step) % |running|`, and it returns
      `exitCode(step)`. The result is the trace and `splittingSucceeded`. The loop ends
      only once every command has been started and no process is running. */
  method Run(n: nat, limit: nat, pick: nat -> nat, exitCode: nat -> int)
    returns (trace: seq<Event>, succeeded: bool)
    requires limit >= 1
    ensures Launches(trace) == Range(n)
    ensures multiset(Exits(trace)) == multiset(Range(n))
    ensures Bounded(trace, limit)
    ensures ExitsAfterLaunch(trace)
    ensures RefillAfterExit(trace, if n < limit then n else limit)
    ensures succeeded <==> forall s :: 0 <= s < n ==> exitCode(s) == 0
  {
    succeeded := true;
    var running, cursor;
    trace, running, cursor := Start(n, limit);
    ghost var initial := cursor;
    var step := 0;
    InitialState(n, limit, exitCode, cursor);
    while running != []
      invariant State(n, limit, initial, exitCode, trace, running, cursor, step, succeeded)
      decreases n - cursor + |running|
    {
      trace, running, cursor, succeeded :=
        Poll(n, limit, initial, pick, exitCode, trace, running, cursor, step, succeeded);
      step := step + 1;
    }
    Finish(n, limit, initial, exitCode, trace, cursor, step, succeeded);
  }

  /** The `islice` that starts the first commands, up to the limit: the first
      `min(n, limit)` commands are launched in order and all are running. */
  method Start(n: nat, limit: nat) returns (trace: seq<Event>, running: seq<nat>, cursor: nat)
    requires limit >= 1
    ensures cursor <= n && cursor <= limit && (cursor < n ==> cursor == limit)
    ensures trace == LaunchAll(cursor) && running == Range(cursor)
  {
    trace := [];
    cursor := 0;
    running := [];
    while cursor < n && |running| < limit
      invariant cursor <= n && running == Range(cursor) && |running| <= limit
      invariant trace == LaunchAll(cursor)
    {
      trace := trace + [Launch(cursor)];
      running := running + [cursor];
      cursor := cursor + 1;
    }
  }

  /** One round of the polling loop: the process in the slot `pick` chooses returns with
      the next exit code; its slot gets the next command, or is deleted when none is
      left. */
  method Poll(n: nat, limit: nat, ghost initial: nat, pick: nat -> nat, exitCode: nat -> int,
    trace: seq<Event>, running: seq<nat>, cursor: nat, step: nat, succeeded: bool)
    returns (trace': seq<Event>, running': seq<nat>, cursor': nat, succeeded': bool)
    requires running != [] && State(n, limit, initial, exitCode, trace, running, cursor, step, succeeded)
    ensures State(n, limit, initial, exitCode, trace', running', cursor', step + 1, succeeded')
    ensures n - cursor' + |running'| < n - cursor + |running|
  {
    var slot := pick(step) % |running|;
    var job := running[slot];
    var code := exitCode(step);
    trace' := trace + [Exit(job, code)];
    succeeded' := succeeded && code == 0;
    if cursor < n {
      trace' := trace' + [Launch(cursor)];
      running' := running[slot := cursor];
      cursor' := cursor + 1;
    } else {
      running' := running[..slot] + running[slot + 1..];
      cursor' := cursor;
    }
    Step(n, limit, initial, exitCode, trace, running, cursor, step, succeeded, slot,
      trace', running', cursor', succeeded');
  }

  /** When no process is left running, every command has started and returned. */
  lemma Finish(n: nat, limit: nat, initial: nat, exitCode: nat -> int,
    trace: seq<Event>, cursor: nat, step: nat, succeeded: bool)
    requires limit >= 1 && State(n, limit, initial, exitCode, trace, [], cursor, step, succeeded)
    ensures Launches(trace) == Range(n)
    ensures multiset(Exits(trace)) == multiset(Range(n))
    ensures Bounded(trace, limit) && ExitsAfterLaunch(trace)
    ensures RefillAfterExit(trace, if n < limit then n else limit)
    ensures succeeded <==> forall s :: 0 <= s < n ==> exitCode(s) == 0
  {
    assert cursor == n;
    assert multiset(Exits(trace)) == multiset(Range(n));
    assert |Exits(trace)| == |multiset(Exits(trace))| == |multiset(Range(n))| == |Range(n)|;
  }

  /** What holds between two rounds of the polling loop: commands `0 .. cursor - 1` have
      started, each either returned or running; slots are full while commands remain;
      and `succeeded` says whether every exit code so far was zero. */
  ghost predicate State(n: nat, limit: nat, initial: nat, exitCode: nat -> int,
    trace: seq<Event>, running: seq<nat>, cursor: nat, step: nat, succeeded: bool)
  {
    && cursor <= n && |running| <= limit && (cursor < n ==> |running| == limit)
    && initial == (if n < limit then n else limit) && initial <= |trace|
    && Launches(trace) == Range(cursor)
    && multiset(Exits(trace)) + multiset(running) == multiset(Range(cursor))
    && step == |Exits(trace)|
    && Bounded(trace, limit) && ExitsAfterLaunch(trace) && RefillAfterExit(trace, initial)
    && (succeeded <==> forall s :: 0 <= s < step ==> exitCode(s) == 0)
  }

  /** The trace of the first loop: `Launch(0)`, ..., `Launch(k - 1)`. */
  function LaunchAll(k: nat): (t: seq<Event>)
    ensures |t| == k && forall q :: 0 <= q < k ==> t[q] == Launch(q)
  {
    seq(k, q requires 0 <= q < k => Launch(q))
  }

  // ---------------------------------------------------------------------------------
  // One event appended

  lemma LaunchesAppend(t: seq<Event>, e: Event)
    ensures Launches(t + [e]) == Launches(t) + (if e.Launch? then [e.job] else [])
    ensures Exits(t + [e]) == Exits(t) + (if e.Exit? then [e.job] else [])
  {
    assert (t + [e])[..|t|] == t;
  }

  lemma PrefixOfAppend(t: seq<Event>, e: Event, q: nat)
    requires q <= |t|
    ensures (t + [e])[..q] == t[..q]
  {
  }

  /** Starting a command keeps the running count within the limit when there was room,
      and keeps every earlier exit after its launch. */
  lemma AppendLaunch(t: seq<Event>, job: nat, limit: nat)
    requires Bounded(t, limit) && ExitsAfterLaunch(t)
    requires |Launches(t)| < |Exits(t)| + limit
    ensures Bounded(t + [Launch(job)], limit) && ExitsAfterLaunch(t + [Launch(job)])
  {
    var t' := t + [Launch(job)];
    LaunchesAppend(t, Launch(job));
    forall q | 0 <= q <= |t'| ensures |Launches(t'[..q])| <= |Exits(t'[..q])| + limit {
      if q <= |t| {
        PrefixOfAppend(t, Launch(job), q);
      } else {
        assert t'[..q] == t';
      }
    }
    forall q | 0 <= q < |t'| && t'[q].Exit? ensures t'[q].job in Launches(t'[..q]) {
      PrefixOfAppend(t, Launch(job), q);
    }
  }

  /** A process returning never raises the running count, and it had been started. */
  lemma AppendExit(t: seq<Event>, job: nat, code: int, limit: nat)
    requires Bounded(t, limit) && ExitsAfterLaunch(t) && job in Launches(t)
    ensures Bounded(t + [Exit(job, code)], limit) && ExitsAfterLaunch(t + [Exit(job, code)])
    ensures |Launches(t + [Exit(job, code)])| == |Launches(t)|
    ensures |Exits(t + [Exit(job, code)])| == |Exits(t)| + 1
  {
    var e := Exit(job, code);
    var t' := t + [e];
    LaunchesAppend(t, e);
    assert t[..|t|] == t;
    forall q | 0 <= q <= |t'| ensures |Launches(t'[..q])| <= |Exits(t'[..q])| + limit {
      if q <= |t| {
        PrefixOfAppend(t, e, q);
      } else {
        assert t'[..q] == t';
      }
    }
    forall q | 0 <= q < |t'| && t'[q].Exit? ensures t'[q].job in Launches(t'[..q]) {
      PrefixOfAppend(t, e, q);
    }
  }

  /** A running command is one of the started ones. */
  lemma RunningLaunched(t: seq<Event>, running: seq<nat>, cursor: nat, slot: nat)
    requires slot < |running| && Launches(t) == Range(cursor)
    requires multiset(Exits(t)) + multiset(running) == multiset(Range(cursor))
    ensures running[slot] in Launches(t)
  {
    assert running[slot] in multiset(running);
    assert running[slot] in multiset(Range(cursor));
    assert running[slot] in Range(cursor);
  }

  /** Putting the next command in a slot. */
  lemma RefillMultiset(running: seq<nat>, slot: nat, next: nat)
    requires slot < |running|
    ensures multiset(running[slot := next]) == multiset(running) - multiset{running[slot]} + multiset{next}
  {
    var a, b := running[..slot], running[slot + 1..];
    assert running == a + [running[slot]] + b;
    assert running[slot := next] == a + [next] + b;
  }

  /** Dropping a slot. */
  lemma DropMultiset(running: seq<nat>, slot: nat)
    requires slot < |running|
    ensures multiset(running[..slot] + running[slot + 1..]) == multiset(running) - multiset{running[slot]}
  {
    assert running == running[..slot] + [running[slot]] + running[slot + 1..];
  }

  // ---------------------------------------------------------------------------------
  // The loop state

  /** After the first loop: `min(n, limit)` commands started, none returned. */
  lemma InitialState(n: nat, limit: nat, exitCode: nat -> int, cursor: nat)
    requires limit >= 1 && cursor <= n && cursor <= limit && (cursor < n ==> cursor == limit)
    ensures State(n, limit, cursor, exitCode, LaunchAll(cursor), Range(cursor), cursor, 0, true)
  {
    var t := LaunchAll(cursor);
    LaunchAllCounts(cursor);
    assert multiset(Exits(t)) + multiset(Range(cursor)) == multiset(Range(cursor));
    forall q | 0 <= q <= |t| ensures |Launches(t[..q])| <= |Exits(t[..q])| + limit {
      assert t[..q] == LaunchAll(q);
      LaunchAllCounts(q);
    }
  }

  lemma {:induction false} LaunchAllCounts(k: nat)
    ensures Launches(LaunchAll(k)) == Range(k) && Exits(LaunchAll(k)) == []
  {
    if k > 0 {
      LaunchAllCounts(k - 1);
      assert LaunchAll(k)[..k - 1] == LaunchAll(k - 1);
      RangeAppend(k - 1);
    }
  }

  lemma RangeAppend(k: nat)
    ensures Range(k + 1) == Range(k) + [k]
  {
  }

  /** A returned process whose slot gets the next command. */
  lemma RefillStep(n: nat, limit: nat, initial: nat, exitCode: nat -> int,
    trace: seq<Event>, running: seq<nat>, cursor: nat, step: nat, succeeded: bool, slot: nat)
    requires State(n, limit, initial, exitCode, trace, running, cursor, step, succeeded)
    requires slot < |running| && cursor < n
    ensures var t := trace + [Exit(running[slot], exitCode(step))] + [Launch(cursor)];
      State(n, limit, initial, exitCode, t, running[slot := cursor], cursor + 1, step + 1,
        succeeded && exitCode(step) == 0)
  {
    RefillCounts(trace, running, cursor, slot, exitCode(step));
    RefillOrder(limit, initial, trace, running, cursor, slot, exitCode(step));
    SucceededStep(exitCode, step, succeeded);
  }

  /** A returned process whose slot is dropped, no command being left. */
  lemma DropStep(n: nat, limit: nat, initial: nat, exitCode: nat -> int,
    trace: seq<Event>, running: seq<nat>, cursor: nat, step: nat, succeeded: bool, slot: nat)
    requires State(n, limit, initial, exitCode, trace, running, cursor, step, succeeded)
    requires slot < |running| && cursor == n
    ensures var t := trace + [Exit(running[slot], exitCode(step))];
      State(n, limit, initial, exitCode, t, running[..slot] + running[slot + 1..], cursor, step + 1,
        succeeded && exitCode(step) == 0)
  {
    DropCounts(trace, running, cursor, slot, exitCode(step));
    DropOrder(limit, initial, trace, running, cursor, slot, exitCode(step));
    SucceededStep(exitCode, step, succeeded);
  }

  /** Refilling a slot: one more command started and one more returned. */
  lemma RefillCounts(trace: seq<Event>, running: seq<nat>, cursor: nat, slot: nat, code: int)
    requires slot < |running| && Launches(trace) == Range(cursor)
    requires multiset(Exits(trace)) + multiset(running) == multiset(Range(cursor))
    ensures var t := trace + [Exit(running[slot], code)] + [Launch(cursor)];
      && Launches(t) == Range(cursor + 1)
      && multiset(Exits(t)) + multiset(running[slot := cursor]) == multiset(Range(cursor + 1))
      && |Exits(t)| == |Exits(trace)| + 1
  {
    var x := running[slot];
    var e := Exit(x, code);
    var t1 := trace + [e];
    var t := t1 + [Launch(cursor)];
    assert Launches(t) == Launches(trace) + [cursor] && Exits(t) == Exits(trace) + [x] by {
      LaunchesAppend(trace, e);
      LaunchesAppend(t1, Launch(cursor));
    }
    RangeAppend(cursor);
    SwapMultiset(Exits(trace), running, Range(cursor), slot, cursor);
  }

  /** Moving a running command to the returned ones and starting the next keeps the
      books balanced. */
  lemma SwapMultiset(exits: seq<nat>, running: seq<nat>, launched: seq<nat>, slot: nat, next: nat)
    requires slot < |running| && multiset(exits) + multiset(running) == multiset(launched)
    ensures multiset(exits + [running[slot]]) + multiset(running[slot := next]) == multiset(launched + [next])
  {
    RefillMultiset(running, slot, next);
  }

  /** Refilling a slot keeps the trace well ordered and within the limit. */
  lemma RefillOrder(limit: nat, initial: nat, trace: seq<Event>, running: seq<nat>, cursor: nat, slot: nat, code: int)
    requires slot < |running| && |running| <= limit && Launches(trace) == Range(cursor)
    requires multiset(Exits(trace)) + multiset(running) == multiset(Range(cursor))
    requires Bounded(trace, limit) && ExitsAfterLaunch(trace) && RefillAfterExit(trace, initial) && initial <= |trace|
    ensures var t := trace + [Exit(running[slot], code)] + [Launch(cursor)];
      Bounded(t, limit) && ExitsAfterLaunch(t) && RefillAfterExit(t, initial)
  {
    var e := Exit(running[slot], code);
    var t1 := trace + [e];
    RunningLaunched(trace, running, cursor, slot);
    AppendExit(trace, running[slot], code, limit);
    InFlight(trace, running, cursor);
    AppendLaunch(t1, cursor, limit);
    RefillAppend(trace, e, Launch(cursor), initial);
  }

  /** Dropping a slot: one more command returned. */
  lemma DropCounts(trace: seq<Event>, running: seq<nat>, cursor: nat, slot: nat, code: int)
    requires slot < |running| && Launches(trace) == Range(cursor)
    requires multiset(Exits(trace)) + multiset(running) == multiset(Range(cursor))
    ensures var t := trace + [Exit(running[slot], code)];
      && Launches(t) == Range(cursor)
      && multiset(Exits(t)) + multiset(running[..slot] + running[slot + 1..]) == multiset(Range(cursor))
      && |Exits(t)| == |Exits(trace)| + 1
  {
    LaunchesAppend(trace, Exit(running[slot], code));
    MoveMultiset(Exits(trace), running, Range(cursor), slot);
  }

  /** Moving a running command to the returned ones keeps the books balanced. */
  lemma MoveMultiset(exits: seq<nat>, running: seq<nat>, launched: seq<nat>, slot: nat)
    requires slot < |running| && multiset(exits) + multiset(running) == multiset(launched)
    ensures multiset(exits + [running[slot]]) + multiset(running[..slot] + running[slot + 1..]) == multiset(launched)
  {
    DropMultiset(running, slot);
  }

  /** Dropping a slot keeps the trace well ordered and within the limit. */
  lemma DropOrder(limit: nat, initial: nat, trace: seq<Event>, running: seq<nat>, cursor: nat, slot: nat, code: int)
    requires slot < |running| && Launches(trace) == Range(cursor)
    requires multiset(Exits(trace)) + multiset(running) == multiset(Range(cursor))
    requires Bounded(trace, limit) && ExitsAfterLaunch(trace) && RefillAfterExit(trace, initial) && initial <= |trace|
    ensures var t := trace + [Exit(running[slot], code)];
      Bounded(t, limit) && ExitsAfterLaunch(t) && RefillAfterExit(t, initial)
  {
    RunningLaunched(trace, running, cursor, slot);
    AppendExit(trace, running[slot], code, limit);
    ExitAppend(trace, Exit(running[slot], code), initial);
  }

  /** One round of the polling loop keeps the loop state. */
  lemma Step(n: nat, limit: nat, initial: nat, exitCode: nat -> int,
    trace: seq<Event>, running: seq<nat>, cursor: nat, step: nat, succeeded: bool, slot: nat,
    trace': seq<Event>, running': seq<nat>, cursor': nat, succeeded': bool)
    requires State(n, limit, initial, exitCode, trace, running, cursor, step, succeeded)
    requires slot < |running|
    requires cursor < n ==> && trace' == trace + [Exit(running[slot], exitCode(step))] + [Launch(cursor)]
                            && running' == running[slot := cursor] && cursor' == cursor + 1
    requires cursor == n ==> && trace' == trace + [Exit(running[slot], exitCode(step))]
                             && running' == running[..slot] + running[slot + 1..] && cursor' == cursor
    requires succeeded' <==> succeeded && exitCode(step) == 0
    ensures State(n, limit, initial, exitCode, trace', running', cursor', step + 1, succeeded')
  {
    if cursor < n {
      RefillStep(n, limit, initial, exitCode, trace, running, cursor, step, succeeded, slot);
    } else {
      DropStep(n, limit, initial, exitCode, trace, running, cursor, step, succeeded, slot);
    }
  }

  /** The processes running are the commands started and not returned. */
  lemma InFlight(t: seq<Event>, running: seq<nat>, cursor: nat)
    requires Launches(t) == Range(cursor)
    requires multiset(Exits(t)) + multiset(running) == multiset(Range(cursor))
    ensures |Launches(t)| == |Exits(t)| + |running|
  {
    assert |multiset(Exits(t)) + multiset(running)| == |multiset(Range(cursor))|;
  }

  lemma RefillAppend(t: seq<Event>, e: Event, l: Event, initial: nat)
    requires RefillAfterExit(t, initial) && initial <= |t| && e.Exit?
    ensures RefillAfterExit(t + [e] + [l], initial)
  {
    var t' := t + [e] + [l];
    forall q | initial <= q < |t'| && t'[q].Launch? ensures q > 0 && t'[q - 1].Exit? {
      if q < |t| {
        assert t'[q] == t[q] && t'[q - 1] == t[q - 1];
      }
    }
  }

  lemma ExitAppend(t: seq<Event>, e: Event, initial: nat)
    requires RefillAfterExit(t, initial) && initial <= |t| && e.Exit?
    ensures RefillAfterExit(t + [e], initial)
  {
    var t' := t + [e];
    forall q | initial <= q < |t'| && t'[q].Launch? ensures q > 0 && t'[q - 1].Exit? {
      assert t'[q] == t[q] && t'[q - 1] == t[q - 1];
    }
  }

  lemma SucceededStep(exitCode: nat -> int, step: nat, succeeded: bool)
    requires succeeded <==> forall s :: 0 <= s < step ==> exitCode(s) == 0
    ensures succeeded && exitCode(step) == 0 <==> forall s :: 0 <= s < step + 1 ==> exitCode(s) == 0
  {
  }
}

=== FILE: tags.dfy ===
/** `transfer_tags`: the split track files, listed in sorted order, receive the tags of
    the songs in parse order: the first file the first song's title and performer, and so
    on. The tag writer is not modelled: each file's tags are a map from tag name to text,
    and whether saving file `k` succeeds is a parameter. */
module Tags {
  import opened Outcomes
  import opened PyStr
  import opened PyNum
  import opened Cuesheet
  import opened Commands
  import opened CuesheetProps

  /** The track files' extension pattern for the codec. */
  function Wildcard(codec: Codec): string {
    match codec
    case OGG => "*.ogg"
    case MP3 => "*.mp3"
    case FLAC => "*.flac"
  }

  /** The tag that carries the album performer: `composer` in the ID3 writer used for
      MP3, `performer` in the Vorbis-comment writers. */
  function AlbumPerformerKey(codec: Codec): string {
    if codec == MP3 then "composer" else "performer"
  }

  /** The tags written into the `k`-th file: the `k`-th song's title and performer, the
      album fields of the sheet, and the position counted from 1 as track number. */
  function FileTags(codec: Codec, sheet: Sheet, k: nat): (r: map<string, string>)
    requires k < |sheet.songs|
    ensures r.Keys == {"title", "artist", AlbumPerformerKey(codec), "album", "genre", "date", "tracknumber"}
  {
    map[
      "title" := sheet.songs[k].title,
      "artist" := sheet.songs[k].performer,
      AlbumPerformerKey(codec) := sheet.performer,
      "album" := sheet.title,
      "genre" := sheet.genre,
      "date" := sheet.dateYear,
      "tracknumber" := NatToString(k + 1)]
  }

  /** The tagging loop over the sorted file list. A file beyond the last song indexes the
      song list out of range and raises; a failed save only sets the error flag. */
  method TransferTags(codec: Codec, sheet: Sheet, files: seq<string>, saveOk: nat -> bool)
    returns (r: Outcome<seq<map<string, string>>>, taggingError: bool)
    ensures r.Raised? <==> |files| > |sheet.songs|
    ensures r.Value? ==> |r.value| == |files|
    ensures r.Value? ==> forall k :: 0 <= k < |files| ==> r.value[k] == FileTags(codec, sheet, k)
    ensures r.Value? ==> (taggingError <==> exists k :: 0 <= k < |files| && !saveOk(k))
  {
    taggingError := false;
    var written: seq<map<string, string>> := [];
    var currentSong := 0;
    while currentSong < |files|
      invariant currentSong <= |files| && currentSong <= |sheet.songs|
      invariant Progress(codec, sheet, saveOk, written, taggingError, currentSong)
    {
      if currentSong >= |sheet.songs| {
        return Raised, taggingError;
      }
      ghost var written0, taggingError0 := written, taggingError;
      written := written + [FileTags(codec, sheet, currentSong)];
      if !saveOk(currentSong) {
        taggingError := true;
      }
      TagStep(codec, sheet, saveOk, written0, taggingError0, currentSong, written, taggingError);
      currentSong := currentSong + 1;
    }
    r := Value(written);
  }

  /** After the first `n` files: each has its song's tags, and the error flag says whether
      one of their saves failed. */
  ghost predicate Progress(codec: Codec, sheet: Sheet, saveOk: nat -> bool,
    written: seq<map<string, string>>, taggingError: bool, n: nat)
  {
    && n <= |sheet.songs| && |written| == n
    && (forall k :: 0 <= k < n ==> written[k] == FileTags(codec, sheet, k))
    && (taggingError <==> exists k :: 0 <= k < n && !saveOk(k))
  }

  lemma TagStep(codec: Codec, sheet: Sheet, saveOk: nat -> bool,
    written: seq<map<string, string>>, taggingError: bool, n: nat,
    written': seq<map<string, string>>, taggingError': bool)
    requires n < |sheet.songs| && Progress(codec, sheet, saveOk, written, taggingError, n)
    requires written' == written + [FileTags(codec, sheet, n)]
    requires taggingError' <==> taggingError || !saveOk(n)
    ensures Progress(codec, sheet, saveOk, written', taggingError', n + 1)
  {
    TagStepWritten(codec, sheet, written, n, written');
    TagStepError(saveOk, taggingError, n, taggingError');
  }

  lemma TagStepWritten(codec: Codec, sheet: Sheet, written: seq<map<string, string>>, n: nat,
    written': seq<map<string, string>>)
    requires n < |sheet.songs| && |written| == n
    requires forall k :: 0 <= k < n ==> written[k] == FileTags(codec, sheet, k)
    requires written' == written + [FileTags(codec, sheet, n)]
    ensures |written'| == n + 1
    ensures forall k :: 0 <= k < n + 1 ==> written'[k] == FileTags(codec, sheet, k)
  {
    assert forall k :: 0 <= k < n ==> written'[k] == written[k];
  }

  lemma TagStepError(saveOk: nat -> bool, taggingError: bool, n: nat, taggingError': bool)
    requires taggingError <==> exists k :: 0 <= k < n && !saveOk(k)
    requires taggingError' <==> taggingError || !saveOk(n)
    ensures taggingError' <==> exists k :: 0 <= k < n + 1 && !saveOk(k)
  {
    if !saveOk(n) {
      assert exists k :: 0 <= k < n + 1 && !saveOk(k);
    }
  }

  /** Each file's track number reads back as its position counted from 1, so no two
      files share a number. */
  lemma TrackNumberReadsBack(codec: Codec, sheet: Sheet, k: nat)
    requires k < |sheet.songs|
    ensures PyInt(FileTags(codec, sheet, k)["tracknumber"]).Value?
    ensures PyInt(FileTags(codec, sheet, k)["tracknumber"]).value == k + 1
  {
    NatToStringRoundTrip(k + 1);
    PyIntOfDigits(NatToString(k + 1));
  }

  /** The `k`-th file carries the `k`-th song's title and performer and the album's
      fields, under the codec's key for the album performer. */
  lemma FileTagsFollowSheet(codec: Codec, sheet: Sheet, k: nat)
    requires k < |sheet.songs|
    ensures var t := FileTags(codec, sheet, k);
      && t["title"] == sheet.songs[k].title && t["artist"] == sheet.songs[k].performer
      && t[AlbumPerformerKey(codec)] == sheet.performer && t["album"] == sheet.title
      && t["genre"] == sheet.genre && t["date"] == sheet.dateYear
  {
    var t := FileTags(codec, sheet, k);
    assert AlbumPerformerKey(codec) != "title" && AlbumPerformerKey(codec) != "artist";
    assert AlbumPerformerKey(codec) != "album" && AlbumPerformerKey(codec) != "genre";
    assert AlbumPerformerKey(codec) != "date" && AlbumPerformerKey(codec) != "tracknumber";
  }

  /** The tags of the `k`-th file of a parsed cuesheet, in terms of its lines: the genre
      tag is the value of the last REM GENRE line before the first track, the date tag
      that of the last REM DATE line when all digits, and "" where there is none. */
  lemma TagsOfParse(codec: Codec, lines: seq<string>, base: string, isFile: string -> bool, k: nat)
    requires Parse(Some(lines), base, isFile).Value?
    requires k < |Parse(Some(lines), base, isFile).value.songs|
    ensures var sheet := Parse(Some(lines), base, isFile).value;
      var t := FileTags(codec, sheet, k);
      var g := LastKeyLine(HeaderSection(lines), "REM GENRE");
      var d := LastKeyLine(HeaderSection(lines), "REM DATE");
      && t["title"] == sheet.songs[k].title && t["artist"] == sheet.songs[k].performer
      && (g.Some? ==> FieldValue(g.value, 9) == Value(t["genre"]))
      && (g.None? ==> t["genre"] == [])
      && (d.Some? ==> FieldValue(d.value, 8).Value? && t["date"] == YearOf(FieldValue(d.value, 8).value))
      && (d.None? ==> t["date"] == [])
  {
    var sheet := Parse(Some(lines), base, isFile).value;
    FileTagsFollowSheet(codec, sheet, k);
    ParseGenreDate(lines, base, isFile);
  }
}

=== FILE: timestamps.dfy ===
/** The INDEX time-stamp normaliser: rewrites the frame field (75 frames per second) of
    every INDEX line into a ten-digit decimal fraction of a second, so that the cutting
    tool can locate each cut to the sample. Lines are `readlines()` lines. */
module Timestamps {
  import opened Outcomes
  import opened PyStr
  import opened PyNum

  /** CD frames per second. */
  const FramesPerSecond: nat := 75

  /** `frames * (1.0 / 75) * 10000000000` rounded to an integer, as the `{:010.0f}`
      format does. The exact value is `frames * 400000000 / 3`, whose fractional part is
      0, 1/3 or 2/3, so the nearest integer is never a tie and floating-point error far
      below 1/6 cannot change it. */
  function FrameTicks(frames: int): (r: int)
    ensures -1 <= 3 * r - frames * 400_000_000 <= 1
    ensures -25 <= FramesPerSecond * r - frames * Scale <= 25
    ensures frames >= 0 ==> r >= 0
  {
    (frames * 400_000_000 + 1) / 3
  }

  /** The frame field rendered as the ten-digit fraction, `{:010.0f}`. */
  function FrameDigits(frames: int): string {
    ZeroPadInt(FrameTicks(frames), 10)
  }

  // ---------------------------------------------------------------------------------
  // As written

  /** The loop body of `convert_temp_cuesheet_to_milliseconds` for an INDEX line, as
      written. With a tail of any other length `convertedLine` is not assigned, so the line
      becomes the previous INDEX line's result `prev`, or UnboundLocalError is raised when
      there was none. */
  function ConvertAsWritten(line: string, prev: Option<string>): Outcome<string> {
    var (prefix, tail) := RPartition(line, ':');
    if '.' in tail then Value(line)
    else if |tail| == 3 then
      var frames :- PyInt(tail);
      Value(prefix + "." + FrameDigits(frames) + "\n")
    else if |tail| == 4 then Value(prefix + "." + tail)
    else if prev.Some? then Value(prev.value)
    else Raised
  }

  /** The normaliser as written: `prev` carries `convertedLine` from line to line. */
  function NormalizeAsWrittenFrom(lines: seq<string>, prev: Option<string>)
    : (r: Outcome<seq<string>>)
    ensures r.Value? ==> |r.value| == |lines|
    decreases |lines|
  {
    if lines == [] then Value([])
    else if !Contains(lines[0], "INDEX") then
      var rest :- NormalizeAsWrittenFrom(lines[1..], prev);
      Value([lines[0]] + rest)
    else
      var c :- ConvertAsWritten(lines[0], prev);
      var rest :- NormalizeAsWrittenFrom(lines[1..], Some(c));
      Value([c] + rest)
  }

  function NormalizeAsWritten(lines: seq<string>): Outcome<seq<string>> {
    NormalizeAsWrittenFrom(lines, None)
  }

  // ---------------------------------------------------------------------------------
  // Corrected

  /** A tail split into its text and its line break ("" on a last line without one). */
  function SplitBreak(tail: string): (r: (string, string))
    ensures r.0 + r.1 == tail && (r.1 == "" || r.1 == "\n")
  {
    if tail != [] && tail[|tail| - 1] == '\n' then (tail[..|tail| - 1], "\n") else (tail, "")
  }

  /** The corrected rewrite of one line: the frame field is recognised by its two digits
      whether or not a line break follows, and an INDEX line of any other unrecognised
      shape is left as it is instead of taking another line's value. */
  function NormalizeLine(line: string): (r: Outcome<string>)
    ensures !Contains(line, "INDEX") ==> r == Value(line)
  {
    if !Contains(line, "INDEX") then Value(line)
    else
      var (prefix, tail) := RPartition(line, ':');
      RewriteTail(line, prefix, tail)
  }

  /** The corrected rewrite of an INDEX line split at its last colon. */
  function RewriteTail(line: string, prefix: string, tail: string): Outcome<string> {
    var (body, eol) := SplitBreak(tail);
    if '.' in tail then Value(line)
    else if |body| == 2 then
      var frames :- PyInt(tail);
      Value(prefix + "." + FrameDigits(frames) + eol)
    else if |body| == 3 then Value(prefix + "." + tail)
    else Value(line)
  }

  /** The corrected normaliser, which the split pipeline uses: every line rewritten by
      itself; it raises exactly when some frame field is not a number. */
  function Normalize(lines: seq<string>): (r: Outcome<seq<string>>)
    ensures r.Value? ==> |r.value| == |lines|
    ensures r.Value? ==> forall i :: 0 <= i < |lines| ==> NormalizeLine(lines[i]) == Value(r.value[i])
    ensures r.Raised? ==> exists i :: 0 <= i < |lines| && NormalizeLine(lines[i]).Raised?
  {
    if lines == [] then Value([])
    else
      var c :- NormalizeLine(lines[0]);
      var rest :- Normalize(lines[1..]);
      Value([c] + rest)
  }
}

=== FILE: timestamps_props.dfy ===
/** What the normaliser promises: the frame field becomes the ten-digit fraction of a
    second, milliseconds are joined with a point, a rewritten line is left alone by a
    second pass, and the source agrees with the corrected rewrite on well-formed input. */
module TimestampsProps {
  import opened Outcomes
  import opened PyStr
  import opened PyNum
  import opened Timestamps

  /** An INDEX line is rewritten by what follows its last colon. */
  lemma IndexLine(prefix: string, tail: string)
    requires Contains(prefix, "INDEX") && ':' !in tail
    ensures var line := prefix + [':'] + tail;
      NormalizeLine(line) == RewriteTail(line, prefix, tail)
  {
    var line := prefix + [':'] + tail;
    ContainsInPrefix(line, "INDEX", |prefix|);
    assert line[..|prefix|] == prefix;
    RPartitionAt(prefix, tail, ':');
  }

  /** Two digits are at most ten digits' worth of fraction: below 75 frames, exactly ten
      digits whose value is the rounded fraction; zero frames give ten zeros. */
  lemma FrameDigitsWidth(v: nat)
    ensures v < FramesPerSecond ==>
      var f := FrameDigits(v);
      |f| == 10 && AllDigits(f) && DigitsValue(f) == FrameTicks(v)
    ensures FrameDigits(0) == "0000000000"
  {
    ScaleIsPow10();
    assert FrameTicks(0) == 0;
    assert NatToString(0) == "0";
  }

  /** A two-digit frame field `d`, with or without a line break, is replaced by the
      rounded fraction of a second `d / 75`, with a point for the last colon. */
  lemma FrameField(prefix: string, d: string, eol: string)
    requires Contains(prefix, "INDEX")
    requires |d| == 2 && AllDigits(d) && (eol == "" || eol == "\n")
    ensures NormalizeLine(prefix + [':'] + (d + eol)) ==
      Value(prefix + "." + FrameDigits(DigitsValue(d)) + eol)
  {
    var tail := d + eol;
    assert IsDigit(d[0]) && IsDigit(d[1]);
    assert ':' !in tail && '.' !in tail;
    IndexLine(prefix, tail);
    if eol == "" {
      assert tail == d;
      PyIntOfDigits(d);
    } else {
      assert tail[..2] == d;
      PyIntOfDigitsBreak(d);
    }
    assert SplitBreak(tail) == (d, eol);
  }

  /** A three-digit milliseconds field is joined to the seconds with a point. */
  lemma MillisecondsField(prefix: string, d: string, eol: string)
    requires Contains(prefix, "INDEX")
    requires |d| == 3 && AllDigits(d) && (eol == "" || eol == "\n")
    ensures NormalizeLine(prefix + [':'] + (d + eol)) == Value(prefix + "." + d + eol)
  {
    var tail := d + eol;
    assert IsDigit(d[0]) && IsDigit(d[1]) && IsDigit(d[2]);
    assert ':' !in tail && '.' !in tail;
    IndexLine(prefix, tail);
    if eol != "" {
      assert tail[..3] == d;
    } else {
      assert tail == d;
    }
    assert SplitBreak(tail) == (d, eol);
    assert prefix + "." + tail == prefix + "." + d + eol;
  }

  /** A line whose text after the last colon holds a point is left alone. */
  lemma PointLeftAlone(line: string)
    requires '.' in RPartition(line, ':').1
    ensures NormalizeLine(line) == Value(line)
  {
  }

  /** `x` holds a point and no colon: appended to a line, it leaves the line untouched by
      the rewrite. */
  lemma SuffixWithPoint(prefix: string, x: string)
    requires ':' !in x && '.' in x
    ensures NormalizeLine(prefix + x) == Value(prefix + x)
  {
    RPartitionAppend(prefix, x, ':');
  }

  /** Rewriting a rewritten line changes nothing. */
  lemma NormalizeLineIdempotent(line: string)
    requires NormalizeLine(line).Value?
    ensures NormalizeLine(NormalizeLine(line).value) == NormalizeLine(line)
  {
    if Contains(line, "INDEX") {
      var (prefix, tail) := RPartition(line, ':');
      if RewriteTail(line, prefix, tail).value != line {
        RewriteIdempotent(line, prefix, tail);
      }
    }
  }

  /** Text after a point with no colon in it is left alone by the rewrite. */
  lemma PointThen(prefix: string, t: string)
    requires ':' !in t
    ensures NormalizeLine(prefix + "." + t) == Value(prefix + "." + t)
  {
    var x := "." + t;
    assert ':' !in x && '.' in x by {
      assert x[0] == '.';
      assert x[1..] == t;
    }
    assert prefix + "." + t == prefix + x;
    SuffixWithPoint(prefix, x);
  }

  /** A rewrite that changes the line puts a point before text without a colon, so a
      second rewrite leaves it alone. */
  lemma RewriteIdempotent(line: string, prefix: string, tail: string)
    requires RewriteTail(line, prefix, tail).Value?
    requires RewriteTail(line, prefix, tail).value != line
    requires ':' !in tail
    ensures NormalizeLine(RewriteTail(line, prefix, tail).value) == RewriteTail(line, prefix, tail)
  {
    var (body, eol) := SplitBreak(tail);
    if |body| == 2 {
      var f := FrameDigits(PyInt(tail).value);
      assert ':' !in f + eol by {
        forall k | 0 <= k < |f + eol| ensures (f + eol)[k] != ':' {
          if k < |f| {
            assert (f + eol)[k] == f[k];
          }
        }
      }
      assert prefix + "." + f + eol == prefix + "." + (f + eol);
      PointThen(prefix, f + eol);
    } else {
      PointThen(prefix, tail);
    }
  }

  /** Lines that the rewrite leaves alone are left alone by the whole normaliser. */
  lemma {:induction false} NormalizeFixed(lines: seq<string>)
    requires forall i :: 0 <= i < |lines| ==> NormalizeLine(lines[i]) == Value(lines[i])
    ensures Normalize(lines) == Value(lines)
  {
    if lines != [] {
      NormalizeFixed(lines[1..]);
      assert [lines[0]] + lines[1..] == lines;
    }
  }

  /** Normalising a normalised cuesheet changes nothing. */
  lemma NormalizeIdempotent(lines: seq<string>)
    requires Normalize(lines).Value?
    ensures Normalize(Normalize(lines).value) == Normalize(lines)
  {
    var n := Normalize(lines).value;
    forall i | 0 <= i < |n| ensures NormalizeLine(n[i]) == Value(n[i]) {
      NormalizeLineIdempotent(lines[i]);
    }
    NormalizeFixed(n);
  }

  /** Every INDEX line is in one of the shapes the source handles: a point after the
      last colon, or two or three digits' worth of tail ended by a line break. */
  predicate WellFormedIndexLines(lines: seq<string>) {
    forall i :: 0 <= i < |lines| && Contains(lines[i], "INDEX") ==>
      var tail := RPartition(lines[i], ':').1;
      '.' in tail || ((|tail| == 3 || |tail| == 4) && tail[|tail| - 1] == '\n')
  }

  /** On well-formed INDEX lines the source's rewrite and the corrected one agree, whatever
      `convertedLine` held before. */
  lemma {:induction false} AsWrittenAgrees(lines: seq<string>, prev: Option<string>)
    requires WellFormedIndexLines(lines)
    ensures NormalizeAsWrittenFrom(lines, prev) == Normalize(lines)
    decreases |lines|
  {
    if lines != [] {
      assert WellFormedIndexLines(lines[1..]) by {
        forall i | 0 <= i < |lines[1..]| ensures lines[1..][i] == lines[i + 1] {
        }
      }
      if Contains(lines[0], "INDEX") {
        var c := ConvertAsWritten(lines[0], prev);
        assert c == NormalizeLine(lines[0]);
        if c.Value? {
          AsWrittenAgrees(lines[1..], Some(c.value));
        }
      } else {
        AsWrittenAgrees(lines[1..], prev);
      }
    }
  }

  /** The source's rewrite of a last line whose two-digit frame field has no line break:
      the tail is two characters long, so the line becomes the previous INDEX line's
      result. */
  lemma AsWrittenStale(prefix: string, d: string, prev: string)
    requires Contains(prefix, "INDEX")
    requires |d| == 2 && AllDigits(d)
    ensures ConvertAsWritten(prefix + [':'] + d, Some(prev)) == Value(prev)
  {
    assert IsDigit(d[0]) && IsDigit(d[1]);
    RPartitionAt(prefix, d, ':');
  }

  /** The source's rewrite of a frame field ended by a line break. */
  lemma AsWrittenFrames(prefix: string, d: string, prev: Option<string>)
    requires Contains(prefix, "INDEX")
    requires |d| == 2 && AllDigits(d)
    ensures ConvertAsWritten(prefix + [':'] + (d + "\n"), prev) ==
      Value(prefix + "." + FrameDigits(DigitsValue(d)) + "\n")
  {
    var tail := d + "\n";
    assert IsDigit(d[0]) && IsDigit(d[1]);
    assert ':' !in tail && '.' !in tail;
    RPartitionAt(prefix, tail, ':');
    PyIntOfDigitsBreak(d);
  }

  /** One step of the corrected normaliser. */
  lemma NormalizeCons(a: string, rest: seq<string>, ca: string, cr: seq<string>)
    requires NormalizeLine(a) == Value(ca) && Normalize(rest) == Value(cr)
    ensures Normalize([a] + rest) == Value([ca] + cr)
  {
    var l := [a] + rest;
    assert l[0] == a && l[1..] == rest;
  }

  /** One step of the source's normaliser on an INDEX line. */
  lemma AsWrittenCons(a: string, rest: seq<string>, prev: Option<string>, ca: string, cr: seq<string>)
    requires Contains(a, "INDEX") && ConvertAsWritten(a, prev) == Value(ca)
    requires NormalizeAsWrittenFrom(rest, Some(ca)) == Value(cr)
    ensures NormalizeAsWrittenFrom([a] + rest, prev) == Value([ca] + cr)
  {
    var l := [a] + rest;
    assert l[0] == a && l[1..] == rest;
  }

  /** The corrected normaliser on two lines. */
  lemma NormalizePair(a: string, b: string, ca: string, cb: string)
    requires NormalizeLine(a) == Value(ca) && NormalizeLine(b) == Value(cb)
    ensures Normalize([a, b]) == Value([ca, cb])
  {
    var none: seq<string> := [];
    var one, cone := [b], [cb];
    assert one == [b] + none && cone == [cb] + none;
    NormalizeCons(b, none, cb, none);
    assert Normalize(one) == Value(cone);
    NormalizeCons(a, one, ca, cone);
    assert [a] + one == [a, b] && [ca] + cone == [ca, cb];
  }

  /** The source's normaliser on two INDEX lines. */
  lemma AsWrittenPair(a: string, b: string, ca: string, cb: string)
    requires Contains(a, "INDEX") && Contains(b, "INDEX")
    requires ConvertAsWritten(a, None) == Value(ca)
    requires ConvertAsWritten(b, Some(ca)) == Value(cb)
    ensures NormalizeAsWritten([a, b]) == Value([ca, cb])
  {
    var none: seq<string> := [];
    var one, cone := [b], [cb];
    assert one == [b] + none && cone == [cb] + none;
    assert NormalizeAsWrittenFrom(none, Some(cb)) == Value(none);
    AsWrittenCons(b, none, Some(ca), cb, none);
    assert NormalizeAsWrittenFrom(one, Some(ca)) == Value(cone);
    AsWrittenCons(a, one, None, ca, cone);
    assert [a] + one == [a, b] && [ca] + cone == [ca, cb];
  }

  /** Two INDEX lines, the last without a line break: the source repeats the first
      line's result. */
  lemma StaleAsWritten(p1: string, p2: string, d1: string, d2: string)
    requires Contains(p1, "INDEX") && Contains(p2, "INDEX")
    requires |d1| == 2 && AllDigits(d1) && |d2| == 2 && AllDigits(d2)
    ensures var c := p1 + "." + FrameDigits(DigitsValue(d1)) + "\n";
      NormalizeAsWritten([p1 + [':'] + (d1 + "\n"), p2 + [':'] + d2]) == Value([c, c])
  {
    var l1, l2 := p1 + [':'] + (d1 + "\n"), p2 + [':'] + d2;
    var c := p1 + "." + FrameDigits(DigitsValue(d1)) + "\n";
    assert Contains(l1, "INDEX") by {
      ContainsInPrefix(l1, "INDEX", |p1|);
      assert l1[..|p1|] == p1;
    }
    assert Contains(l2, "INDEX") by {
      ContainsInPrefix(l2, "INDEX", |p2|);
      assert l2[..|p2|] == p2;
    }
    AsWrittenFrames(p1, d1, None);
    AsWrittenStale(p2, d2, c);
    AsWrittenPair(l1, l2, c, c);
  }

  /** The same two lines under the corrected rewrite: each converts its own field. */
  lemma StaleCorrected(p1: string, p2: string, d1: string, d2: string)
    requires Contains(p1, "INDEX") && Contains(p2, "INDEX")
    requires |d1| == 2 && AllDigits(d1) && |d2| == 2 && AllDigits(d2)
    ensures Normalize([p1 + [':'] + (d1 + "\n"), p2 + [':'] + d2]) ==
      Value([p1 + "." + FrameDigits(DigitsValue(d1)) + "\n", p2 + "." + FrameDigits(DigitsValue(d2))])
  {
    var l1, l2 := p1 + [':'] + (d1 + "\n"), p2 + [':'] + d2;
    var c1, c2 := p1 + "." + FrameDigits(DigitsValue(d1)) + "\n", p2 + "." + FrameDigits(DigitsValue(d2));
    FrameField(p1, d1, "\n");
    assert NormalizeLine(l1) == Value(c1);
    LastFrameField(p2, d2);
    NormalizePair(l1, l2, c1, c2);
  }

  /** A frame field on a last line without a line break. */
  lemma LastFrameField(prefix: string, d: string)
    requires Contains(prefix, "INDEX")
    requires |d| == 2 && AllDigits(d)
    ensures NormalizeLine(prefix + [':'] + d) == Value(prefix + "." + FrameDigits(DigitsValue(d)))
  {
    FrameField(prefix, d, "");
    assert d + "" == d;
    assert prefix + "." + FrameDigits(DigitsValue(d)) + "" == prefix + "." + FrameDigits(DigitsValue(d));
  }

  /** The two cuesheet lines of the counterexample, taken apart. */
  lemma StaleLines()
    ensures "INDEX 01 00:00" + [':'] + ("30" + "\n") == "INDEX 01 00:00:30\n"
    ensures "INDEX 01 03:15" + [':'] + "30" == "INDEX 01 03:15:30"
    ensures "INDEX 01 00:00" + "." + "4000000000" + "\n" == "INDEX 01 00:00.4000000000\n"
    ensures "INDEX 01 03:15" + "." + "4000000000" == "INDEX 01 03:15.4000000000"
    ensures Contains("INDEX 01 00:00", "INDEX") && Contains("INDEX 01 03:15", "INDEX")
    ensures AllDigits("30")
  {
    assert OccursAt("INDEX 01 00:00", "INDEX", 0);
    assert OccursAt("INDEX 01 03:15", "INDEX", 0);
    assert IsDigit("30"[0]) && IsDigit("30"[1]);
  }

  /** A cuesheet whose last INDEX line has no line break: the source gives it the previous
      INDEX line's time stamp, while the corrected rewrite converts its own. */
  lemma StaleCounterexample()
    ensures NormalizeAsWritten(["INDEX 01 00:00:30\n", "INDEX 01 03:15:30"]) ==
      Value(["INDEX 01 00:00.4000000000\n", "INDEX 01 00:00.4000000000\n"])
    ensures Normalize(["INDEX 01 00:00:30\n", "INDEX 01 03:15:30"]) ==
      Value(["INDEX 01 00:00.4000000000\n", "INDEX 01 03:15.4000000000"])
  {
    StaleLines();
    ThirtyFrames();
    StaleAsWritten("INDEX 01 00:00", "INDEX 01 03:15", "30", "30");
    StaleCorrected("INDEX 01 00:00", "INDEX 01 03:15", "30", "30");
  }

  /** Thirty frames are four tenths of a second. */
  lemma ThirtyFrames()
    ensures DigitsValue("30") == 30 && FrameDigits(30) == "4000000000"
  {
    assert DigitsValue("30") == 30 by {
      assert "30"[..1] == "3";
    }
    var t := FrameTicks(30);
    assert t == 4000000000;
    FourTenths();
    assert FrameDigits(30) == PadZero(NatToString(t), 10);
  }

  lemma FourTenths()
    ensures NatToString(4000000000) == "4000000000"
  {
    ScaleIsPow10();
    assert Pow10(10) == 10 * Pow10(9);
    FourThenZeros(9);
    assert "4" + Zeros(9) == "4000000000";
  }

  /** `str` of four times a power of ten: a `4` and then the zeros. */
  lemma {:induction false} FourThenZeros(k: nat)
    ensures NatToString(4 * Pow10(k)) == "4" + Zeros(k)
    decreases k
  {
    if k == 0 {
      assert NatToString(4) == "4";
    } else {
      FourThenZeros(k - 1);
      var n := 4 * Pow10(k - 1);
      var m := 4 * Pow10(k);
      assert m == n * 10 && m >= 10 && m / 10 == n && m % 10 == 0;
      assert NatToString(m) == NatToString(n) + [DigitChar(0)];
      assert Zeros(k) == Zeros(k - 1) + "0";
    }
  }
}
